=== FILE: README.md ===
# Firefly in Dafny

A model of the discrete core of the Firefly effect. Firefly is a Unity ECS demo that
breaks template meshes into per-triangle entities and animates them. This covers:

- **Spawn tessellation.** Three spawners turn every triangle of a template mesh into an
  entity: the Firefly instancer, its older revision, and the two Fly spawners. The entity
  holds the triangle re-centred on its centroid and a position at that centroid.
- **The weighted variant table.** The Firefly instancer's sixteen-entry default entity table
  is normalised into a cumulative distribution. It is sampled per triangle to choose which
  particle variant template is cloned. It is cleared again after each spawn.
- **Triangle-slot allocation.** Two schemes assign the vertex and normal buffers' slots:
  - The Firefly reconstruction jobs claim slots through a shared fetch-and-add counter,
    under any interleaving of the parallel-for.
  - The Fly construction job writes fly `i` into the fixed slots `3i..3i+2`.
  The five reconstruction systems share one update loop, which differs only in three
  switches: skip a renderer without arrays, skip an empty group, reset the counter.
- **Per-entity animation.** The curl-noise step of the animation systems, the noise
  effector chain, and the shapes each reconstruction job emits: butterfly, folded square and
  spinning facet.
- **Expiration.** The strict lifetime test `Life > 3 + Random * 5`, and the command buffer
  that destroys the expired entities.
- **Mesh-cache bookkeeping.** The list of mesh caches of `FlyAnimationSystem`.

Floats are modelled as mathematical reals. `normalize` is `rsqrt(dot(v, v)) * v`, as in
Unity.Mathematics. `rsqrt`, `sin`, the noise gradient, `Random.Value01`, axis-angle
rotation and the transforms are uninterpreted functions carried in a `MathLib` record.

The ECS entity manager is a map from entity numbers to component records, with the next
number to hand out. Exceptions and out-of-range writes in the source become faults, not
preconditions. A fault is raised where the source raises it, after the effects that come
before it. For example, a source entity without a `ButterflyParticle` component throws
after the ID counter, the renderer list and the simple template have changed.

## Model

| member | source | states |
|---|---|---|
| `Vec.Saturate` | Assets/Firefly/ParticleAnimationSystem.cs:31 | the result lies in the unit interval, is 0 at or below 0, 1 at or above 1, and the input itself in between |
| `Vec.Lerp` | Assets/Firefly/DisintegratorSystems.cs:107-111 | the blend is the first point at weight 0 and the second at weight 1 |
| `Facets.Recentre` | Assets/Firefly/Instance.cs:218-228 | the stored facet's vertices sum to zero, and placing it back at the stored centre reproduces the source triangle exactly |
| `Facets.PlaceTranslates` | Assets/FlySystem.cs:26-28 | adding the position to every vertex moves the centroid by exactly that position |
| `Facets.CentredPlacedAt` | Assets/FlySystem.cs:26-28 | a centred facet drawn at a position has its centroid at that position |
| `Shapes.Placed` | Assets/Firefly/ParticleReconstructionSystem.cs:63-65 | the resting triangle of a centred facet is centred on the entity's position |
| `Meshes.TriangleCount` | Assets/Firefly/Instance.cs:244 | the count is the number of complete index triples: three per triangle fit in the index array and a fourth triple would not |
| `Meshes.Corners` | Assets/Firefly/Instance.cs:206-208 | a triangle whose index slots repeat a vertex has coincident corners |
| `Slots.FaceNormalOrthogonal` | Assets/Firefly/DisintegratorSystems.cs:67 | the flat normal is orthogonal to both edges out of the first corner, and zero for a triangle with a repeated corner |
| `Shapes.FlapFrequency` | Assets/Firefly/DisintegratorSystems.cs:95 | a random value in the unit interval gives a flap frequency between 8 and 28 |
| `ButterflyShape.Frame` | Assets/Firefly/ParticleReconstructionSystem.cs:55-60 | the sideways axis is horizontal, and the three axes are mutually orthogonal whatever the flap |
| `ButterflyShape.WingPoints` | Assets/Firefly/ParticleReconstructionSystem.cs:67-72 | the two body points are symmetric about the position; each wing tip is its root moved by twice the sideways axis; the two roots are twice the forward axis apart |
| `ButterflyShape.Shape` | Assets/Firefly/ParticleReconstructionSystem.cs:74-85 | four triangles; at age 0 or below, the first is the resting facet, the last its reversal, and the middle two have no area; from age 1 on, exactly the butterfly triangles |
| `ButterflyShape.IndexedButterfly` | Assets/Firefly/ParticleReconstructionSystem.cs:44-86 | four triangles; a particle of age at most 0 shows its facet, and from age 1 on the body's first edge is centred on the position |
| `ButterflyShape.SeededButterfly` | Assets/Firefly/ButterflyParticle.cs:54-97 | the same guarantees for the revision that ages by `Time` and keys the flap by the particle's own `Random` |
| `ButterflyShape.ShapeTranslates` | Assets/Firefly/ButterflyParticleSystem.cs:59-71 | moving an entity moves its four triangles by the same offset and changes nothing else |
| `DisintegratorShape.Frame` | Assets/Firefly/DisintegratorSystems.cs:89-99 | the sideways half-extent is horizontal, and the three half-extents are mutually orthogonal whatever the flap |
| `DisintegratorShape.Corners` | Assets/Firefly/DisintegratorSystems.cs:100-104 | the four corners form a parallelogram with sides twice the sideways and forward axes, centred one up-axis above the hinge |
| `DisintegratorShape.Shape` | Assets/Firefly/DisintegratorSystems.cs:106-116 | each half is emitted with both windings; at rest both halves are the facet; from age 1 on they are the hinged square halves |
| `DisintegratorShape.Fragment` | Assets/Firefly/DisintegratorSystems.cs:84-117 | four triangles in two reversed pairs; the facet at age at most 0; the hinge at the position from age 1 on |
| `SimpleShape.SpinAxis` | Assets/Firefly/SimpleParticle.cs:46 | the spin axis is orthogonal to the facet's first vertex and to the nudged velocity |
| `SimpleShape.Spin` | Assets/Firefly/SimpleParticle.cs:45-52 | one triangle whose corners, relative to the position, are the facet's vertices turned by three radians per unit of age |
| `SimpleShape.AtRest` | Assets/Firefly/SimpleParticleSystem.cs:30-37 | when a zero angle turns nothing, a particle of age zero shows its facet placed at its position, unturned |
| `SimpleShape.TurnedCentred` | Assets/Firefly/SimpleParticle.cs:50-52 | a rotation that distributes over addition keeps a centred facet centred |
| `SimpleShape.SpinsAboutPosition` | Assets/Firefly/SimpleParticle.cs:45-52 | at any age, the spun triangle of a centred facet keeps its centroid at the particle's position |
| `Slots.WriteTriangle` | Assets/Firefly/DisintegratorSystems.cs:75-81 | triangle slot `k` holds the three corners and the flat normal three times; no other vertex or normal slot changes |
| `Slots.HoldsPreserved` | Assets/Firefly/DisintegratorSystems.cs:75-81 | a triangle slot outside a rewritten range keeps its contents |
| `Slots.SameOutsideTrans` | Assets/Firefly/ParticleReconstruction.cs:62 | two rewrites confined to a range compose into one rewrite confined to it |
| `Slots.AddTriangle` | Assets/Firefly/DisintegratorSystems.cs:70-82 | the counter goes up by one; the pre-increment value names the slot that now holds the triangle and its normal; nothing outside that slot changes |
| `Slots.FlattenAppend` | Assets/Firefly/DisintegratorSystems.cs:113-116 | the sequential emission order of two batches of work items is the order of the first followed by that of the second |
| `Slots.FlattenAt` | Assets/Firefly/DisintegratorSystems.cs:113-116 | triangle `j` of work item `i` sits at the item's offset plus `j` in the sequential order |
| `Slots.UniformLength` | Assets/Firefly/DisintegratorSystems.cs:113-116 | `n` triangles per work item make `n` times the item count in all |
| `Slots.UniformOffset` | Assets/Firefly/DisintegratorSystems.cs:113-116 | with `n` triangles per item, item `i` starts at `n * i` in the sequential order |
| `Slots.Row` | Assets/Firefly/DisintegratorSystems.cs:113-116 | the emission events of one work item are its triangles `0..n-1` in order |
| `Slots.EventsExact` | Assets/Firefly/DisintegratorSystems.cs:84-117 | the sequential run has one event per triangle: exactly the valid (item, triangle) pairs, none twice |
| `Slots.DistinctCountsOne` | Assets/Firefly/DisintegratorSystems.cs:151 | an event of a repetition-free run occurs in it exactly once |
| `Slots.TwoOccurrences` | Assets/Firefly/DisintegratorSystems.cs:151 | an event found at two positions occurs at least twice |
| `Slots.ScheduleCoversOnce` | Assets/Firefly/DisintegratorSystems.cs:151 | any interleaving of the parallel-for has as many events as there are triangles, each valid, every triangle among them, none twice |
| `Slots.RunJob` | Assets/Firefly/DisintegratorSystems.cs:142-151 | a job run in any interleaving advances the counter by its event count; event `e` lands in slot `count + e`; no slot outside the claimed range changes |
| `Slots.ParallelRunPlacesEachTriangleOnce` | Assets/Firefly/DisintegratorSystems.cs:73 | after a parallel run, every triangle of every work item occupies exactly one claimed slot, and the counter ends at the start plus the triangle total |
| `Slots.IndexRamp` | Assets/Firefly/RendererSystem.cs:28 | the index array has one entry per vertex slot, and entry `i` is `i` |
| `Slots.RampTriangle` | Assets/FlySystem.cs:72-74 | with the ramp as index array, mesh triangle `k` is drawn from exactly the vertex slots triangle slot `k` writes |
| `Dispatch.BeforeMonotone` | Assets/Firefly/ParticleReconstruction.cs:43-63 | the start of a later job of one renderer is never before the start of an earlier one |
| `Dispatch.JobRangesDisjoint` | Assets/Firefly/ParticleReconstruction.cs:43-63 | the chained jobs of one renderer own consecutive, disjoint slot ranges |
| `Dispatch.LandsPreserved` | Assets/Firefly/ParticleReconstruction.cs:62 | a triangle already in place stays in place while a later job writes past its range |
| `Dispatch.JobsLand` | Assets/Firefly/ParticleReconstruction.cs:62 | running one more chained job keeps the earlier jobs' triangles and adds its own |
| `Dispatch.RanStep` | Assets/Firefly/ParticleReconstruction.cs:43-63 | running one more chained job extends the renderer's run by that job |
| `Dispatch.RunJobs` | Assets/Firefly/ParticleReconstruction.cs:43-63 | a renderer's chained jobs advance its counter by their total; each triangle lands once, inside its own job's range; no slot outside the claimed ranges changes |
| `Dispatch.Started` | Assets/Firefly/DisintegratorSystems.cs:139 | the jobs start counting from zero when the system resets the counter, and from the carried-over value otherwise |
| `Dispatch.Aborts` | Assets/Firefly/ButterflyParticleSystem.cs:115-116 | the loop stops at the first renderer without arrays that would run a job, since taking the address of its first vertex throws on the main thread; no earlier renderer is such a one |
| `Dispatch.Reconstruct` | Assets/Firefly/DisintegratorSystems.cs:130-157 | the update goes through exactly when no renderer fails; a live renderer fails only when it has triangles to store past the end of its buffers, so an empty group never overflows; otherwise the fault names the first failing renderer and says whether it had no arrays or overflowed; an overflow inside a worker job does not stop the loop, so every renderer before the first array-less one that does not fail has had its turn (passed over when idle, every job run from the started counter otherwise), and the renderers from that one on are unchanged |
| `Dispatch.LiveTurn` | Assets/Firefly/ButterflyParticleSystem.cs:103-121 | the turn of a renderer with arrays overflows exactly when it has triangles to store past the end of its buffers; otherwise it is passed over when idle and has every job run from the started counter when not |
| `Dispatch.EmptyGroupPassedOver` | Assets/Firefly/ButterflyParticleSystem.cs:108-109 | a renderer with nothing to draw never overflows, whatever its counter; a system that skips empty groups leaves it untouched |
| `ReconstructionSystems.FragmentItems` | Assets/Firefly/DisintegratorSystems.cs:142-151 | one work item of four triangles per fragment, the flap keyed by the index in the group |
| `ReconstructionSystems.IndexedButterflyItems` | Assets/Firefly/ParticleReconstructionSystem.cs:115-124 | one work item of four butterfly triangles per particle |
| `ReconstructionSystems.SeededButterflyItems` | Assets/Firefly/ButterflyParticleSystem.cs:112-120 | one work item of four butterfly triangles per particle, keyed by its own random value |
| `ReconstructionSystems.LifeSpinItems` | Assets/Firefly/SimpleParticleSystem.cs:75-84 | one spun facet per particle, aged by `Life` |
| `ReconstructionSystems.TimeSpinItems` | Assets/Firefly/SimpleParticle.cs:40-63 | one spun facet per particle, aged by `Time` |
| `ReconstructionSystems.SingleJobTotal` | Assets/Firefly/DisintegratorSystems.cs:151 | a single job of `n` items with `m` triangles each claims `m * n` slots |
| `ReconstructionSystems.ResetCountsThisFrame` | Assets/Firefly/DisintegratorSystems.cs:139 | in the two systems that reset the counter and schedule even empty groups, the counter after the update is exactly this frame's triangle count |
| `ReconstructionSystems.CounterCarriesOver` | Assets/Firefly/SimpleParticleSystem.cs:62-90 | without the reset, the counter grows by this frame's triangles and the earlier frames' slots keep their vertices |
| `ReconstructionSystems.DisintegratorCapacity` | Assets/Firefly/Components.cs:36 | a disintegrator frame fits the 510000-vertex buffers exactly when there are at most 42500 fragments |
| `ReconstructionSystems.IndexedButterflyCapacity` | Assets/Firefly/ParticleReconstructionSystem.cs:112 | the same bound of 42500 particles for the butterfly system of that revision |
| `ReconstructionSystems.SimpleCapacity` | Assets/Firefly/SimpleParticleSystem.cs:39-42 | starting from an empty counter, a simple particle frame fits exactly when there are at most 170000 particles |
| `ReconstructionSystems.ButterflyDefaultRenderer` | Assets/Firefly/ButterflyParticleSystem.cs:105-117 | the butterfly system fails on the array-less default renderer exactly when some entity is drawn by it |
| `Animation.Gate` | Assets/Firefly/ParticleAnimationSystem.cs:31 | the step lies between 0 and `deltaTime`; it is 0 until the clock passes `2 - 2y`, and the full `deltaTime` from one second after that |
| `Animation.CurlAcc` | Assets/Firefly/ParticleAnimationSystem.cs:23-29 | the acceleration is orthogonal to both noise gradients, and zero where the two gradients agree |
| `Animation.Advance` | Assets/Firefly/ParticleAnimationSystem.cs:33-35 | position moves by the old velocity times the step, velocity by the acceleration times the step; a zero step changes nothing |
| `Animation.Step` | Assets/Firefly/ParticleAnimationSystem.cs:18-36 | age grows by at most `deltaTime`; an entity below the gate is untouched; one past it ages by the full step; the displacement is the old velocity times the age gained |
| `Animation.ParticleStep` | Assets/Firefly/ParticleAnimationSystem.cs:18-36 | the particle revision applies the step and carries `Random` through unchanged |
| `Animation.DisintegratorStep` | Assets/Firefly/DisintegratorSystems.cs:19-37 | the fragment revision applies the same step to velocity, age and position |
| `Animation.LifeMonotone` | Assets/Firefly/ParticleAnimationSystem.cs:39-46 | over any run of frames with non-negative steps, age never decreases and never grows by more than the elapsed time |
| `Animation.AnimateAll` | Assets/Firefly/ParticleAnimationSystem.cs:39-46 | every entity gets exactly its own step, whatever the others hold |
| `Expiration.Lifetime` | Assets/Firefly/ParticleExpirationSystem.cs:23 | a random value in the unit interval gives a lifetime between 3 and 8 seconds |
| `Expiration.Expired` | Assets/Firefly/ParticleExpirationSystem.cs:23 | for a random value in the unit interval, no particle is expired by 3 seconds and every particle is expired past 8 |
| `Expiration.ExpiryBounds` | Assets/Firefly/ParticleExpirationSystem.cs:23 | the test is strict: a particle exactly at its lifetime survives; none dies by 3 seconds; all are expired after 8 |
| `Expiration.ExpirationJob` | Assets/Firefly/ParticleExpirationSystem.cs:19-26 | the command buffer receives the expired particles' entities in group order |
| `Expiration.DoomedExact` | Assets/Firefly/ParticleExpirationSystem.cs:19-26 | an entity is queued if and only if one of its rows holds an expired particle; with distinct entities, none is queued twice |
| `Expiration.Playback` | Assets/Firefly/ParticleExpirationSystem.cs:24 | playback destroys exactly the queued entities, keeps every other entity's data, and leaves the numbering alone |
| `Expiration.Survivors` | Assets/Firefly/ParticleExpirationSystem.cs:38-46 | after the job and the playback, an entity lives if and only if it lived before and no row holds it as an expired particle |
| `NoiseEffecting.Samples` | Assets/Firefly/NoiseEffector.cs:18-31 | the two noise samples are the scaled point and that point moved 100 along z only |
| `NoiseEffecting.DFNoise` | Assets/Firefly/NoiseEffector.cs:18-31 | the field value is orthogonal to both noise gradients, and zero where the two gradients agree |
| `NoiseEffecting.Amplitude` | Assets/Firefly/NoiseEffector.cs:33-37 | the gate lies in the unit interval: 0 at or behind local z = -0.5, full at or beyond z = 0.5 |
| `NoiseEffecting.StepLength` | Assets/Firefly/NoiseEffector.cs:43 | the gated step lies between 0 and `deltaTime` |
| `NoiseEffecting.Step` | Assets/Firefly/NoiseEffector.cs:39-49 | ID and lifetime randomiser are kept; age grows by the gated step; position moves by the new velocity times that step; a zero amplitude leaves velocity alone |
| `NoiseEffecting.PositionUsesNewVelocity` | Assets/Firefly/NoiseEffector.cs:45-48 | compared with moving at the old velocity, the position runs ahead by acceleration times the step squared |
| `NoiseEffecting.ChainAges` | Assets/Firefly/NoiseEffector.cs:61-73 | a chain of any number of effectors keeps ID and lifetime randomiser and never makes a particle younger |
| `NoiseEffecting.OnUpdate` | Assets/Firefly/NoiseEffector.cs:61-73 | after one job per effector, every particle has exactly its own chain of steps |
| `DefaultEntities.NormalizedAt` | Assets/Firefly/Instance.cs:154-159 | entry `k` of the normalised table keeps its entity and holds the cumulative weight up to `k` over the total, or NaN when the total is zero |
| `DefaultEntities.NormalizeDefaultEntityWeights` | Assets/Firefly/Instance.cs:148-160 | the two passes produce exactly the cumulative distribution: prefix sums over the total, NaN throughout for a zero-total table |
| `DefaultEntities.FirstAbove` | Assets/Firefly/Instance.cs:162-169 | the chosen index is the smallest whose weight exceeds the sample; no choice means no weight exceeds it |
| `DefaultEntities.SelectRandomDefaultEntity` | Assets/Firefly/Instance.cs:162-169 | the scan returns the entity of the first weight above the sample, and `Entity.Null` when there is none |
| `DefaultEntities.NormalizedIsDistribution` | Assets/Firefly/Instance.cs:148-160 | with non-negative weights and a positive total, the normalised table is non-decreasing and ends at exactly 1 |
| `DefaultEntities.TotalMonotone` | Assets/Firefly/Instance.cs:150-152 | with non-negative weights, a longer prefix never has a smaller sum |
| `DefaultEntities.ZeroWeightNeverSelected` | Assets/Firefly/Instance.cs:162-169 | a non-negative sample never selects an entry of weight zero |
| `DefaultEntities.VariantTable` | Assets/Firefly/Instance.cs:276-279 | the table holds sixteen numeric entries |
| `DefaultEntities.WeightedSelectionExample` | Assets/Firefly/Instance.cs:148-169 | weights 2 and 1 normalise to 2/3 and 1; a sample of 0.5 picks the first template and 0.9 the second |
| `DefaultEntities.TotalTail` | Assets/Firefly/Instance.cs:150-152 | weightless entries add nothing to the total |
| `DefaultEntities.CleanupDefaultEntityTable` | Assets/Firefly/Instance.cs:171-180 | every entry is reset to the default; exactly the table's entities leave the world; every other entity and the numbering are untouched |
| `Instancing.InitData` | Assets/Firefly/Instance.cs:204-234 | the facet is centred and placed back gives the transformed triangle; the ID is below 2^32 and equals index plus offset exactly when that sum does not wrap; the lifetime randomiser lies in [0.2, 1]; the particle is at rest |
| `Instancing.InitDataDependsOnIndexOnly` | Assets/Firefly/Instance.cs:231-232 | the batch offset changes only the ID, and distinct offsets modulo 2^32 give distinct IDs |
| `Instancing.ModShift` | Assets/Firefly/Instance.cs:231 | adding the same index to two offsets that differ modulo 2^32 keeps them different |
| `Instancing.ModCancel` | Assets/Firefly/Instance.cs:231 | equal wrapped sums with the same index mean equal wrapped offsets |
| `Instancing.Records` | Assets/Firefly/Instance.cs:247-256 | one initial record per triangle, record `i` for triangle `i` |
| `Instancing.Armed` | Assets/Firefly/Instance.cs:277-278 | entries 0 and 1 refer to the two new templates; the other fourteen entries are unchanged |
| `Instancing.Pick` | Assets/Firefly/Instance.cs:289 | a pick names a table index; a zero-total table picks nothing; a non-negative sample never picks an entry of weight zero |
| `Instancing.InstantiateAll` | Assets/Firefly/Instance.cs:286-291 | clones are numbered consecutively, each a copy of the template the table picks for its index; the loop completes exactly when every pick is an entity, and otherwise stops at the first `Entity.Null` |
| `Instancing.SetInitialData` | Assets/Firefly/Instance.cs:296-302 | clone `i` receives triangle `i`'s record, the renderer and the variant it was cloned with; no entity appears or disappears; every other entity is untouched |
| `Instancing.CreateEntitiesOverMesh` | Assets/Firefly/Instance.cs:237-312 | an empty vertex or index array throws before any change; otherwise the counter advances by the triangle count modulo 2^32 and one renderer is queued, and only then a missing simple variant throws with world and table as they were, and a missing butterfly variant throws with the simple template left in the world and at table entry 0; with both variants the spawn completes exactly when every triangle picks one of the two templates, and a complete spawn adds one new clone per triangle with its data and variant, touches no other entity and clears the table |
| `Instancing.Populate` | Assets/Firefly/Instance.cs:244-312 | once both arrays are non-empty: the counter and renderer list move on first; a missing simple variant then throws leaving world and table unchanged; a missing butterfly variant throws after the simple template was created and entered at table entry 0, with the rest of the table unchanged; with both variants the outcome is that of `Instancing.ArmAndClone` |
| `Instancing.ArmAndClone` | Assets/Firefly/Instance.cs:276-312 | with both variants in hand: the spawn completes exactly when every triangle picks one of the two templates; otherwise it stops at the first triangle that picks none; a complete spawn places every clone with its data and variant and clears the table |
| `Instancing.ArmTable` | Assets/Firefly/Instance.cs:276-279 | two templates are created with the renderer and their variants; the normalised table refers to exactly those two |
| `Instancing.ClonesOfTemplates` | Assets/Firefly/Instance.cs:286-291 | every clone is a copy of the simple template or the butterfly template, whichever its index picked |
| `Instancing.Complete` | Assets/Firefly/Instance.cs:294-311 | a spawn whose instantiation loop finished ends with every clone filled in, the templates gone and the table cleared |
| `Instancing.Finish` | Assets/Firefly/Instance.cs:296-307 | after the data is set and the table cleaned up, the world holds exactly the old entities and the clones, and the two templates are gone |
| `Instancing.ConsecutiveIds` | Assets/Firefly/Instance.cs:286-291 | consecutively numbered clones are exactly the numbers in their range, each once |
| `Instancing.ArmedEntities` | Assets/Firefly/Instance.cs:277-279 | after normalisation, entries 0 and 1 still refer to the templates and the rest to no entity |
| `Instancing.TableIdsOfArmed` | Assets/Firefly/Instance.cs:277-279 | the armed table refers to exactly the two templates |
| `Instancing.IdsNeverRepeatAcrossBatches` | Assets/Firefly/Instance.cs:231-257 | while the counter does not wrap over a work list, the particle IDs of any two different triangles of that list differ, whether in the same request or in any two requests |
| `Instancing.OffsetsApart` | Assets/Firefly/Instance.cs:251-257 | the unwrapped counter values of two different triangles of a work list differ and stay below 2^32 when the whole list does |
| `Instancing.IdWithoutWrap` | Assets/Firefly/Instance.cs:231 | below the wrap-around a triangle's ID is its index plus the batch offset |
| `Instancing.SelectionFindsTemplate` | Assets/Firefly/Instance.cs:277-289 | with non-negative template weights and a sample in [0, 1), a triangle finds a template exactly when the two weights do not both vanish |
| `Instancing.CounterStep` | Assets/Firefly/Instance.cs:257 | advancing the wrapped counter request by request gives the wrapped total |
| `Instancing.Spawn` | Assets/Firefly/Instance.cs:237-312 | a spawn returns exactly when its mesh is usable, its source entity has both variants and every triangle picks one of the two new templates; it then queued one renderer, advanced the counter and placed every clone; a throwing spawn raised the exception the order of the source's steps dictates: an empty array first, then a missing simple variant, then a missing butterfly variant, and only with both variants a failed instantiation |
| `Instancing.BaseMonotone` | Assets/Firefly/Instance.cs:237-312 | the entity numbers of a later request start after the two templates and all clones of every earlier one |
| `Instancing.SpawnedStep` | Assets/Firefly/Instance.cs:101-108 | one more complete spawn keeps the earlier clones and adds its own, numbered after its two templates |
| `Instancing.OnUpdate` | Assets/Firefly/Instance.cs:52-120 | the update completes exactly when every request's mesh is usable, its source entity has both variants, and each of its triangles picks a template from the table that request sees (the spawner's for the first, the cleared one after); a complete update removed every processed marker, queued one renderer per request, advanced the counter by the total triangle count, kept every old entity, destroyed every template and numbered each clone after its request's templates with its triangle's data, renderer and variant; an aborted update stopped at a request after every earlier one completed, with the earlier markers off and the rest on, and with the exception that request's mesh and variants dictate |
| `Instancing.WorkInRange` | Assets/Firefly/Instance.cs:73-85 | every request of the work list names an entity among the markers and a mesh whose indices all name vertices |
| `Instancing.Process` | Assets/Firefly/Instance.cs:101-108 | the same outcome for a given work list |
| `LegacyInstancing.InitData` | Assets/Firefly/InstanceSystem.cs:145-174 | the facet is centred and placed back gives the transformed triangle; the particle is at rest with `Random` keyed by the triangle index alone |
| `LegacyInstancing.PositionIsCentroid` | Assets/Firefly/InstanceSystem.cs:159-169 | the stored position is the centroid of the transformed triangle |
| `LegacyInstancing.CreateEntitiesOverMesh` | Assets/Firefly/InstanceSystem.cs:177-236 | an empty vertex or index array throws before any change; otherwise one renderer is queued, and the world ends with exactly the old entities, unchanged, and one distinct new entity per triangle holding that triangle's data, so the default entity is gone |
| `LegacyInstancing.Records` | Assets/Firefly/InstanceSystem.cs:187-195 | one initial record per triangle, record `i` for triangle `i` |
| `LegacyInstancing.SetInitialData` | Assets/Firefly/InstanceSystem.cs:222-228 | clone `i` receives triangle `i`'s record; no entity appears or disappears; every other entity is untouched |
| `LegacyInstancing.BaseMonotone` | Assets/Firefly/InstanceSystem.cs:177-236 | the entity numbers of a later request start after the default entity and all clones of every earlier one |
| `LegacyInstancing.SpawnedStep` | Assets/Firefly/InstanceSystem.cs:98-111 | one more complete spawn keeps the earlier clones and adds its own, numbered after its default entity |
| `LegacyInstancing.Populate` | Assets/Firefly/InstanceSystem.cs:209-231 | with both arrays non-empty, the clones are numbered right after the default entity, which is gone; each holds its triangle's data and the renderer; old entities are unchanged |
| `LegacyInstancing.OnUpdate` | Assets/Firefly/InstanceSystem.cs:49-123 | the update completes exactly when every requested mesh is usable; it then removed every processed marker, appended one renderer per request with that request's settings, kept every old entity, destroyed each default entity and numbered each clone after it with its triangle's data and its request's renderer; otherwise the first unusable request aborts it with the earlier markers off |
| `LegacyInstancing.Process` | Assets/Firefly/InstanceSystem.cs:98-111 | the same outcome for a given work list |
| `Meshes.TriangleCountBounds` | Assets/Firefly/InstanceSystem.cs:184 | triangle `i` exists exactly when its three index slots do; a trailing partial triple is dropped |
| `Meshes.TrianglesStep` | Assets/Firefly/Instance.cs:257 | one more request adds its triangle count to the running total |
| `Meshes.TrianglesGrow` | Assets/Firefly/Instance.cs:257 | a request's triangles are counted after those of every earlier request and before those of every later one |
| `MeshCaches.Drawable` | Assets/FlyAnimationSystem.cs:124-126 | exactly the renderers with a material, all taken from the enumeration |
| `MeshCaches.DrawableStep` | Assets/FlyAnimationSystem.cs:126 | scanning one more renderer adds it exactly when it has a material |
| `MeshCaches.BindNext` | Assets/FlyAnimationSystem.cs:128-130 | the list grows by one fresh cache only when the cache count has reached its length; the cache at that count is then bound to the renderer and the others are unchanged |
| `MeshCaches.Bind` | Assets/FlyAnimationSystem.cs:123-143 | the k-th drawable renderer is bound to cache k; existing caches keep their identity; new ones get fresh identities; caches past the drawable count are untouched |
| `MeshCaches.UpdateAsWritten` | Assets/FlyAnimationSystem.cs:121-152 | as written the list never shrinks: its length is the larger of the old length and the drawable count, and the surplus caches are kept as they were |
| `MeshCaches.Drawn` | Assets/FlyAnimationSystem.cs:102-119 | every cache in the list is drawn with its bound renderer's material |
| `MeshCaches.StaleCacheStillDrawn` | Assets/FlyAnimationSystem.cs:145-150 | after a frame with two materials and then a frame with one, the second cache is still drawn with the material no renderer uses |
| `MeshCaches.TrimAsWritten` | Assets/FlyAnimationSystem.cs:145-150 | the trim as written returns the list unchanged when the count is at most its length, and otherwise runs into removing from an empty list |
| `MeshCaches.TrimCorrected` | Assets/FlyAnimationSystem.cs:145-150 | the intended trim keeps exactly the first `cacheCount` caches |
| `MeshCaches.UpdateCorrected` | Assets/FlyAnimationSystem.cs:121-152 | with the intended trim, the list has exactly one cache per drawable renderer; every cache is bound to a renderer with a material; the released caches are exactly the surplus at the end |
| `MeshCaches.ReleaseAll` | Assets/FlyAnimationSystem.cs:88-91 | every cache is released, in order, and the list is emptied |
| `FlyConstruction.FlyTriangle` | Assets/FlySystem.cs:26-29 | the triangle of a centred facet has its centroid at the fly's position |
| `FlyConstruction.BuiltHolds` | Assets/FlySystem.cs:20-38 | in the reference result, fly `i` occupies triangle slot `i` |
| `FlyConstruction.SlotOwner` | Assets/FlySystem.cs:24 | vertex slot `s` belongs to fly `s / 3` and to no other |
| `FlyConstruction.BuiltExact` | Assets/FlySystem.cs:31-37 | buffers holding every fly in its own slot, and unchanged from slot `3n` on, are the reference result |
| `FlyConstruction.ConstructionJob` | Assets/FlySystem.cs:20-38 | the job stays in bounds exactly when three slots per fly fit, which for the 60000-slot cache means at most 20000 flies; in bounds, any order of the work items gives the reference result |
| `FlySpawning.FlyAt` | Assets/FlySpawnSystem.cs:82-97 | the fly's facet is centred, and placed at the fly's position it is the mesh triangle moved to the source entity; life is zero and the renderer is the one given |
| `FlySpawning.FlyPosition` | Assets/FlySpawnSystem.cs:85-97 | the fly sits at the source position plus the centroid of its mesh triangle |
| `FlySpawning.Populate` | Assets/FlySpawnSystem.cs:80-100 | one fresh entity per complete index triple, fly `i` numbered `next + i`; the loop throws exactly when the index count is not a multiple of three; old entities are untouched |
| `FlySpawning.FliesStep` | Assets/FlySpawnSystem.cs:63-104 | populating one more request keeps the earlier requests' flies and places its own |
| `FlySpawning.OnUpdate` | Assets/FlySpawnSystem.cs:40-110 | the update completes exactly when every requested mesh has whole index triples; it then removes every processed marker, allocates one renderer per request (per-entity variant only) and places fly `i` of request `k` at its number with its facet, position and renderer; old entities are unchanged; a throw comes from the first request whose index array ends in a partial triple: the earlier requests' markers are off and their flies placed, the failing request's renderer is allocated and its complete triples have made flies, and its marker and those after it stay |
| `FlySpawning.Process` | Assets/FlySpawnerSystem.cs:50-82 | each request's flies are numbered consecutively after the previous request's and draw into the allocated or inherited renderer; a throw comes from the first request with a partial triple, after that request's renderer was allocated and its complete triples placed, with its marker and those after it still on |
| `Requests.Group` | Assets/Firefly/Instance.cs:82-84 | the filtered group is exactly the entities carrying the value, in increasing entity order |
| `Requests.Batch` | Assets/Firefly/Instance.cs:74-85 | a null mesh gives no requests; otherwise exactly the marked entities of the value, in entity order |
| `Requests.WorkExact` | Assets/Firefly/Instance.cs:73-85 | the work list is exactly the entities whose marker names a mesh among the enumerated values |
| `Requests.WorkAt` | Assets/Firefly/Instance.cs:73-85 | each request names a marked entity and one of the enumerated values |
| `Requests.WorkDistinct` | Assets/Firefly/Instance.cs:73-101 | with distinct enumerated values, no entity is processed twice in one update |
| `Requests.Unmark` | Assets/Firefly/Instance.cs:107 | exactly the processed entities lose their marker |
| `Requests.SecondUpdateIsIdle` | Assets/FlySpawnSystem.cs:103 | once an update has processed and unmarked its work list, a later update over the same values finds nothing |
| `Requests.OnlyNullMarkersRemain` | Assets/Firefly/InstanceSystem.cs:74 | after a complete update, only markers with a null mesh remain |
| `Requests.UnmarkStep` | Assets/Firefly/Instance.cs:107 | unmarking one more processed request removes just that entity's marker |
| `Worlds.Create` | Assets/Firefly/InstanceSystem.cs:210 | the new entity takes the next number with the given data; every existing entity is kept |
| `Worlds.Destroy` | Assets/Firefly/InstanceSystem.cs:231 | exactly that entity disappears; the others and the numbering are untouched |
| `Worlds.InstantiateMany` | Assets/Firefly/InstanceSystem.cs:218 | `n` copies of the source entity, numbered consecutively from the next number; every existing entity is kept |

## Left out

- Uploading buffers to meshes, `MemCpy`, draw calls, the edit-mode preview system, the debug stopwatch and the disposal of Unity objects. These are engine I/O with no discrete logic of their own.
- Float rounding, infinities and NaN propagation. Floats are reals; the only NaN modelled is the normalised default entity table whose weights sum to zero, because its effect (no template is ever chosen) is part of the control flow.
- DefaultEntities.Normalized: for a zero-total table every entry becomes NaN. In floats that holds only while the running sum is zero (`0 / 0`). A mixed-sign table such as weights `1, -1` gives `+infinity` for its first entry, so the source would pick that entry where the model picks none.
- `NativeCounter` and `Random` are not part of this model. The counter is treated as an atomic fetch-and-add that returns the value before the increment. `Value01` is an uninterpreted function of the seed.
- `ParticleExpirationSystemBase` is not part of this model. The expiration modelled is `ParticleExpirationSystem`'s own job.
- `ReconstructionSystems.CounterCarriesOver`: the butterfly and simple reconstruction systems never reset their counters; the only resets are in the disintegrator and indexed-butterfly systems. Their counters therefore grow every frame, and after enough frames every renderer that still has triangles to draw runs into `Overflow`. The model states the per-frame growth and does not model the long-run exhaustion.
- `Requests.Group`: the model enumerates a filtered group in increasing entity order. The source enumerates it in chunk order, which the model does not represent.
- `Instancing.OnUpdate`: after a throw, the state is named only through the markers, the faulting request, its exception and the requests that completed before it. The partly built world, counter and renderer list after a throw are not described further.
- `Instancing.Process`: weaker in the same way as `Instancing.OnUpdate`.
- `LegacyInstancing.OnUpdate`: after a throw, only the markers and the first unusable request are described.
- `LegacyInstancing.Process`: weaker in the same way as `LegacyInstancing.OnUpdate`.
- The source world and the particle world are modelled separately. Markers live in a sequence indexed by source entity, and spawned entities live in a `World`. Removing a marker therefore cannot clash with an entity number.
- The `[ReadOnly] ref` particle of the animation jobs is modelled as written back, as the effect relies on it.
- `NoiseEffecting.ChainAges`: states only the lower bound on age. The upper bound, one `deltaTime` per effector, is not stated.
- `FlyConstruction.ConstructionJob`: on overflow the job is modelled as writing nothing. The source writes the in-range flies before the out-of-range store throws.
- `Dispatch.Reconstruct`: says nothing about an overflowing renderer's counter and buffers. A bounds-checked store throws inside the worker after partial writes, and the raw-pointer variants write past the arrays.
- Stale slots beyond the counter are still drawn by the renderer system. Only the slots a frame writes are described.
- Job chaining is modelled as running the jobs one after another. The interleaving inside one job is arbitrary; the dependency chain between jobs is respected.
- `ButterflyShape.IndexedButterfly`: between ages 0 and 1, the triangles are stated only through `ButterflyShape.Shape`.
- `ButterflyShape.SeededButterfly`: between ages 0 and 1, the triangles are stated only through `ButterflyShape.Shape`.
- `DisintegratorShape.Fragment`: between ages 0 and 1, the triangles are stated only through `DisintegratorShape.Shape`.
- `DefaultEntities.VariantTable`: states only size and numeric weights. Its entries are used through `DefaultEntities.WeightedSelectionExample`.

## Findings

| source | as written | input that shows it | evidently intended | confidence | as-written member | corrected member |
|---|---|---|---|---|---|---|
| Assets/FlyAnimationSystem.cs:145-150 | `while (cacheCount > _meshCaches.Count)` trims; binding has already made the list at least `cacheCount` long, so the loop never runs and surplus caches are kept and drawn every frame | frame 1 has renderers with materials 1 and 2; frame 2 has only material 1; the cache bound to material 2 is drawn again in frame 3 | `while (_meshCaches.Count > cacheCount)`: release caches from the end until exactly `cacheCount` remain | not executed | `MeshCaches.StaleCacheStillDrawn` | `MeshCaches.UpdateCorrected` |

=== FILE: animation.dfy ===
/** The per-entity animation step of `ParticleAnimationSystem` and
    `DisintegratorAnimationSystem`: a curl-noise acceleration, a time step gated by the
    entity's height, and a semi-implicit update in the order position, age, velocity. */
module Animation {
  import opened Vec
  import opened Particles

  /** The disintegration fragment record: velocity and age. */
  datatype Disintegrator = Disintegrator(velocity: Vec3, life: real)

  /** What the step reads and writes: the record's velocity and age, and `Position`. */
  datatype Motion = Motion(velocity: Vec3, life: real, position: Vec3)

  /** `DeltaTime * saturate(Time - 2 + y * 2)`: an entity starts moving once the global
      clock passes `2 - 2y`, lower entities later, and is at full speed one second after
      that. */
  function Gate(time: real, deltaTime: real, y: real): (dt: real)
    ensures deltaTime >= 0.0 ==> 0.0 <= dt <= deltaTime
    ensures time - 2.0 + y * 2.0 <= 0.0 ==> dt == 0.0
    ensures time - 2.0 + y * 2.0 >= 1.0 ==> dt == deltaTime
  {
    var s := Saturate(time - 2.0 + y * 2.0);
    assert deltaTime >= 0.0 ==> deltaTime * s <= deltaTime * 1.0;
    deltaTime * s
  }

  /** `cross(grad(np), grad(np + 100)) * 0.02` with `np = position * 6`; the second sample
      shifts every component by 100. */
  function CurlAcc(ml: MathLib, p: Vec3): (r: Vec3)
    ensures var np := Scale(p, 6.0);
      && Orthogonal(r, ml.noiseGrad(np)) && Orthogonal(r, ml.noiseGrad(AddScalar(np, 100.0)))
      && (ml.noiseGrad(np) == ml.noiseGrad(AddScalar(np, 100.0)) ==> r == Zero)
  {
    var np := Scale(p, 6.0);
    var g1, g2 := ml.noiseGrad(np), ml.noiseGrad(AddScalar(np, 100.0));
    CrossOrthogonal(g1, g2);
    OrthogonalSymmetric(Cross(g1, g2), g1);
    ScaledOrthogonal(Cross(g1, g2), g1, 0.02, 1.0);
    ScaledOrthogonal(Cross(g1, g2), g2, 0.02, 1.0);
    Scale(Cross(g1, g2), 0.02)
  }

  /** The three stores of the job body for a given acceleration and step. Position moves
      with the velocity the entity had before this step; the new velocity first shows in
      the next step. */
  function Advance(acc: Vec3, dt: real, s: Motion): (r: Motion)
    ensures Sub(r.position, s.position) == Scale(s.velocity, dt)
    ensures Sub(r.velocity, s.velocity) == Scale(acc, dt)
    ensures dt >= 0.0 ==> r.life >= s.life
    ensures acc == Zero ==> r.velocity == s.velocity
    ensures dt == 0.0 ==> r == s
  {
    var position := Add(s.position, Scale(s.velocity, dt));
    var life := s.life + dt;
    var velocity := Add(s.velocity, Scale(acc, dt));
    Motion(velocity, life, position)
  }

  /** `AnimationJob.Execute` on one entity. */
  function Step(ml: MathLib, time: real, deltaTime: real, s: Motion): (r: Motion)
    ensures deltaTime >= 0.0 ==> s.life <= r.life <= s.life + deltaTime
    ensures time - 2.0 + s.position.y * 2.0 <= 0.0 ==> r == s
    ensures time - 2.0 + s.position.y * 2.0 >= 1.0 ==> r.life == s.life + deltaTime
    ensures Sub(r.position, s.position) == Scale(s.velocity, r.life - s.life)
  {
    Advance(CurlAcc(ml, s.position), Gate(time, deltaTime, s.position.y), s)
  }

  /** The particle revision: `Random` is carried through untouched. */
  function ParticleStep(ml: MathLib, time: real, deltaTime: real, p: LegacyParticle, position: Vec3)
    : (r: (LegacyParticle, Vec3))
    ensures r.0.random == p.random
    ensures var m := Step(ml, time, deltaTime, Motion(p.velocity, p.life, position));
      r.0.velocity == m.velocity && r.0.life == m.life && r.1 == m.position
  {
    var m := Step(ml, time, deltaTime, Motion(p.velocity, p.life, position));
    (LegacyParticle(m.velocity, m.life, p.random), m.position)
  }

  /** The disintegrator revision of the same job. */
  function DisintegratorStep(ml: MathLib, time: real, deltaTime: real, d: Disintegrator, position: Vec3)
    : (r: (Disintegrator, Vec3))
    ensures var m := Step(ml, time, deltaTime, Motion(d.velocity, d.life, position));
      r.0 == Disintegrator(m.velocity, m.life) && r.1 == m.position
  {
    var m := Step(ml, time, deltaTime, Motion(d.velocity, d.life, position));
    (Disintegrator(m.velocity, m.life), m.position)
  }

  /** One frame's clock: `Time.time` and `Time.deltaTime`. */
  datatype Frame = Frame(time: real, deltaTime: real)

  /** Successive frames applied to one entity. */
  function Run(ml: MathLib, frames: seq<Frame>, s: Motion): Motion {
    if |frames| == 0 then s
    else
      var last := frames[|frames| - 1];
      Step(ml, last.time, last.deltaTime, Run(ml, frames[..|frames| - 1], s))
  }

  /** The sum of the frames' `deltaTime`. */
  function Elapsed(frames: seq<Frame>): real {
    if |frames| == 0 then 0.0 else Elapsed(frames[..|frames| - 1]) + frames[|frames| - 1].deltaTime
  }

  /** Age never decreases and never runs ahead of the clock: over any run of frames with
      non-negative steps, `Life` grows by at least zero and at most the elapsed time. */
  lemma {:induction false} LifeMonotone(ml: MathLib, frames: seq<Frame>, s: Motion)
    requires forall k :: 0 <= k < |frames| ==> frames[k].deltaTime >= 0.0
    ensures s.life <= Run(ml, frames, s).life <= s.life + Elapsed(frames)
    decreases |frames|
  {
    if |frames| > 0 {
      LifeMonotone(ml, frames[..|frames| - 1], s);
    }
  }

  /** The job over all entities: each entity's new state depends on its own state only. */
  method AnimateAll(ml: MathLib, time: real, deltaTime: real, states: seq<Motion>) returns (r: seq<Motion>)
    ensures |r| == |states|
    ensures forall i :: 0 <= i < |states| ==> r[i] == Step(ml, time, deltaTime, states[i])
  {
    r := states;
    var i := 0;
    while i < |states|
      invariant 0 <= i <= |states| && |r| == |states|
      invariant forall k :: 0 <= k < i ==> r[k] == Step(ml, time, deltaTime, states[k])
      invariant forall k :: i <= k < |states| ==> r[k] == states[k]
    {
      r := r[i := Step(ml, time, deltaTime, r[i])];
      i := i + 1;
    }
  }
}

=== FILE: butterfly.dfy ===
/** The butterfly shape, shared by three revisions of the reconstruction job: a body along
    the flight direction and two wings whose height flaps with `sin(freq * t)`. Each
    entity emits four triangles that blend, as `saturate(t)` goes from 0 to 1, from the
    resting facet to the butterfly. */
module ButterflyShape {
  import opened Vec
  import opened Facets
  import opened Slots
  import opened Shapes
  import opened Particles

  const Size: real := 0.005

  /** The local frame: `az` along the velocity, `ax` sideways, `ay` up the wing. */
  datatype Axes = Axes(ax: Vec3, ay: Vec3, az: Vec3)

  /** `az = v + 0.001`, `ax = cross(up, az)`, `ay = cross(az, ax)`, each normalised and
      scaled by `size`, `ay` also by the flap. The three axes are mutually orthogonal
      whatever the flap, and `ax` is horizontal. */
  function Frame(ml: MathLib, velocity: Vec3, flap: real): (a: Axes)
    ensures a.ax.y == 0.0
    ensures Orthogonal(a.ax, a.az) && Orthogonal(a.ay, a.ax) && Orthogonal(a.ay, a.az)
  {
    var az := AddScalar(velocity, 0.001);
    var ax := Cross(Up, az);
    var ay := Cross(az, ax);
    CrossUpHorizontal(az);
    CrossOrthogonal(Up, az);
    CrossOrthogonal(az, ax);
    NormalizedOrthogonal(ml, ax, az);
    NormalizedOrthogonal(ml, ay, ax);
    NormalizedOrthogonal(ml, ay, az);
    ScaledOrthogonal(Normalize(ml, ax), Normalize(ml, az), Size, Size);
    ScaledOrthogonal(Normalize(ml, ay), Normalize(ml, ax), Size * flap, Size);
    ScaledOrthogonal(Normalize(ml, ay), Normalize(ml, az), Size * flap, Size);
    assert Scale(Scale(Normalize(ml, ay), Size), flap) == Scale(Normalize(ml, ay), Size * flap);
    Axes(Scale(Normalize(ml, ax), Size), Scale(Scale(Normalize(ml, ay), Size), flap), Scale(Normalize(ml, az), Size))
  }

  /** The six butterfly points `vb1..vb6`. */
  datatype Wings = Wings(b1: Vec3, b2: Vec3, b3: Vec3, b4: Vec3, b5: Vec3, b6: Vec3)

  /** The body `vb1`, `vb2` sits symmetrically about `pos`; the wing tips `vb5`, `vb6` are
      `vb3`, `vb4` moved across by `2 * ax`. */
  function WingPoints(pos: Vec3, a: Axes): (w: Wings)
    ensures Add(w.b1, w.b2) == Scale(pos, 2.0)
    ensures Sub(w.b5, w.b3) == Scale(a.ax, 2.0) && Sub(w.b6, w.b4) == Scale(a.ax, 2.0)
    ensures Sub(w.b3, w.b4) == Scale(a.az, 2.0)
  {
    var b3 := Add(Add(Sub(pos, a.ax), a.ay), a.az);
    var b4 := Sub(Add(Sub(pos, a.ax), a.ay), a.az);
    Wings(Add(pos, Scale(a.az, 0.2)), Sub(pos, Scale(a.az, 0.2)), b3, b4,
          Add(b3, Scale(a.ax, 2.0)), Add(b4, Scale(a.ax, 2.0)))
  }

  /** The four triangles `(v1,v2,v5)`, `(v5,v2,v6)`, `(v3,v4,v1)`, `(v1,v4,v2)`, where
      `v1`, `v2` blend from the facet's first two corners to the body and `v3..v6` from
      its third corner to the wing points. At rest (`t <= 0`) the first triangle is the
      facet, the fourth its reversal, and the middle two cover no area; from `t >= 1` on
      only butterfly points are used. */
  function Shape(pos: Vec3, face: Facet, a: Axes, t: real): (r: seq<Tri>)
    ensures |r| == 4
    ensures t <= 0.0 ==>
      && r[0] == Placed(pos, face)
      && r[3] == Reversed(r[0])
      && Degenerate(r[1]) && Degenerate(r[2])
    ensures t >= 1.0 ==>
      var w := WingPoints(pos, a);
      r == [Tri(w.b1, w.b2, w.b5), Tri(w.b5, w.b2, w.b6), Tri(w.b3, w.b4, w.b1), Tri(w.b1, w.b4, w.b2)]
  {
    var w := WingPoints(pos, a);
    var q := Place(pos, face);
    var pt := Saturate(t);
    var v1 := Lerp(q.v1, w.b1, pt);
    var v2 := Lerp(q.v2, w.b2, pt);
    var v3 := Lerp(q.v3, w.b3, pt);
    var v4 := Lerp(q.v3, w.b4, pt);
    var v5 := Lerp(q.v3, w.b5, pt);
    var v6 := Lerp(q.v3, w.b6, pt);
    [Tri(v1, v2, v5), Tri(v5, v2, v6), Tri(v3, v4, v1), Tri(v1, v4, v2)]
  }

  /** `ParticleReconstructionSystem`'s job: the age is `Life`, and the flap frequency is
      keyed by the work-item index through `Value01(index)`, not by a stored seed. */
  function IndexedButterfly(ml: MathLib, index: nat, p: LegacyParticle, pos: Vec3, face: Facet): (r: seq<Tri>)
    ensures |r| == 4
    ensures p.life <= 0.0 ==> r[0] == Placed(pos, face) && r[3] == Reversed(r[0])
    ensures p.life >= 1.0 ==> Add(r[0].v1, r[0].v2) == Scale(pos, 2.0)
  {
    var flap := ml.sin(FlapFrequency(ml.value01(index)) * p.life);
    Shape(pos, face, Frame(ml, p.velocity, flap), p.life)
  }

  /** `ButterflyReconstructionJob` and `ButterflyParticleSystem`'s job: the age is `Time`
      and the frequency comes from the particle's own `Random`. */
  function SeededButterfly(ml: MathLib, p: TimedParticle, pos: Vec3, face: Facet): (r: seq<Tri>)
    ensures |r| == 4
    ensures p.time <= 0.0 ==> r[0] == Placed(pos, face) && r[3] == Reversed(r[0])
    ensures p.time >= 1.0 ==> Add(r[0].v1, r[0].v2) == Scale(pos, 2.0)
  {
    var flap := ml.sin(FlapFrequency(p.random) * p.time);
    Shape(pos, face, Frame(ml, p.velocity, flap), p.time)
  }

  /** Moving an entity moves its butterfly and nothing else about it. */
  lemma {:induction false} ShapeTranslates(pos: Vec3, d: Vec3, face: Facet, a: Axes, t: real)
    ensures var r := Shape(pos, face, a, t);
      Shape(Add(pos, d), face, a, t) == [Shift(r[0], d), Shift(r[1], d), Shift(r[2], d), Shift(r[3], d)]
  {
  }
}

=== FILE: default_entities.dfy ===
/** The default entity table of the Firefly instancer: sixteen (weight, template entity)
    entries, normalised into a cumulative distribution and sampled with a hash value in
    `[0, 1)` to pick the particle variant each new particle is cloned from. */
module DefaultEntities {
  import opened Results
  import opened Worlds

  const TableSize: nat := 16

  /** A float weight. Normalising a table whose weights sum to zero divides by zero; the
      model treats every such quotient as NaN, and a comparison with NaN is always false. */
  datatype Weight = Num(value: real) | NaN

  datatype Entry = Entry(weight: Weight, entity: EntityRef)

  /** `default(DefaultEntityEntry)`. */
  const Empty := Entry(Num(0.0), Null)

  /** `rand < weight` on floats. */
  predicate Below(rand: real, w: Weight) {
    w.Num? && rand < w.value
  }

  predicate Raw(table: seq<Entry>) {
    forall i :: 0 <= i < |table| ==> table[i].weight.Num?
  }

  /** `w_0 + ... + w_{n-1}` of the first `n` entries. */
  function Total(table: seq<Entry>, n: nat): real
    requires Raw(table) && n <= |table|
  {
    if n == 0 then 0.0 else Total(table, n - 1) + table[n - 1].weight.value
  }

  /** The reference distribution: entry `i` holds `(w_0 + ... + w_i) / total`, every
      entity stays in place, and a zero-total table turns into NaN throughout. */
  function Normalized(table: seq<Entry>): (r: seq<Entry>)
    requires Raw(table)
    ensures |r| == |table|
  {
    var total := Total(table, |table|);
    seq(|table|, i requires 0 <= i < |table| =>
      Entry(if total == 0.0 then NaN else Num(Total(table, i + 1) / total), table[i].entity))
  }

  lemma {:induction false} NormalizedAt(table: seq<Entry>, k: nat)
    requires Raw(table) && k < |table|
    ensures Normalized(table)[k].entity == table[k].entity
    ensures Total(table, |table|) == 0.0 ==> Normalized(table)[k].weight == NaN
    ensures Total(table, |table|) != 0.0 ==>
      Normalized(table)[k].weight == Num(Total(table, k + 1) / Total(table, |table|))
  {
  }

  lemma {:induction false} DivAdd(a: real, b: real, t: real)
    requires t != 0.0
    ensures (a + b) / t == a / t + b / t
  {
  }

  lemma {:induction false} DivSelf(t: real)
    requires t != 0.0
    ensures t / t == 1.0
  {
  }

  /** `NormalizeDefaultEntityWeights`: one pass for the total, one pass accumulating
      `weight / total` into a running subtotal. */
  method NormalizeDefaultEntityWeights(table: seq<Entry>) returns (r: seq<Entry>)
    requires Raw(table)
    ensures r == Normalized(table)
  {
    var total := 0.0;
    var i := 0;
    while i < |table|
      invariant 0 <= i <= |table|
      invariant total == Total(table, i)
    {
      total := total + table[i].weight.value;
      i := i + 1;
    }

    r := table;
    var subtotal: Weight := Num(0.0);
    i := 0;
    while i < |table|
      invariant 0 <= i <= |table|
      invariant |r| == |table|
      invariant total == 0.0 ==> i == 0 || subtotal == NaN
      invariant total != 0.0 ==> subtotal == Num(Total(table, i) / total)
      invariant forall k :: 0 <= k < i ==> r[k] == Normalized(table)[k]
      invariant forall k :: i <= k < |table| ==> r[k] == table[k]
    {
      if total == 0.0 {
        subtotal := NaN;
      } else {
        DivAdd(Total(table, i), table[i].weight.value, total);
        subtotal := Num(subtotal.value + table[i].weight.value / total);
      }
      NormalizedAt(table, i);
      r := r[i := Entry(subtotal, r[i].entity)];
      i := i + 1;
    }
  }

  /** The reference selection: the smallest index whose cumulative weight exceeds `rand`. */
  function FirstAbove(table: seq<Entry>, rand: real): (r: Option<nat>)
    ensures r.Some? ==> r.value < |table| && Below(rand, table[r.value].weight)
    ensures r.Some? ==> forall j :: 0 <= j < r.value ==> !Below(rand, table[j].weight)
    ensures r.None? ==> forall j :: 0 <= j < |table| ==> !Below(rand, table[j].weight)
  {
    if |table| == 0 then None
    else if Below(rand, table[0].weight) then Some(0)
    else match FirstAbove(table[1..], rand)
      case None => None
      case Some(i) => Some(i + 1)
  }

  function EntityAt(table: seq<Entry>, choice: Option<nat>): EntityRef
    requires choice.Some? ==> choice.value < |table|
  {
    match choice
    case None => Null
    case Some(i) => table[i].entity
  }

  /** `SelectRandomDefaultEntity`: scan in index order and return the first entity whose
      cumulative weight exceeds the sample; `Entity.Null` when none does. */
  method SelectRandomDefaultEntity(table: seq<Entry>, rand: real) returns (r: EntityRef)
    ensures r == EntityAt(table, FirstAbove(table, rand))
  {
    var i := 0;
    while i < |table|
      invariant 0 <= i <= |table|
      invariant forall j :: 0 <= j < i ==> !Below(rand, table[j].weight)
    {
      if Below(rand, table[i].weight) {
        return table[i].entity;
      }
      i := i + 1;
    }
    return Null;
  }

  /** With non-negative weights and a positive total, the cumulative table is
      non-decreasing and its last entry is exactly 1. */
  lemma {:induction false} NormalizedIsDistribution(table: seq<Entry>)
    requires Raw(table) && |table| > 0
    requires forall i :: 0 <= i < |table| ==> table[i].weight.value >= 0.0
    requires Total(table, |table|) > 0.0
    ensures forall i :: 0 <= i < |table| ==> Normalized(table)[i].weight.Num?
    ensures forall i, j :: 0 <= i <= j < |table| ==>
      Normalized(table)[i].weight.value <= Normalized(table)[j].weight.value
    ensures Normalized(table)[|table| - 1].weight == Num(1.0)
  {
    var total := Total(table, |table|);
    forall i, j | 0 <= i <= j < |table|
      ensures Normalized(table)[i].weight.value <= Normalized(table)[j].weight.value
    {
      TotalMonotone(table, i + 1, j + 1);
      DivMonotone(Total(table, i + 1), Total(table, j + 1), total);
      NormalizedAt(table, i);
      NormalizedAt(table, j);
    }
    forall i | 0 <= i < |table|
      ensures Normalized(table)[i].weight.Num?
    {
      NormalizedAt(table, i);
    }
    NormalizedAt(table, |table| - 1);
    assert total / total == 1.0;
  }

  lemma {:induction false} TotalMonotone(table: seq<Entry>, a: nat, b: nat)
    requires Raw(table) && a <= b <= |table|
    requires forall i :: 0 <= i < |table| ==> table[i].weight.value >= 0.0
    ensures Total(table, a) <= Total(table, b)
    decreases b - a
  {
    if a < b {
      TotalMonotone(table, a, b - 1);
    }
  }

  lemma {:induction false} DivMonotone(x: real, y: real, t: real)
    requires x <= y && t > 0.0
    ensures x / t <= y / t
  {
  }

  /** An entry of weight zero is never chosen by a non-negative sample: its cumulative
      value equals its predecessor's (or is 0 at index 0), so the scan stops earlier. */
  lemma {:induction false} ZeroWeightNeverSelected(table: seq<Entry>, rand: real, i: nat)
    requires Raw(table) && i < |table|
    requires table[i].weight == Num(0.0)
    requires rand >= 0.0
    ensures FirstAbove(Normalized(table), rand) != Some(i)
  {
    var n := Normalized(table);
    var total := Total(table, |table|);
    NormalizedAt(table, i);
    if total == 0.0 {
      assert !Below(rand, n[i].weight);
    } else if i == 0 {
      assert Total(table, 1) == 0.0;
      assert !Below(rand, n[i].weight);
    } else {
      assert Total(table, i + 1) == Total(table, i);
      NormalizedAt(table, i - 1);
      assert n[i].weight == n[i - 1].weight;
    }
  }

  /** The table `CreateEntitiesOverMesh` builds: the SimpleParticle template at 0, the
      ButterflyParticle template at 1, and fourteen empty entries. */
  function VariantTable(simpleWeight: real, simple: EntityRef,
                        butterflyWeight: real, butterfly: EntityRef): (r: seq<Entry>)
    ensures |r| == TableSize && Raw(r)
  {
    [Entry(Num(simpleWeight), simple), Entry(Num(butterflyWeight), butterfly)] + seq(14, _ => Empty)
  }

  /** Weights 2 and 1 normalise to 2/3 and 1; a sample of 0.5 picks the first template
      and a sample of 0.9 the second. */
  lemma {:induction false} WeightedSelectionExample(simple: EntityRef, butterfly: EntityRef)
    ensures Normalized(VariantTable(2.0, simple, 1.0, butterfly))[0].weight == Num(2.0 / 3.0)
    ensures Normalized(VariantTable(2.0, simple, 1.0, butterfly))[1].weight == Num(1.0)
    ensures FirstAbove(Normalized(VariantTable(2.0, simple, 1.0, butterfly)), 0.5) == Some(0)
    ensures FirstAbove(Normalized(VariantTable(2.0, simple, 1.0, butterfly)), 0.9) == Some(1)
  {
    var t := VariantTable(2.0, simple, 1.0, butterfly);
    assert Total(t, 1) == 2.0;
    assert Total(t, 2) == 3.0;
    TotalTail(t, 2, 16);
    var n := Normalized(t);
    assert n[0].weight == Num(2.0 / 3.0);
    assert n[1].weight == Num(1.0);
  }

  lemma {:induction false} TotalTail(t: seq<Entry>, a: nat, b: nat)
    requires Raw(t) && a <= b <= |t|
    requires forall i :: a <= i < b ==> t[i].weight == Num(0.0)
    ensures Total(t, b) == Total(t, a)
    decreases b - a
  {
    if a < b {
      TotalTail(t, a, b - 1);
    }
  }

  /** The entities the table refers to. */
  function TableIds(table: seq<Entry>): set<nat> {
    set i | 0 <= i < |table| && table[i].entity.Ref? :: table[i].entity.id
  }

  /** `CleanupDefaultEntityTable`: destroy every table entity that still exists and reset
      every entry to the default. Nothing else in the world changes. */
  method CleanupDefaultEntityTable<C>(table: seq<Entry>, w: World<C>) returns (r: seq<Entry>, w': World<C>)
    ensures |r| == |table|
    ensures forall i :: 0 <= i < |r| ==> r[i] == Empty
    ensures w'.next == w.next
    ensures forall id :: id in w'.entities <==> id in w.entities && id !in TableIds(table)
    ensures forall id :: id in w'.entities ==> w'.entities[id] == w.entities[id]
  {
    r := table;
    w' := w;
    var i := 0;
    while i < |table|
      invariant 0 <= i <= |table|
      invariant |r| == |table|
      invariant forall k :: 0 <= k < i ==> r[k] == Empty
      invariant w'.next == w.next
      invariant forall id :: id in w'.entities <==>
        id in w.entities && id !in TableIds(table[..i])
      invariant forall id :: id in w'.entities ==> w'.entities[id] == w.entities[id]
    {
      var e := table[i].entity;
      if Exists(w', e) {
        w' := Destroy(w', e.id);
      }
      assert table[..i + 1] == table[..i] + [table[i]];
      r := r[i := Empty];
      i := i + 1;
    }
    assert table[..i] == table;
  }
}

=== FILE: disintegrator.dfy ===
/** The reconstruction job of `DisintegratorSystem`: each fragment becomes a folded square
    of two double-sided halves hinged at its position. The two halves flap with
    `sin(freq * Life)`, and the whole shape blends, as `saturate(Life)` goes from 0 to 1,
    from the resting facet to the square. */
module DisintegratorShape {
  import opened Vec
  import opened Facets
  import opened Slots
  import opened Shapes

  /** The square's half-extents: `vx` sideways, `vy` up (scaled by the flap), `vz` along
      the velocity. */
  datatype Axes = Axes(vx: Vec3, vy: Vec3, vz: Vec3)

  /** `vz = normalize(v + 0.001)`, `vx = normalize(cross(up, vz))`, `vy = cross(vz, vx)`,
      then `vx, vz` scaled by 0.01 and `vy` by `0.01 * flap`. The three half-extents are
      mutually orthogonal whatever the flap, and `vx` is horizontal. */
  function Frame(ml: MathLib, velocity: Vec3, flap: real): (a: Axes)
    ensures a.vx.y == 0.0
    ensures Orthogonal(a.vx, a.vz) && Orthogonal(a.vy, a.vx) && Orthogonal(a.vy, a.vz)
  {
    var vz := Normalize(ml, AddScalar(velocity, 0.001));
    var c := Cross(Up, vz);
    var vx := Normalize(ml, c);
    var vy := Cross(vz, vx);
    CrossUpHorizontal(vz);
    CrossOrthogonal(Up, vz);
    OrthogonalSymmetric(vz, c);
    NormalizeOrthogonal(ml, c, vz);
    CrossOrthogonal(vz, vx);
    ScaledOrthogonal(vx, vz, 0.01, 0.01);
    ScaledOrthogonal(vy, vx, 0.01 * flap, 0.01);
    ScaledOrthogonal(vy, vz, 0.01 * flap, 0.01);
    Axes(Scale(vx, 0.01), Scale(vy, 0.01 * flap), Scale(vz, 0.01))
  }

  /** The four corners `v2..v5` of the square around the hinge `p`. */
  datatype Square = Square(c2: Vec3, c3: Vec3, c4: Vec3, c5: Vec3)

  /** The corners form a parallelogram centred at `p + vy`: opposite sides are `2 * vz`
      and `2 * vx`, and the two diagonals share their midpoint. */
  function Corners(p: Vec3, a: Axes): (s: Square)
    ensures Sub(s.c3, s.c2) == Scale(a.vz, 2.0) && Sub(s.c4, s.c5) == Scale(a.vz, 2.0)
    ensures Sub(s.c5, s.c2) == Scale(a.vx, 2.0) && Sub(s.c4, s.c3) == Scale(a.vx, 2.0)
    ensures Add(s.c2, s.c4) == Add(s.c3, s.c5) == Scale(Add(p, a.vy), 2.0)
  {
    Square(Add(Sub(Sub(p, a.vx), a.vz), a.vy), Add(Add(Sub(p, a.vx), a.vz), a.vy),
           Add(Add(Add(p, a.vx), a.vz), a.vy), Add(Sub(Add(p, a.vx), a.vz), a.vy))
  }

  /** The four triangles `(v1,v2,v3)`, `(v1,v3,v2)`, `(v1,v4,v5)`, `(v1,v5,v4)`: each half
      of the square is emitted with both windings. `v1` blends from the facet's first
      corner to the hinge; `v2`, `v4` from its second corner and `v3`, `v5` from its third.
      At rest (`t <= 0`) both halves are the facet; from `t >= 1` on, `v1` is the hinge. */
  function Shape(p: Vec3, face: Facet, a: Axes, t: real): (r: seq<Tri>)
    ensures |r| == 4
    ensures r[1] == Reversed(r[0]) && r[3] == Reversed(r[2])
    ensures t <= 0.0 ==> r[0] == Placed(p, face) && r[2] == Placed(p, face)
    ensures t >= 1.0 ==>
      var s := Corners(p, a);
      r[0] == Tri(p, s.c2, s.c3) && r[2] == Tri(p, s.c4, s.c5)
  {
    var s := Corners(p, a);
    var q := Place(p, face);
    var tf := Saturate(t);
    var v1 := Lerp(q.v1, p, tf);
    var v2 := Lerp(q.v2, s.c2, tf);
    var v3 := Lerp(q.v3, s.c3, tf);
    var v4 := Lerp(q.v2, s.c4, tf);
    var v5 := Lerp(q.v3, s.c5, tf);
    [Tri(v1, v2, v3), Tri(v1, v3, v2), Tri(v1, v4, v5), Tri(v1, v5, v4)]
  }

  /** `ReconstructionJob.Execute(index)`: the frequency is keyed by the work-item index
      through `Value01(index)`; the age is the record's `Life`. */
  function Fragment(ml: MathLib, index: nat, velocity: Vec3, life: real, p: Vec3, face: Facet): (r: seq<Tri>)
    ensures |r| == 4
    ensures r[1] == Reversed(r[0]) && r[3] == Reversed(r[2])
    ensures life <= 0.0 ==> r[0] == Placed(p, face) && r[2] == Placed(p, face)
    ensures life >= 1.0 ==> r[0].v1 == p && r[2].v1 == p
  {
    var flap := ml.sin(FlapFrequency(ml.value01(index)) * life);
    Shape(p, face, Frame(ml, velocity, flap), life)
  }
}

=== FILE: dispatch.dfy ===
/** The update of a reconstruction system: for every renderer (the distinct values of the
    shared `Renderer` component), filter the entities drawn by it and schedule one
    parallel-for job per filtered group, each job appending its triangles to the
    renderer's buffers through the renderer's counter. The jobs of one update are chained,
    so they run one after another; inside a job the emissions interleave freely.

    The five systems differ only in three switches: whether a renderer without a work mesh
    is skipped, whether an empty group is skipped, and whether the counter is reset to zero
    before the renderer's jobs. */
module Dispatch {
  import opened Vec
  import opened Slots
  import opened Results

  /** A value of the shared `Renderer` component: `default(Renderer)`, with no work mesh and
      no arrays, or one set up by the renderer system, with buffers and a counter. */
  datatype Renderer = Unallocated | Live(target: Target)

  datatype Policy = Policy(skipNull: bool, skipEmpty: bool, reset: bool)

  /** `DisintegratorReconstructionSystem.OnUpdate`: skip a null work mesh, reset, schedule
      even an empty group. */
  const DisintegratorPolicy := Policy(true, false, true)
  /** `ParticleReconstructionSystem.OnUpdate`: the same switches. */
  const IndexedButterflyPolicy := Policy(true, false, true)
  /** `ButterflyParticleReconstructionSystem.OnUpdate`: only empty groups are skipped, and
      the counter is not reset here. */
  const ButterflyPolicy := Policy(false, true, false)
  /** `SimpleParticleReconstructionSystem.OnUpdate`: both skips, no reset. */
  const SimplePolicy := Policy(true, true, false)
  /** `ParticleReconstructionSystemBase.OnUpdate`: one job per renderer and variant, empty
      groups skipped, no null check, no reset. */
  const VariantPolicy := Policy(false, true, false)

  /** What stops an update: a job handed a renderer without arrays (a null dereference on
      the main thread), or a job claiming slots past the end of the buffers. */
  datatype Fault = NullBuffers(renderer: nat) | Overflow(renderer: nat)

  /** The triangles of the first `n` jobs of one renderer: where job `n` starts counting. */
  function Before(jobs: seq<seq<seq<Tri>>>, n: nat): nat
    requires n <= |jobs|
  {
    if n == 0 then 0 else Before(jobs, n - 1) + |Flatten(jobs[n - 1])|
  }

  function Total(jobs: seq<seq<seq<Tri>>>): nat {
    Before(jobs, |jobs|)
  }

  lemma {:induction false} BeforeMonotone(jobs: seq<seq<seq<Tri>>>, a: nat, b: nat)
    requires a <= b <= |jobs|
    ensures Before(jobs, a) <= Before(jobs, b)
    decreases b
  {
    if a < b {
      BeforeMonotone(jobs, a, b - 1);
    }
  }

  /** The jobs of one renderer own consecutive, disjoint ranges of triangle slots: job `a`
      ends where job `a + 1` starts, and every later job starts after it. */
  lemma {:induction false} JobRangesDisjoint(jobs: seq<seq<seq<Tri>>>, a: nat, b: nat)
    requires a < b <= |jobs|
    ensures Before(jobs, a) + |Flatten(jobs[a])| <= Before(jobs, b)
  {
    BeforeMonotone(jobs, a + 1, b);
    assert Before(jobs, a + 1) == Before(jobs, a) + |Flatten(jobs[a])|;
  }

  /** Event `ev` of a job whose slots start at `base` has landed: one position `e` of the
      schedule emitted it, into triangle slot `base + e`. */
  ghost predicate Lands(ml: MathLib, b: Buffers, base: nat, items: seq<seq<Tri>>, sched: seq<Event>, ev: Event) {
    && ValidEvent(items, ev)
    && exists e :: 0 <= e < |sched| && sched[e] == ev
         && Holds(b, base + e, TriOf(items, ev), FaceNormal(ml, TriOf(items, ev)))
  }

  /** The first `n` jobs, run in order from `tg`, produced `r`: the counter advanced by
      their triangle count, every triangle of job `j` landed inside job `j`'s own range,
      and no slot outside the claimed ranges changed. */
  ghost predicate Ran(ml: MathLib, tg: Target, r: Target, jobs: seq<seq<seq<Tri>>>, scheds: seq<seq<Event>>, n: nat)
    requires n <= |jobs| == |scheds|
  {
    && r.count == tg.count + Before(jobs, n)
    && Valid(r.buffers)
    && SameOutside(tg.buffers, r.buffers, 3 * tg.count, 3 * r.count)
    && Landed(ml, r.buffers, tg.count, jobs, scheds, n)
  }

  /** Every triangle of each of the first `n` jobs sits in its job's range, the jobs'
      ranges following one another from slot `base`. */
  ghost predicate Landed(ml: MathLib, b: Buffers, base: nat, jobs: seq<seq<seq<Tri>>>, scheds: seq<seq<Event>>, n: nat)
    requires n <= |jobs| == |scheds|
  {
    forall j, ev :: 0 <= j < n && ValidEvent(jobs[j], ev) ==>
      Lands(ml, b, base + Before(jobs, j), jobs[j], scheds[j], ev)
  }

  /** A landed event stays landed when only slots past its job's range are rewritten. */
  lemma {:induction false} LandsPreserved(ml: MathLib, b: Buffers, b': Buffers, lo: nat, hi: nat,
                       base: nat, items: seq<seq<Tri>>, sched: seq<Event>, ev: Event)
    requires Lands(ml, b, base, items, sched, ev)
    requires SameOutside(b, b', lo, hi)
    requires 3 * (base + |sched|) <= lo
    ensures Lands(ml, b', base, items, sched, ev)
  {
    var t := TriOf(items, ev);
    var e :| 0 <= e < |sched| && sched[e] == ev && Holds(b, base + e, t, FaceNormal(ml, t));
    HoldsPreserved(b, b', lo, hi, base + e, t, FaceNormal(ml, t));
  }

  /** The jobs before `j` keep their triangles while job `j` writes past them, and job `j`
      adds its own. */
  lemma {:induction false} JobsLand(ml: MathLib, tg: Target, r: Target, r': Target,
                                    jobs: seq<seq<seq<Tri>>>, scheds: seq<seq<Event>>, j: nat)
    requires j < |jobs| == |scheds|
    requires forall jj :: 0 <= jj < |jobs| ==> |scheds[jj]| == |Flatten(jobs[jj])|
    requires r.count == tg.count + Before(jobs, j)
    requires Landed(ml, r.buffers, tg.count, jobs, scheds, j)
    requires SameOutside(r.buffers, r'.buffers, 3 * r.count, 3 * r'.count)
    requires forall ev :: ValidEvent(jobs[j], ev) ==> Lands(ml, r'.buffers, r.count, jobs[j], scheds[j], ev)
    ensures Landed(ml, r'.buffers, tg.count, jobs, scheds, j + 1)
  {
    forall jj, ev | 0 <= jj < j + 1 && ValidEvent(jobs[jj], ev)
      ensures Lands(ml, r'.buffers, tg.count + Before(jobs, jj), jobs[jj], scheds[jj], ev)
    {
      if jj < j {
        JobRangesDisjoint(jobs, jj, j);
        LandsPreserved(ml, r.buffers, r'.buffers, 3 * r.count, 3 * r'.count,
                       tg.count + Before(jobs, jj), jobs[jj], scheds[jj], ev);
      }
    }
  }

  /** Running job `j` after the first `j` jobs extends the run by one job. */
  lemma {:induction false} RanStep(ml: MathLib, tg: Target, r: Target, r': Target,
                                   jobs: seq<seq<seq<Tri>>>, scheds: seq<seq<Event>>, j: nat)
    requires j < |jobs| == |scheds|
    requires forall jj :: 0 <= jj < |jobs| ==> |scheds[jj]| == |Flatten(jobs[jj])|
    requires Ran(ml, tg, r, jobs, scheds, j)
    requires r'.count == r.count + |scheds[j]| && Valid(r'.buffers)
    requires SameOutside(r.buffers, r'.buffers, 3 * r.count, 3 * r'.count)
    requires forall ev :: ValidEvent(jobs[j], ev) ==> Lands(ml, r'.buffers, r.count, jobs[j], scheds[j], ev)
    ensures Ran(ml, tg, r', jobs, scheds, j + 1)
  {
    SameOutsideTrans(tg.buffers, r.buffers, r'.buffers, 3 * tg.count, 3 * r.count,
                     3 * r.count, 3 * r'.count, 3 * tg.count, 3 * r'.count);
    JobsLand(ml, tg, r, r', jobs, scheds, j);
    assert Before(jobs, j + 1) == Before(jobs, j) + |Flatten(jobs[j])|;
  }

  /** The chained jobs of one renderer sharing its counter, each under its own
      linearisation. */
  method RunJobs(ml: MathLib, tg: Target, jobs: seq<seq<seq<Tri>>>, scheds: seq<seq<Event>>) returns (r: Target)
    requires |scheds| == |jobs|
    requires forall j :: 0 <= j < |jobs| ==> IsSchedule(jobs[j], scheds[j])
    requires Fits(tg, Total(jobs))
    ensures Ran(ml, tg, r, jobs, scheds, |jobs|)
  {
    forall jj | 0 <= jj < |jobs|
      ensures |scheds[jj]| == |Flatten(jobs[jj])|
    {
      ScheduleCoversOnce(jobs[jj], scheds[jj]);
    }
    r := tg;
    var j := 0;
    while j < |jobs|
      invariant 0 <= j <= |jobs|
      invariant Ran(ml, tg, r, jobs, scheds, j)
    {
      var items, sched := jobs[j], scheds[j];
      ScheduleCoversOnce(items, sched);
      BeforeMonotone(jobs, j + 1, |jobs|);
      var r' := RunJob(ml, r, items, sched);
      forall ev | ValidEvent(items, ev)
        ensures Lands(ml, r'.buffers, r.count, items, sched, ev)
      {
        ParallelRunPlacesEachTriangleOnce(ml, r, items, sched, r', ev);
      }
      RanStep(ml, tg, r, r', jobs, scheds, j);
      r := r';
      j := j + 1;
    }
  }

  /** The counter value the renderer's jobs start from. */
  function Started(p: Policy, tg: Target): (r: Target)
    ensures r.buffers == tg.buffers
    ensures r.count == if p.reset then 0 else tg.count
  {
    if p.reset then tg.(count := 0) else tg
  }

  /** The renderer is passed over without touching it: a renderer without a work mesh
      where the system checks for one, or an empty group where the system skips those. */
  predicate Idle(p: Policy, rd: Renderer, jobs: seq<seq<seq<Tri>>>) {
    (rd.Unallocated? && p.skipNull) || (p.skipEmpty && Total(jobs) == 0)
  }

  /** The renderer stops the update: a job reaches a renderer without arrays, or a job
      stores a triangle past the end of the renderer's buffers. A renderer with no
      triangles to write never overflows, however far its counter has run. */
  predicate Fails(p: Policy, rd: Renderer, jobs: seq<seq<seq<Tri>>>) {
    match rd
    case Unallocated => !Idle(p, rd, jobs)
    case Live(tg) => Total(jobs) > 0 && !Fits(Started(p, tg), Total(jobs))
  }

  /** The renderer's state after its turn: unchanged when idle, otherwise every job has run
      from the started counter; jobs with no triangle to write only start the counter. */
  ghost predicate Done(ml: MathLib, p: Policy, rd: Renderer, rd': Renderer,
                       jobs: seq<seq<seq<Tri>>>, scheds: seq<seq<Event>>)
    requires |jobs| == |scheds|
  {
    match rd
    case Unallocated => rd' == rd
    case Live(tg) =>
      if Idle(p, rd, jobs) then rd' == rd
      else if Fits(Started(p, tg), Total(jobs)) then rd'.Live? && Ran(ml, Started(p, tg), rd'.target, jobs, scheds, |jobs|)
      else Total(jobs) == 0 && rd' == Live(Started(p, tg))
  }

  /** A renderer with nothing to draw raises nothing, however far its counter has run, and a
      system that skips empty groups leaves it exactly as it was. */
  lemma {:induction false} EmptyGroupPassedOver(ml: MathLib, p: Policy, tg: Target, rd': Renderer,
                                                jobs: seq<seq<seq<Tri>>>, scheds: seq<seq<Event>>)
    requires Total(jobs) == 0 && |jobs| == |scheds|
    ensures !Fails(p, Live(tg), jobs)
    ensures p.skipEmpty && Done(ml, p, Live(tg), rd', jobs, scheds) ==> rd' == Live(tg)
  {
  }

  /** Where the main-thread loop stops: the first renderer without arrays that is not
      passed over, whose `AddressOf(ref renderer.Vertices[0])` or job setup throws; the
      renderer count when there is none. An overflow does not stop the loop: it happens
      inside a worker job, after the loop has moved on to the next renderer. */
  function Aborts(p: Policy, renderers: seq<Renderer>, jobs: seq<seq<seq<seq<Tri>>>>, from: nat): (a: nat)
    requires |jobs| == |renderers| && from <= |renderers|
    ensures from <= a <= |renderers|
    ensures a < |renderers| ==> renderers[a].Unallocated? && Fails(p, renderers[a], jobs[a])
    ensures forall k :: from <= k < a ==> !(renderers[k].Unallocated? && Fails(p, renderers[k], jobs[k]))
    decreases |renderers| - from
  {
    if from == |renderers| then from
    else if renderers[from].Unallocated? && Fails(p, renderers[from], jobs[from]) then from
    else Aborts(p, renderers, jobs, from + 1)
  }

  /** Reaching a renderer that stops the loop, before any earlier stop, is the stop. */
  lemma {:induction false} AbortsHere(p: Policy, renderers: seq<Renderer>, jobs: seq<seq<seq<seq<Tri>>>>, i: nat)
    requires |jobs| == |renderers| && i < |renderers|
    requires i <= Aborts(p, renderers, jobs, 0)
    requires renderers[i].Unallocated? && Fails(p, renderers[i], jobs[i])
    ensures Aborts(p, renderers, jobs, 0) == i
  {
  }

  /** `fault` reports the first of the first `n` renderers that fails, or none if none does. */
  predicate FirstFailure(p: Policy, renderers: seq<Renderer>, jobs: seq<seq<seq<seq<Tri>>>>,
                         fault: Option<Fault>, n: nat)
    requires |jobs| == |renderers| && n <= |renderers|
  {
    && (fault.None? <==> forall k :: 0 <= k < n ==> !Fails(p, renderers[k], jobs[k]))
    && (fault.Some? ==>
          && fault.value.renderer < n
          && Fails(p, renderers[fault.value.renderer], jobs[fault.value.renderer])
          && (fault.value.NullBuffers? <==> renderers[fault.value.renderer].Unallocated?)
          && (forall k :: 0 <= k < fault.value.renderer ==> !Fails(p, renderers[k], jobs[k])))
  }

  /** Every renderer among the first `n` that does not fail has had its turn. */
  ghost predicate TurnsDone(ml: MathLib, p: Policy, renderers: seq<Renderer>, r: seq<Renderer>,
                            jobs: seq<seq<seq<seq<Tri>>>>, scheds: seq<seq<seq<Event>>>, n: nat)
    requires |jobs| == |renderers| && |scheds| == |renderers| && |r| == |renderers| && n <= |renderers|
    requires forall i :: 0 <= i < |renderers| ==> |scheds[i]| == |jobs[i]|
  {
    forall k :: 0 <= k < n && !Fails(p, renderers[k], jobs[k]) ==>
      Done(ml, p, renderers[k], r[k], jobs[k], scheds[k])
  }

  /** Renderer `i`'s turn, leaving the others as they were, extends the turns taken. */
  lemma {:induction false} TurnsDoneStep(ml: MathLib, p: Policy, renderers: seq<Renderer>, r: seq<Renderer>,
                                         r': seq<Renderer>, jobs: seq<seq<seq<seq<Tri>>>>,
                                         scheds: seq<seq<seq<Event>>>, i: nat)
    requires |jobs| == |renderers| && |scheds| == |renderers| && |r| == |renderers| && i < |renderers|
    requires forall k :: 0 <= k < |renderers| ==> |scheds[k]| == |jobs[k]|
    requires |r'| == |r| && forall k :: 0 <= k < |r| && k != i ==> r'[k] == r[k]
    requires TurnsDone(ml, p, renderers, r, jobs, scheds, i)
    requires !Fails(p, renderers[i], jobs[i]) ==> Done(ml, p, renderers[i], r'[i], jobs[i], scheds[i])
    ensures TurnsDone(ml, p, renderers, r', jobs, scheds, i + 1)
  {
    forall k | 0 <= k < i + 1 && !Fails(p, renderers[k], jobs[k])
      ensures Done(ml, p, renderers[k], r'[k], jobs[k], scheds[k])
    {
      if k < i {
        assert r'[k] == r[k];
      }
    }
  }

  /** `OnUpdate` of a reconstruction system: renderer `i` runs the jobs `jobs[i]` (one per
      variant group, or the single group) under the linearisations `scheds[i]`. The update
      goes through without a fault exactly when no renderer fails, and the fault names the
      first renderer that does. A renderer without arrays stops the loop on the main thread,
      leaving it and the renderers after it as they were; an overflowing renderer does not,
      and every renderer before the stop that fits its buffers has had its full turn. */
  method Reconstruct(ml: MathLib, p: Policy, renderers: seq<Renderer>,
                     jobs: seq<seq<seq<seq<Tri>>>>, scheds: seq<seq<seq<Event>>>)
    returns (r: seq<Renderer>, fault: Option<Fault>)
    requires |jobs| == |renderers| && |scheds| == |renderers|
    requires forall i :: 0 <= i < |renderers| ==> |scheds[i]| == |jobs[i]|
    requires forall i, j :: 0 <= i < |renderers| && 0 <= j < |jobs[i]| ==> IsSchedule(jobs[i][j], scheds[i][j])
    ensures |r| == |renderers|
    ensures fault.None? <==> forall i :: 0 <= i < |renderers| ==> !Fails(p, renderers[i], jobs[i])
    ensures fault.Some? ==>
      var f := fault.value.renderer;
      && f < |renderers|
      && Fails(p, renderers[f], jobs[f])
      && (fault.value.NullBuffers? <==> renderers[f].Unallocated?)
      && (forall i :: 0 <= i < f ==> !Fails(p, renderers[i], jobs[i]))
    ensures forall i :: 0 <= i < Aborts(p, renderers, jobs, 0) && !Fails(p, renderers[i], jobs[i]) ==>
      Done(ml, p, renderers[i], r[i], jobs[i], scheds[i])
    ensures forall i :: Aborts(p, renderers, jobs, 0) <= i < |renderers| ==> r[i] == renderers[i]
  {
    r := renderers;
    fault := None;
    var i := 0;
    while i < |renderers|
      invariant 0 <= i <= |renderers| && |r| == |renderers|
      invariant i <= Aborts(p, renderers, jobs, 0)
      invariant FirstFailure(p, renderers, jobs, fault, i)
      invariant TurnsDone(ml, p, renderers, r, jobs, scheds, i)
      invariant forall k :: i <= k < |renderers| ==> r[k] == renderers[k]
    {
      var before := r;
      match renderers[i] {
        case Unallocated =>
          if !Idle(p, renderers[i], jobs[i]) {
            if fault.None? {
              fault := Some(NullBuffers(i));
            }
            AbortsHere(p, renderers, jobs, i);
            assert FirstFailure(p, renderers, jobs, fault, i + 1);
            return;
          }
        case Live(tg) =>
          var rd', overflow := LiveTurn(ml, p, tg, jobs[i], scheds[i]);
          if overflow {
            if fault.None? {
              fault := Some(Overflow(i));
            }
            assert FirstFailure(p, renderers, jobs, fault, i + 1);
          } else {
            r := r[i := rd'];
          }
      }
      TurnsDoneStep(ml, p, renderers, before, r, jobs, scheds, i);
      i := i + 1;
    }
  }

  /** The turn of a renderer with arrays: passed over when idle; otherwise its jobs run
      from the started counter, unless they store past the end of its buffers. */
  method LiveTurn(ml: MathLib, p: Policy, tg: Target, jobs: seq<seq<seq<Tri>>>, scheds: seq<seq<Event>>)
    returns (rd': Renderer, overflow: bool)
    requires |scheds| == |jobs|
    requires forall j :: 0 <= j < |jobs| ==> IsSchedule(jobs[j], scheds[j])
    ensures overflow <==> Fails(p, Live(tg), jobs)
    ensures !overflow ==> Done(ml, p, Live(tg), rd', jobs, scheds)
  {
    var start := Started(p, tg);
    overflow := false;
    if Idle(p, Live(tg), jobs) {
      rd' := Live(tg);
    } else if Fits(start, Total(jobs)) {
      var tg' := RunJobs(ml, start, jobs, scheds);
      rd' := Live(tg');
    } else if Total(jobs) == 0 {
      rd' := Live(start);
    } else {
      rd' := Live(tg);
      overflow := true;
    }
  }
}

=== FILE: expiration.dfy ===
/** `ParticleExpirationSystem`: a particle dies once its age exceeds a lifetime between
    three and eight seconds picked by its random value. The job only queues the deaths
    in a command buffer; the entities are destroyed when the buffer is played back. */
module Expiration {
  import opened Particles
  import opened Worlds

  /** `3 + Random * 5`. */
  function Lifetime(random: real): (r: real)
    ensures 0.0 <= random <= 1.0 ==> 3.0 <= r <= 8.0
  {
    3.0 + random * 5.0
  }

  /** `Life > 3 + Random * 5`: strictly past the lifetime. */
  function Expired(p: LegacyParticle): (r: bool)
    ensures 0.0 <= p.random <= 1.0 ==> (p.life <= 3.0 ==> !r) && (p.life > 8.0 ==> r)
  {
    p.life > Lifetime(p.random)
  }

  /** The test is strict: a particle exactly at its lifetime survives; no particle dies
      before three seconds, and every particle is gone after eight. */
  lemma {:induction false} ExpiryBounds(p: LegacyParticle)
    requires 0.0 <= p.random <= 1.0
    ensures p.life == Lifetime(p.random) ==> !Expired(p)
    ensures p.life <= 3.0 ==> !Expired(p)
    ensures p.life > 8.0 ==> Expired(p)
  {
    assert 3.0 <= Lifetime(p.random) <= 8.0;
  }

  /** The reference: the entities of expired particles, in index order. */
  function Doomed(entities: seq<nat>, particles: seq<LegacyParticle>): seq<nat>
    requires |entities| == |particles|
  {
    if |entities| == 0 then []
    else
      var k := |entities| - 1;
      Doomed(entities[..k], particles[..k]) + (if Expired(particles[k]) then [entities[k]] else [])
  }

  /** `ParticleExpirationJob.Execute`: one pass over the group in index order. */
  method ExpirationJob(entities: seq<nat>, particles: seq<LegacyParticle>) returns (queue: seq<nat>)
    requires |entities| == |particles|
    ensures queue == Doomed(entities, particles)
  {
    queue := [];
    var i := 0;
    while i < |entities|
      invariant 0 <= i <= |entities|
      invariant queue == Doomed(entities[..i], particles[..i])
    {
      assert entities[..i + 1][..i] == entities[..i];
      assert particles[..i + 1][..i] == particles[..i];
      if particles[i].life > 3.0 + particles[i].random * 5.0 {
        queue := queue + [entities[i]];
      }
      i := i + 1;
    }
    assert entities[..i] == entities && particles[..i] == particles;
  }

  /** An entity is queued exactly when one of its rows holds an expired particle; with
      distinct entities, none is queued twice. */
  lemma {:induction false} DoomedExact(entities: seq<nat>, particles: seq<LegacyParticle>)
    requires |entities| == |particles|
    ensures forall e :: e in Doomed(entities, particles) <==>
      exists i :: 0 <= i < |entities| && entities[i] == e && Expired(particles[i])
    ensures (forall a, b :: 0 <= a < b < |entities| ==> entities[a] != entities[b]) ==>
      forall a, b :: 0 <= a < b < |Doomed(entities, particles)| ==>
        Doomed(entities, particles)[a] != Doomed(entities, particles)[b]
    decreases |entities|
  {
    if |entities| > 0 {
      var k := |entities| - 1;
      var es := entities[..k];
      var ps := particles[..k];
      DoomedExact(es, ps);
      var d := Doomed(es, ps);
      var tail := if Expired(particles[k]) then [entities[k]] else [];
      assert Doomed(entities, particles) == d + tail;
      forall e
        ensures e in Doomed(entities, particles) <==>
          exists i :: 0 <= i < |entities| && entities[i] == e && Expired(particles[i])
      {
        if exists i :: 0 <= i < |entities| && entities[i] == e && Expired(particles[i]) {
          var i :| 0 <= i < |entities| && entities[i] == e && Expired(particles[i]);
          if i < k {
            assert es[i] == e && Expired(ps[i]);
          }
        }
        if e in d {
          var i :| 0 <= i < |es| && es[i] == e && Expired(ps[i]);
          assert entities[i] == e && Expired(particles[i]);
        }
      }
      if forall a, b :: 0 <= a < b < |entities| ==> entities[a] != entities[b] {
        assert forall a, b :: 0 <= a < b < |es| ==> es[a] != es[b];
        forall a, b | 0 <= a < b < |d + tail|
          ensures (d + tail)[a] != (d + tail)[b]
        {
          if a < |d| && b >= |d| {
            assert d[a] in d;
            var i :| 0 <= i < |es| && es[i] == d[a] && Expired(ps[i]);
            assert entities[i] == d[a];
          }
        }
      }
    }
  }

  /** Playing the command buffer back: every queued entity is destroyed, in order. */
  function Playback<C>(w: World<C>, queue: seq<nat>): (r: World<C>)
    ensures r.next == w.next
    ensures forall id :: id in r.entities <==> id in w.entities && id !in queue
    ensures forall id :: id in r.entities ==> r.entities[id] == w.entities[id]
  {
    if |queue| == 0 then w
    else Destroy(Playback(w, queue[..|queue| - 1]), queue[|queue| - 1])
  }

  /** After the job and the playback, exactly the unexpired entities of the group survive,
      and nothing outside the group is touched. */
  lemma {:induction false} Survivors<C>(w: World<C>, entities: seq<nat>, particles: seq<LegacyParticle>)
    requires |entities| == |particles|
    ensures forall id :: id in Playback(w, Doomed(entities, particles)).entities <==>
      id in w.entities && !exists i :: 0 <= i < |entities| && entities[i] == id && Expired(particles[i])
  {
    DoomedExact(entities, particles);
  }
}

=== FILE: facet.dfy ===
/** Source facets: a triangle of the template mesh stored relative to its own centroid.
    The Firefly revision calls the component `Triangle`, the Fly revision `Facet`; both
    hold the same three vertices. */
module Facets {
  import opened Vec

  datatype Facet = Facet(v1: Vec3, v2: Vec3, v3: Vec3)

  /** The three vertices add up to the zero vector. */
  predicate Centred(f: Facet) {
    Add(Add(f.v1, f.v2), f.v3) == Zero
  }

  /** `f` placed at origin `p`. */
  function Place(p: Vec3, f: Facet): Facet {
    Facet(Add(p, f.v1), Add(p, f.v2), Add(p, f.v3))
  }

  /** The result of re-centring a source triangle: the centroid and the facet around it. */
  datatype Recentred = Recentred(centre: Vec3, facet: Facet)

  /** `vc = (v1 + v2 + v3) / 3` and `Vertex_k = v_k - vc`. The facet is centred and placing
      it back at the centroid reproduces the source triangle exactly. */
  function Recentre(a: Vec3, b: Vec3, c: Vec3): (r: Recentred)
    ensures Centred(r.facet)
    ensures Place(r.centre, r.facet) == Facet(a, b, c)
  {
    var vc := Centroid(a, b, c);
    Recentred(vc, Facet(Sub(a, vc), Sub(b, vc), Sub(c, vc)))
  }

  /** Placing a facet at `p` only translates it: every vertex moves by `p`, so the
      placed triangle's centroid is `p` plus the facet's own centroid. */
  lemma {:induction false} PlaceTranslates(p: Vec3, f: Facet)
    ensures Centroid(Place(p, f).v1, Place(p, f).v2, Place(p, f).v3)
         == Add(p, Centroid(f.v1, f.v2, f.v3))
  {
  }

  /** A centred facet placed at `p` has its centroid at `p`. */
  lemma {:induction false} CentredPlacedAt(p: Vec3, f: Facet)
    ensures Centred(f) ==> Centroid(Place(p, f).v1, Place(p, f).v2, Place(p, f).v3) == p
  {
    PlaceTranslates(p, f);
    var s := Add(Add(f.v1, f.v2), f.v3);
    assert Centroid(f.v1, f.v2, f.v3) == Vec3(s.x / 3.0, s.y / 3.0, s.z / 3.0);
  }
}

=== FILE: fly_construction.dfy ===
/** The Fly revision's construction job (`FlySystem` and `FlyAnimationSystem`): no counter;
    fly `i` of the group owns vertex and normal slots `3i`, `3i+1`, `3i+2`, so the
    parallel-for writes disjoint slots whatever the order its items run in. */
module FlyConstruction {
  import opened Vec
  import opened Facets
  import opened Slots
  import opened Shapes
  import opened Results

  /** Fly `i` at `p` with facet `f`: its facet placed at `p`, flat-shaded. */
  function FlyTriangle(p: Vec3, f: Facet): (t: Tri)
    ensures Centred(f) ==> Centroid(t.v1, t.v2, t.v3) == p
  {
    Placed(p, f)
  }

  /** Corner `c` (0, 1 or 2) of a triangle. */
  function CornerOf(t: Tri, c: nat): Vec3
    requires c < 3
  {
    if c == 0 then t.v1 else if c == 1 then t.v2 else t.v3
  }

  /** The reference result: slot `s < 3n` holds corner `s % 3` of fly `s / 3` and its
      normal; every slot from `3n` on keeps what the buffers held before. */
  function Built(ml: MathLib, b: Buffers, ps: seq<Vec3>, fs: seq<Facet>): (r: Buffers)
    requires Valid(b) && |fs| == |ps| && 3 * |ps| <= |b.vertices|
    ensures Valid(r) && |r.vertices| == |b.vertices|
  {
    var n := |ps|;
    Buffers(
      seq(|b.vertices|, (s: int) requires 0 <= s < |b.vertices| =>
        if s < 3 * n then CornerOf(FlyTriangle(ps[s / 3], fs[s / 3]), s % 3) else b.vertices[s]),
      seq(|b.normals|, (s: int) requires 0 <= s < |b.normals| =>
        if s < 3 * n then FaceNormal(ml, FlyTriangle(ps[s / 3], fs[s / 3])) else b.normals[s]))
  }

  /** In the reference result, fly `i` occupies triangle slot `i`. */
  lemma {:induction false} BuiltHolds(ml: MathLib, b: Buffers, ps: seq<Vec3>, fs: seq<Facet>, i: nat)
    requires Valid(b) && |fs| == |ps| && 3 * |ps| <= |b.vertices| && i < |ps|
    ensures var t := FlyTriangle(ps[i], fs[i]); Holds(Built(ml, b, ps, fs), i, t, FaceNormal(ml, t))
  {
    var r := Built(ml, b, ps, fs);
    assert (3 * i) / 3 == i && (3 * i) % 3 == 0;
    assert (3 * i + 1) / 3 == i && (3 * i + 1) % 3 == 1;
    assert (3 * i + 2) / 3 == i && (3 * i + 2) % 3 == 2;
  }

  /** Slot `s` belongs to triangle slot `s / 3`: it lies in `[3k, 3k + 3)` exactly when
      `k == s / 3`. */
  lemma {:induction false} SlotOwner(s: nat, k: nat)
    ensures 3 * k <= s < 3 * k + 3 <==> s / 3 == k
  {
  }

  /** Buffers that hold fly `i` in triangle slot `i` for every fly and keep every slot
      from `3n` on are the reference result. */
  lemma {:induction false} BuiltExact(ml: MathLib, b: Buffers, r: Buffers, ps: seq<Vec3>, fs: seq<Facet>)
    requires Valid(b) && |fs| == |ps| && 3 * |ps| <= |b.vertices|
    requires |r.vertices| == |b.vertices| && |r.normals| == |b.normals|
    requires forall i :: 0 <= i < |ps| ==>
      Holds(r, i, FlyTriangle(ps[i], fs[i]), FaceNormal(ml, FlyTriangle(ps[i], fs[i])))
    requires forall s :: 3 * |ps| <= s < |b.vertices| ==> r.vertices[s] == b.vertices[s] && r.normals[s] == b.normals[s]
    ensures r == Built(ml, b, ps, fs)
  {
    var ref := Built(ml, b, ps, fs);
    forall s | 0 <= s < |b.vertices|
      ensures r.vertices[s] == ref.vertices[s] && r.normals[s] == ref.normals[s]
    {
      if s < 3 * |ps| {
        var i := s / 3;
        SlotOwner(s, i);
        var t := FlyTriangle(ps[i], fs[i]);
        assert Holds(r, i, t, FaceNormal(ml, t));
        assert s == 3 * i + s % 3;
      }
    }
  }

  /** `order` runs every fly of `0 .. n-1` at least once, in any interleaving: a
      linearisation of the parallel-for. */
  predicate Covers(order: seq<nat>, n: nat) {
    && (forall k :: 0 <= k < |order| ==> order[k] < n)
    && (forall i :: 0 <= i < n ==> i in order)
  }

  /** Why a construction job cannot complete. */
  datatype ConstructionFault = SlotOutOfRange

  /** `ConstructionJob` over the group `ps`, `fs` into a cache of `kMaxVertices` slots, its
      items run in the order `order`. Within capacity, the cache ends up as the reference
      result, whatever the order: the writes are disjoint. Past capacity the job reaches a
      slot outside the array. */
  method ConstructionJob(ml: MathLib, b: Buffers, ps: seq<Vec3>, fs: seq<Facet>, order: seq<nat>)
    returns (r: Buffers, fault: Option<ConstructionFault>)
    requires Valid(b) && |fs| == |ps|
    requires Covers(order, |ps|)
    ensures fault.None? <==> 3 * |ps| <= |b.vertices|
    ensures |b.vertices| == FlyMaxVertices ==> (fault.None? <==> |ps| <= 20000)
    ensures fault.None? ==> r == Built(ml, b, ps, fs)
  {
    if 3 * |ps| > |b.vertices| {
      return b, Some(SlotOutOfRange);
    }
    r := b;
    var k := 0;
    while k < |order|
      invariant 0 <= k <= |order|
      invariant Valid(r) && |r.vertices| == |b.vertices|
      invariant forall i :: i in order[..k] ==>
        Holds(r, i, FlyTriangle(ps[i], fs[i]), FaceNormal(ml, FlyTriangle(ps[i], fs[i])))
      invariant forall s :: 0 <= s < |b.vertices| && s / 3 !in order[..k] ==>
        r.vertices[s] == b.vertices[s] && r.normals[s] == b.normals[s]
    {
      var i := order[k];
      var t := FlyTriangle(ps[i], fs[i]);
      var r' := WriteTriangle(r, i, t, FaceNormal(ml, t));
      assert order[..k + 1] == order[..k] + [i];
      forall j | j in order[..k + 1]
        ensures Holds(r', j, FlyTriangle(ps[j], fs[j]), FaceNormal(ml, FlyTriangle(ps[j], fs[j])))
      {
        if j != i {
          assert j in order[..k];
          HoldsPreserved(r, r', 3 * i, 3 * i + 3, j, FlyTriangle(ps[j], fs[j]), FaceNormal(ml, FlyTriangle(ps[j], fs[j])));
        }
      }
      forall s | 0 <= s < |b.vertices| && s / 3 !in order[..k + 1]
        ensures r'.vertices[s] == b.vertices[s] && r'.normals[s] == b.normals[s]
      {
        SlotOwner(s, i);
      }
      r := r';
      k := k + 1;
    }
    assert order[..k] == order;
    forall s | 3 * |ps| <= s < |b.vertices|
      ensures r.vertices[s] == b.vertices[s] && r.normals[s] == b.normals[s]
    {
      assert s / 3 >= |ps|;
    }
    BuiltExact(ml, b, r, ps, fs);
    fault := None;
  }
}

=== FILE: fly_spawn.dfy ===
/** The Fly revision's spawners (`FlySpawnSystem` and `FlySpawnerSystem`): for every source
    entity carrying a spawn marker, one fly entity per triangle of the marker's template
    mesh, walking the index array three slots at a time. The two systems differ only in
    where a fly's renderer comes from. */
module FlySpawning {
  import opened Vec
  import opened Facets
  import opened Meshes
  import opened Worlds
  import opened Results
  import opened Requests

  /** A fly entity: `Fly.Life`, its facet, its position, and the renderer it draws into. */
  datatype Fly = Fly(life: real, facet: Facet, position: Vec3, renderer: nat)

  /** The fly of mesh triangle `i` for a source entity at `base`: the raw triangle
      re-centred on its centroid `vc`, placed at `base + vc`, life left at zero. */
  function FlyAt(m: Mesh, base: Vec3, i: nat, renderer: nat): (r: Fly)
    requires InRange(m) && i < TriangleCount(m)
    ensures Centred(r.facet)
    ensures Place(r.position, r.facet) == Corners(v => Add(base, v), m, i)
    ensures r.life == 0.0 && r.renderer == renderer
  {
    var c := Corners(v => v, m, i);
    var rc := Recentre(c.v1, c.v2, c.v3);
    Fly(0.0, rc.facet, Add(base, rc.centre), renderer)
  }

  /** The fly sits at the source position plus the centroid of its mesh triangle. */
  lemma {:induction false} FlyPosition(m: Mesh, base: Vec3, i: nat, renderer: nat)
    requires InRange(m) && i < TriangleCount(m)
    ensures var c := Corners(v => v, m, i);
      FlyAt(m, base, i, renderer).position == Add(base, Centroid(c.v1, c.v2, c.v3))
  {
    var f := FlyAt(m, base, i, renderer);
    CentredPlacedAt(f.position, f.facet);
    PlaceTranslates(base, Corners(v => v, m, i));
  }

  /** Reading `indices[vi + 1]` or `indices[vi + 2]` past the end of an index array whose
      length is not a multiple of three throws. */
  datatype SpawnFault = PartialTriangle

  /** The inner loop `for (vi = 0; vi < indices.Length; vi += 3)`: fly `i` is entity
      `w.next + i`. Every complete triple makes a fly before a trailing partial one
      throws. */
  method Populate(w: World<Fly>, m: Mesh, base: Vec3, renderer: nat)
    returns (w': World<Fly>, fault: Option<SpawnFault>)
    requires Fresh(w) && InRange(m)
    ensures Fresh(w') && w'.next == w.next + TriangleCount(m)
    ensures fault.None? <==> |m.indices| % 3 == 0
    ensures forall id :: id in w'.entities <==> id in w.entities || w.next <= id < w'.next
    ensures forall id :: id in w.entities ==> w'.entities[id] == w.entities[id]
    ensures forall i :: 0 <= i < TriangleCount(m) ==>
      w.next + i in w'.entities && w'.entities[w.next + i] == FlyAt(m, base, i, renderer)
  {
    w' := w;
    var vi := 0;
    var n := 0;
    while vi < |m.indices|
      invariant vi == 3 * n && n <= TriangleCount(m)
      invariant Fresh(w') && w'.next == w.next + n
      invariant forall id :: id in w'.entities <==> id in w.entities || w.next <= id < w'.next
      invariant forall id :: id in w.entities ==> w'.entities[id] == w.entities[id]
      invariant forall i :: 0 <= i < n ==>
        w.next + i in w'.entities && w'.entities[w.next + i] == FlyAt(m, base, i, renderer)
    {
      if vi + 2 >= |m.indices| {
        return w', Some(PartialTriangle);
      }
      w' := Create(w', FlyAt(m, base, n, renderer));
      vi := vi + 3;
      n := n + 1;
    }
    fault := None;
  }

  /** Where a fly's renderer comes from. `FlySpawnSystem` allocates a renderer per source
      entity from its render settings and keeps it for disposal; `FlySpawnerSystem` hands
      on the renderer the source entity already carries. */
  datatype RendererSource = Allocate(settingsOf: nat -> nat) | Inherit(rendererOf: nat -> nat)

  /** The renderer of request `k` of an update that started with `d` renderers allocated. */
  function RendererOf(src: RendererSource, d: nat, work: seq<Request<Mesh>>, k: nat): nat
    requires k < |work|
  {
    match src
    case Allocate(_) => d + k
    case Inherit(rendererOf) => rendererOf(work[k].entity)
  }

  /** The renderers allocated for the first `k` requests. */
  function Allocated(src: RendererSource, work: seq<Request<Mesh>>, k: nat): seq<RendererInfo>
    requires k <= |work|
  {
    match src
    case Allocate(settingsOf) => seq(k, (j: int) requires 0 <= j < k => RendererInfo(settingsOf(work[j].entity)))
    case Inherit(_) => []
  }

  /** The entity number of the fly for triangle `i` of request `k`, counting from `first`. */
  function FlyId(first: nat, work: seq<Request<Mesh>>, k: nat, i: nat): nat
    requires k <= |work|
  {
    first + Triangles(work[..k]) + i
  }

  /** The flies of the first `k` requests are in place: the fly of triangle `i` of request
      `j` is entity `FlyId(first, work, j, i)`. */
  ghost predicate FliesPlaced(src: RendererSource, d: nat, first: nat, w: World<Fly>,
                              work: seq<Request<Mesh>>, positionOf: nat -> Vec3, k: nat)
    requires k <= |work|
    requires forall j :: 0 <= j < |work| ==> InRange(work[j].data)
  {
    forall j, i :: 0 <= j < k && 0 <= i < TriangleCount(work[j].data) ==>
      && FlyId(first, work, j, i) in w.entities
      && w.entities[FlyId(first, work, j, i)] == FlyAt(work[j].data, positionOf(work[j].entity), i, RendererOf(src, d, work, j))
  }

  /** Populating request `k` from entity number `FlyId(first, work, k, 0)` on keeps the
      flies of the earlier requests and adds those of request `k`. */
  lemma {:induction false} FliesStep(src: RendererSource, d: nat, first: nat, before: World<Fly>, after: World<Fly>,
                                     work: seq<Request<Mesh>>, positionOf: nat -> Vec3, k: nat)
    requires k < |work|
    requires forall j :: 0 <= j < |work| ==> InRange(work[j].data)
    requires before.next == first + Triangles(work[..k])
    requires FliesPlaced(src, d, first, before, work, positionOf, k)
    requires forall id :: id in before.entities ==> id in after.entities && after.entities[id] == before.entities[id]
    requires forall i :: 0 <= i < TriangleCount(work[k].data) ==>
      && before.next + i in after.entities
      && after.entities[before.next + i] == FlyAt(work[k].data, positionOf(work[k].entity), i, RendererOf(src, d, work, k))
    ensures FliesPlaced(src, d, first, after, work, positionOf, k + 1)
  {
    forall j, i | 0 <= j < k + 1 && 0 <= i < TriangleCount(work[j].data)
      ensures && FlyId(first, work, j, i) in after.entities
              && after.entities[FlyId(first, work, j, i)] == FlyAt(work[j].data, positionOf(work[j].entity), i, RendererOf(src, d, work, j))
    {
      if j < k {
        assert FlyId(first, work, j, i) in before.entities
            && before.entities[FlyId(first, work, j, i)] == FlyAt(work[j].data, positionOf(work[j].entity), i, RendererOf(src, d, work, j));
        assert FlyId(first, work, j, i) in after.entities;
      } else {
        var fly := FlyAt(work[k].data, positionOf(work[k].entity), i, RendererOf(src, d, work, k));
        assert before.next + i in after.entities && after.entities[before.next + i] == fly;
        assert FlyId(first, work, j, i) == before.next + i;
      }
    }
  }

  /** An aborted update: request `k` is the first whose index array ends in a partial
      triple. Its renderer was allocated and its complete triples made flies before the
      throw, so the flies of requests `0..k` are all in place; its marker stays on, as do
      those of the requests after it. */
  ghost predicate Aborted(src: RendererSource, disposed: seq<RendererInfo>, disposed': seq<RendererInfo>,
                          w: World<Fly>, w': World<Fly>, markers: seq<Marker<Mesh>>, markers': seq<Marker<Mesh>>,
                          work: seq<Request<Mesh>>, positionOf: nat -> Vec3)
    requires forall j :: 0 <= j < |work| ==> InRange(work[j].data)
  {
    exists k ::
      && 0 <= k < |work|
      && (forall j :: 0 <= j < k ==> |work[j].data.indices| % 3 == 0)
      && |work[k].data.indices| % 3 != 0
      && markers' == Unmark(markers, Entities(work[..k]))
      && disposed' == disposed + Allocated(src, work, k + 1)
      && w'.next == w.next + Triangles(work[..k + 1])
      && FliesPlaced(src, |disposed|, w.next, w', work, positionOf, k + 1)
  }

  /** `OnUpdate` of either spawner: every pending request in enumeration order. */
  method OnUpdate(src: RendererSource, disposed: seq<RendererInfo>, w: World<Fly>,
                  markers: seq<Marker<Mesh>>, datas: seq<Option<Mesh>>, positionOf: nat -> Vec3)
    returns (disposed': seq<RendererInfo>, w': World<Fly>, markers': seq<Marker<Mesh>>, fault: Option<SpawnFault>)
    requires Fresh(w)
    requires forall d :: Some(d) in datas ==> InRange(d)
    ensures Fresh(w')
    ensures fault.None? <==>
      forall k :: 0 <= k < |Work(markers, datas)| ==> |Work(markers, datas)[k].data.indices| % 3 == 0
    ensures forall id :: id in w.entities ==> id in w'.entities && w'.entities[id] == w.entities[id]
    ensures forall k :: 0 <= k < |Work(markers, datas)| ==> InRange(Work(markers, datas)[k].data)
    ensures fault.None? ==>
      && markers' == Unmark(markers, Entities(Work(markers, datas)))
      && disposed' == disposed + Allocated(src, Work(markers, datas), |Work(markers, datas)|)
      && w'.next == w.next + Triangles(Work(markers, datas))
      && FliesPlaced(src, |disposed|, w.next, w', Work(markers, datas), positionOf, |Work(markers, datas)|)
    ensures fault.Some? ==>
      Aborted(src, disposed, disposed', w, w', markers, markers', Work(markers, datas), positionOf)
  {
    var work := Work(markers, datas);
    forall k | 0 <= k < |work|
      ensures InRange(work[k].data) && work[k].entity < |markers|
    {
      WorkAt(markers, datas, k);
    }
    disposed', w', markers', fault := Process(src, disposed, w, markers, work, positionOf);
  }

  /** The loop over the work list. The fly of triangle `i` of request `k` is entity
      `FlyId(w.next, work, k, i)`; on a throw, the marker of the failing source
      entity stays, but its renderer has already been allocated. */
  method Process(src: RendererSource, disposed: seq<RendererInfo>, w: World<Fly>,
                 markers: seq<Marker<Mesh>>, work: seq<Request<Mesh>>, positionOf: nat -> Vec3)
    returns (disposed': seq<RendererInfo>, w': World<Fly>, markers': seq<Marker<Mesh>>, fault: Option<SpawnFault>)
    requires Fresh(w)
    requires forall k :: 0 <= k < |work| ==> InRange(work[k].data) && work[k].entity < |markers|
    ensures Fresh(w')
    ensures forall id :: id in w.entities ==> id in w'.entities && w'.entities[id] == w.entities[id]
    ensures fault.None? <==> forall k :: 0 <= k < |work| ==> |work[k].data.indices| % 3 == 0
    ensures fault.None? ==>
      && markers' == Unmark(markers, Entities(work))
      && disposed' == disposed + Allocated(src, work, |work|)
      && w'.next == w.next + Triangles(work)
      && forall k, i :: 0 <= k < |work| && 0 <= i < TriangleCount(work[k].data) ==>
           && FlyId(w.next, work, k, i) in w'.entities
           && w'.entities[FlyId(w.next, work, k, i)] == FlyAt(work[k].data, positionOf(work[k].entity), i, RendererOf(src, |disposed|, work, k))
    ensures fault.Some? ==> Aborted(src, disposed, disposed', w, w', markers, markers', work, positionOf)
  {
    disposed' := disposed;
    w' := w;
    markers' := markers;
    var k := 0;
    assert work[..0] == [];
    while k < |work|
      invariant 0 <= k <= |work|
      invariant Fresh(w') && w'.next == w.next + Triangles(work[..k])
      invariant forall id :: id in w.entities ==> id in w'.entities && w'.entities[id] == w.entities[id]
      invariant disposed' == disposed + Allocated(src, work, k)
      invariant markers' == Unmark(markers, Entities(work[..k]))
      invariant forall j :: 0 <= j < k ==> |work[j].data.indices| % 3 == 0
      invariant FliesPlaced(src, |disposed|, w.next, w', work, positionOf, k)
    {
      var q := work[k];
      var e := q.entity;
      var renderer := RendererOf(src, |disposed|, work, k);
      var before := w';
      var more := Allocated(src, work, k + 1);
      if src.Allocate? {
        disposed' := disposed' + [RendererInfo(src.settingsOf(e))];
      }
      assert disposed' == disposed + more;
      var f;
      w', f := Populate(w', q.data, positionOf(e), renderer);
      FliesStep(src, |disposed|, w.next, before, w', work, positionOf, k);
      TrianglesStep(work, k);
      if f.Some? {
        return disposed', w', markers', f;
      }
      UnmarkStep(markers, work, k);
      markers' := markers'[e := Unmarked];
      k := k + 1;
    }
    assert work[..k] == work;
    fault := None;
  }
}

=== FILE: instance.dfy ===
/** The Firefly instancer (`InstanceSystem` of `Instance.cs`): one particle entity per
    triangle of a template mesh, each cloned from a particle-variant template chosen from
    the weighted default entity table, with a particle ID drawn from a running counter. */
module Instancing {
  import opened Vec
  import opened Facets
  import opened Meshes
  import opened Worlds
  import opened Results
  import opened DefaultEntities
  import opened Particles
  import opened Requests

  /** `uint` arithmetic wraps modulo 2^32. */
  const UintModulus: nat := 0x1_0000_0000

  /** The three component values the initialiser job computes for one triangle. */
  datatype InitRecord = InitRecord(triangle: Facet, position: Vec3, particle: Particle)

  /** `InitDataJob.Execute(i)`: read triangle `i`, transform its corners, re-centre them on
      their centroid, and give the particle ID `i + IndexOffset` (a `uint` sum) and the
      lifetime randomiser `0.8 * Value01(i) + 0.2`. */
  function InitData(ml: MathLib, xf: Vec3 -> Vec3, m: Mesh, offset: nat, i: nat): (r: InitRecord)
    requires InRange(m) && i < TriangleCount(m)
    ensures Centred(r.triangle)
    ensures Place(r.position, r.triangle) == Corners(xf, m, i)
    ensures r.particle.id < UintModulus
    ensures offset < UintModulus ==> (r.particle.id == i + offset <==> i + offset < UintModulus)
    ensures 0.0 <= ml.value01(i) <= 1.0 ==> 0.2 <= r.particle.lifeRandom <= 1.0
    ensures r.particle.velocity == Zero && r.particle.time == 0.0
  {
    var c := Corners(xf, m, i);
    var rc := Recentre(c.v1, c.v2, c.v3);
    InitRecord(rc.facet, rc.centre,
               Particle(Zero, (i + offset) % UintModulus, ml.value01(i) * 0.8 + 0.2, 0.0))
  }

  /** The batch offset only shifts the ID: facet, position and lifetime randomiser of
      triangle `i` depend on `i` alone. */
  lemma {:induction false} InitDataDependsOnIndexOnly(ml: MathLib, xf: Vec3 -> Vec3, m: Mesh, a: nat, b: nat, i: nat)
    requires InRange(m) && i < TriangleCount(m)
    ensures InitData(ml, xf, m, a, i).triangle == InitData(ml, xf, m, b, i).triangle
    ensures InitData(ml, xf, m, a, i).position == InitData(ml, xf, m, b, i).position
    ensures InitData(ml, xf, m, a, i).particle.lifeRandom == InitData(ml, xf, m, b, i).particle.lifeRandom
    ensures a % UintModulus != b % UintModulus ==>
      InitData(ml, xf, m, a, i).particle.id != InitData(ml, xf, m, b, i).particle.id
  {
    var ia := InitData(ml, xf, m, a, i).particle.id;
    var ib := InitData(ml, xf, m, b, i).particle.id;
    if a % UintModulus != b % UintModulus {
      ModShift(i, a, b);
    }
  }

  lemma {:induction false} ModShift(i: nat, a: nat, b: nat)
    requires a % UintModulus != b % UintModulus
    ensures (i + a) % UintModulus != (i + b) % UintModulus
  {
    ModCancel(i, a, b);
  }

  lemma {:induction false} ModCancel(i: nat, a: nat, b: nat)
    ensures (i + a) % UintModulus == (i + b) % UintModulus ==> a % UintModulus == b % UintModulus
  {
    var n := UintModulus;
    if (i + a) % n == (i + b) % n {
      assert i + a == n * ((i + a) / n) + (i + a) % n;
      assert i + b == n * ((i + b) / n) + (i + b) % n;
      assert a == n * (a / n) + a % n;
      assert b == n * (b / n) + b % n;
      var k := (i + a) / n - (i + b) / n - a / n + b / n;
      assert a % n - b % n == n * k;
      assert -n < a % n - b % n < n;
    }
  }

  /** All initial data of one spawn, indexed by triangle. */
  function Records(ml: MathLib, xf: Vec3 -> Vec3, m: Mesh, offset: nat): (r: seq<InitRecord>)
    requires InRange(m)
    ensures |r| == TriangleCount(m)
    ensures forall i :: 0 <= i < |r| ==> r[i] == InitData(ml, xf, m, offset, i)
  {
    seq(TriangleCount(m), (i: int) requires 0 <= i < TriangleCount(m) => InitData(ml, xf, m, offset, i))
  }

  /** Weight and lifetime of a particle variant (`SimpleParticle`, `ButterflyParticle`). */
  datatype VariantParams = VariantParams(weight: real, life: real)

  datatype Variant = NoVariant | Simple(simple: VariantParams) | Butterfly(butterfly: VariantParams)

  /** The components of a particle entity: the per-entity data, the renderer it draws
      into (an index into the disposal list) and its variant. */
  datatype Clone = Clone(record: InitRecord, renderer: nat, variant: Variant)

  /** A fresh entity of the particle archetype: default component values, the renderer
      and the variant set on it (`CreateDefaultEntity`). */
  function Template(renderer: nat, variant: Variant): Clone {
    Clone(InitRecord(Facet(Zero, Zero, Zero), Zero, Particle(Zero, 0, 0.0, 0.0)), renderer, variant)
  }

  /** The system's own state: the ID counter, the renderers to dispose at shutdown (renderer
      `k` is entry `k`), and the default entity table. */
  datatype Spawner = Spawner(indexCounter: nat, toBeDisposed: seq<RendererInfo>, table: seq<Entry>)

  /** What holds between calls: a `uint` counter, a sixteen-entry table with numeric
      weights, and entries 2 to 15 pointing at no entity (only entries 0 and 1 are ever
      given one, and cleanup clears them). */
  predicate ValidSpawner(s: Spawner) {
    && s.indexCounter < UintModulus
    && |s.table| == TableSize
    && Raw(s.table)
    && forall k :: 2 <= k < |s.table| ==> s.table[k].entity == Null
  }

  /** The exceptions `CreateEntitiesOverMesh` can raise: `vertices[0]` or `indices[0]` of an
      empty array, `GetSharedComponentData` of a variant the source entity lacks, and
      `Instantiate` of `Entity.Null` for triangle `index`. */
  datatype Fault = EmptyVertices | EmptyIndices | MissingSimple | MissingButterfly | InstantiateFailed(index: nat)

  /** Which exception a spawn over `m` raises, given the variants its source entity has:
      the array reads come first, then the simple variant, then the butterfly variant, and
      only with both in hand can instantiation fail. */
  predicate ThrownFor(m: Mesh, simple: Option<VariantParams>, butterfly: Option<VariantParams>, f: Fault) {
    && (f.EmptyVertices? <==> |m.vertices| == 0)
    && (f.EmptyIndices? <==> |m.vertices| > 0 && |m.indices| == 0)
    && (f.MissingSimple? <==> Usable(m) && simple.None?)
    && (f.MissingButterfly? <==> Usable(m) && simple.Some? && butterfly.None?)
    && (f.InstantiateFailed? <==> Usable(m) && simple.Some? && butterfly.Some?)
  }

  /** The state after the call returns or throws, the clones made, and the fault if any. */
  datatype Outcome = Outcome(spawner: Spawner, world: World<Clone>, clones: seq<nat>, fault: Option<Fault>)

  /** The table after `CreateDefaultEntity` has filled entries 0 and 1 with the templates
      numbered `t` and `t + 1`. */
  function Armed(table: seq<Entry>, t: nat, simple: VariantParams, butterfly: VariantParams): (r: seq<Entry>)
    requires |table| == TableSize
    ensures |r| == TableSize
    ensures Raw(table) ==> Raw(r)
    ensures r[0].entity == Ref(t) && r[1].entity == Ref(t + 1)
    ensures forall k :: 2 <= k < TableSize ==> r[k] == table[k]
  {
    table[0 := Entry(Num(simple.weight), Ref(t))][1 := Entry(Num(butterfly.weight), Ref(t + 1))]
  }

  /** The table entry triangle `i` is cloned from: the first cumulative weight above
      `Value01(i)`. A zero-total table yields nothing, and a non-negative sample never
      lands on an entry of weight zero. */
  function Pick(ml: MathLib, table: seq<Entry>, i: nat): (r: Option<nat>)
    requires Raw(table)
    ensures r.Some? ==> r.value < |table|
    ensures Total(table, |table|) == 0.0 ==> r.None?
    ensures ml.value01(i) >= 0.0 ==>
      forall k :: 0 <= k < |table| && table[k].weight == Num(0.0) ==> r != Some(k)
  {
    var rand := ml.value01(i);
    forall k | 0 <= k < |table| && table[k].weight == Num(0.0) && rand >= 0.0
      ensures FirstAbove(Normalized(table), rand) != Some(k)
    {
      ZeroWeightNeverSelected(table, rand, k);
    }
    forall k | 0 <= k < |table| && Total(table, |table|) == 0.0
      ensures !Below(rand, Normalized(table)[k].weight)
    {
      NormalizedAt(table, k);
    }
    FirstAbove(Normalized(table), rand)
  }

  /** Instantiate, in order, one clone of the selected template per triangle; stop at the
      first triangle whose selection is `Entity.Null`. */
  method InstantiateAll(ml: MathLib, w: World<Clone>, raw: seq<Entry>, table: seq<Entry>, count: nat)
    returns (w': World<Clone>, clones: seq<nat>, fault: Option<Fault>)
    requires Raw(raw) && table == Normalized(raw) && Fresh(w)
    requires forall k :: 0 <= k < |table| && table[k].entity.Ref? ==> table[k].entity.id in w.entities
    ensures Fresh(w')
    ensures forall j :: 0 <= j < |clones| ==> clones[j] == w.next + j
    ensures w'.next == w.next + |clones|
    ensures forall id :: id in w'.entities <==> id in w.entities || w.next <= id < w'.next
    ensures forall id :: id in w.entities ==> w'.entities[id] == w.entities[id]
    ensures forall j :: 0 <= j < |clones| ==>
      && Pick(ml, raw, j).Some?
      && table[Pick(ml, raw, j).value].entity.Ref?
      && w'.entities[clones[j]] == w.entities[table[Pick(ml, raw, j).value].entity.id]
    ensures fault.None? <==> |clones| == count
    ensures fault.None? ==> forall j :: 0 <= j < count ==> EntityAt(table, Pick(ml, raw, j)) != Null
    ensures fault.Some? ==>
      && fault == Some(InstantiateFailed(|clones|))
      && |clones| < count
      && EntityAt(table, Pick(ml, raw, |clones|)) == Null
  {
    w' := w;
    clones := [];
    var i := 0;
    while i < count
      invariant 0 <= i <= count && |clones| == i
      invariant Fresh(w')
      invariant forall j :: 0 <= j < i ==> clones[j] == w.next + j
      invariant w'.next == w.next + i
      invariant forall id :: id in w'.entities <==> id in w.entities || w.next <= id < w'.next
      invariant forall id :: id in w.entities ==> w'.entities[id] == w.entities[id]
      invariant forall j :: 0 <= j < i ==>
        && Pick(ml, raw, j).Some?
        && table[Pick(ml, raw, j).value].entity.Ref?
        && w'.entities[clones[j]] == w.entities[table[Pick(ml, raw, j).value].entity.id]
    {
      var sel := SelectRandomDefaultEntity(table, ml.value01(i));
      if sel == Null {
        return w', clones, Some(InstantiateFailed(i));
      }
      w' := Create(w', w'.entities[sel.id]);
      clones := clones + [w.next + i];
      i := i + 1;
    }
    fault := None;
  }

  /** The second loop: triangle `i`'s data goes to clone `i`; the renderer and the variant
      the clone inherited from its template stay. */
  method SetInitialData(w: World<Clone>, clones: seq<nat>, records: seq<InitRecord>)
    returns (w': World<Clone>)
    requires |clones| == |records|
    requires forall j :: 0 <= j < |clones| ==> clones[j] in w.entities
    requires forall a, b :: 0 <= a < b < |clones| ==> clones[a] != clones[b]
    ensures w'.next == w.next
    ensures forall id :: id in w'.entities <==> id in w.entities
    ensures forall j :: 0 <= j < |clones| ==>
      w'.entities[clones[j]] == w.entities[clones[j]].(record := records[j])
    ensures forall id :: id in w.entities && id !in clones ==> w'.entities[id] == w.entities[id]
  {
    w' := w;
    var i := 0;
    while i < |clones|
      invariant 0 <= i <= |clones|
      invariant w'.next == w.next
      invariant forall id :: id in w'.entities <==> id in w.entities
      invariant forall j :: 0 <= j < i ==>
        w'.entities[clones[j]] == w.entities[clones[j]].(record := records[j])
      invariant forall id :: id in w.entities && id !in clones[..i] ==> w'.entities[id] == w.entities[id]
    {
      var c := clones[i];
      w' := World(w'.entities[c := w'.entities[c].(record := records[i])], w'.next);
      assert clones[..i + 1] == clones[..i] + [c];
      i := i + 1;
    }
  }

  /** What a complete spawn leaves behind: one new entity per triangle, numbered afresh,
      holding triangle `i`'s initial data, the new renderer and the variant the table
      picked for it; the rest of the world untouched and the table cleared. */
  ghost predicate SpawnedAll(ml: MathLib, s: Spawner, w: World<Clone>, xf: Vec3 -> Vec3, m: Mesh,
                             simple: VariantParams, butterfly: VariantParams, r: Outcome)
    requires ValidSpawner(s) && InRange(m)
  {
    var table := Armed(s.table, w.next, simple, butterfly);
    && |r.clones| == TriangleCount(m)
    && (forall i :: 0 <= i < |r.clones| ==> r.clones[i] == w.next + 2 + i)
    && r.world.next == w.next + 2 + |r.clones|
    && (forall id :: id in r.world.entities <==> id in w.entities || id in r.clones)
    && (forall id :: id in w.entities ==> id !in r.clones && r.world.entities[id] == w.entities[id])
    && (forall a, b :: 0 <= a < b < |r.clones| ==> r.clones[a] != r.clones[b])
    && (forall i :: 0 <= i < |r.clones| ==>
          r.world.entities[r.clones[i]] ==
            Clone(InitData(ml, xf, m, s.indexCounter, i), |s.toBeDisposed|,
                  PickedVariant(ml, table, simple, butterfly, i)))
    && (forall k :: 0 <= k < |r.spawner.table| ==> r.spawner.table[k] == Empty)
    && ValidSpawner(r.spawner)
  }

  /** `CreateEntitiesOverMesh`, for a source entity that has the variants `simple` and
      `butterfly` when they are `Some`. */
  method CreateEntitiesOverMesh(ml: MathLib, s: Spawner, w: World<Clone>, xf: Vec3 -> Vec3, m: Mesh,
                                settings: nat, simple: Option<VariantParams>, butterfly: Option<VariantParams>)
    returns (r: Outcome)
    requires ValidSpawner(s) && Fresh(w) && InRange(m)
    ensures |m.vertices| == 0 ==> r == Outcome(s, w, [], Some(EmptyVertices))
    ensures |m.vertices| > 0 && |m.indices| == 0 ==> r == Outcome(s, w, [], Some(EmptyIndices))
    ensures Usable(m) ==>
      && r.spawner.indexCounter == (s.indexCounter + TriangleCount(m)) % UintModulus
      && r.spawner.toBeDisposed == s.toBeDisposed + [RendererInfo(settings)]
      && Fresh(r.world)
    ensures Usable(m) && simple.None? ==>
      && r.fault == Some(MissingSimple) && r.clones == []
      && r.world == w && r.spawner.table == s.table
    ensures Usable(m) && simple.Some? && butterfly.None? ==>
      && r.fault == Some(MissingButterfly) && r.clones == []
      && StrandedSimple(s, w, simple.value, r)
    ensures Usable(m) && simple.Some? && butterfly.Some? ==>
      var table := Armed(s.table, w.next, simple.value, butterfly.value);
      && (r.fault.None? <==> forall j :: 0 <= j < TriangleCount(m) ==> Pick(ml, table, j) in {Some(0), Some(1)})
      && (r.fault.Some? ==>
            && r.fault == Some(InstantiateFailed(|r.clones|))
            && |r.clones| < TriangleCount(m)
            && Pick(ml, table, |r.clones|) !in {Some(0), Some(1)}
            && forall j :: 0 <= j < |r.clones| ==> Pick(ml, table, j) in {Some(0), Some(1)})
    ensures r.fault.None? ==>
      simple.Some? && butterfly.Some? && SpawnedAll(ml, s, w, xf, m, simple.value, butterfly.value, r)
  {
    if |m.vertices| == 0 {
      return Outcome(s, w, [], Some(EmptyVertices));
    }
    if |m.indices| == 0 {
      return Outcome(s, w, [], Some(EmptyIndices));
    }
    r := Populate(ml, s, w, xf, m, settings, simple, butterfly);
  }

  /** The simple variant's template was created and entered at table entry 0 before the
      butterfly lookup threw: the world gained exactly that entity, and the rest of the
      table is as it was. */
  ghost predicate StrandedSimple(s: Spawner, w: World<Clone>, simple: VariantParams, r: Outcome)
    requires |s.table| == TableSize
  {
    && r.world.next == w.next + 1
    && r.world.entities == w.entities[w.next := Template(|s.toBeDisposed|, Simple(simple))]
    && |r.spawner.table| == TableSize
    && r.spawner.table[0] == Entry(Num(simple.weight), Ref(w.next))
    && r.spawner.table[1..] == s.table[1..]
  }

  /** `CreateEntitiesOverMesh` past its two array reads: the counter and the renderer
      list move on first, then the variant lookups may throw. */
  method Populate(ml: MathLib, s: Spawner, w: World<Clone>, xf: Vec3 -> Vec3, m: Mesh,
                  settings: nat, simple: Option<VariantParams>, butterfly: Option<VariantParams>)
    returns (r: Outcome)
    requires ValidSpawner(s) && Fresh(w) && InRange(m)
    ensures r.spawner.indexCounter == (s.indexCounter + TriangleCount(m)) % UintModulus
    ensures r.spawner.toBeDisposed == s.toBeDisposed + [RendererInfo(settings)]
    ensures Fresh(r.world)
    ensures simple.None? ==>
      && r.fault == Some(MissingSimple) && r.clones == []
      && r.world == w && r.spawner.table == s.table
    ensures simple.Some? && butterfly.None? ==>
      && r.fault == Some(MissingButterfly) && r.clones == []
      && StrandedSimple(s, w, simple.value, r)
    ensures simple.Some? && butterfly.Some? ==>
      var table := Armed(s.table, w.next, simple.value, butterfly.value);
      && (r.fault.None? <==> forall j :: 0 <= j < TriangleCount(m) ==> Pick(ml, table, j) in {Some(0), Some(1)})
      && (r.fault.Some? ==>
            && r.fault == Some(InstantiateFailed(|r.clones|))
            && |r.clones| < TriangleCount(m)
            && Pick(ml, table, |r.clones|) !in {Some(0), Some(1)}
            && forall j :: 0 <= j < |r.clones| ==> Pick(ml, table, j) in {Some(0), Some(1)})
    ensures r.fault.None? ==>
      simple.Some? && butterfly.Some? && SpawnedAll(ml, s, w, xf, m, simple.value, butterfly.value, r)
  {
    var counter := (s.indexCounter + TriangleCount(m)) % UintModulus;
    var rid := |s.toBeDisposed|;
    var disposed := s.toBeDisposed + [RendererInfo(settings)];
    if simple.None? {
      return Outcome(Spawner(counter, disposed, s.table), w, [], Some(MissingSimple));
    }
    if butterfly.None? {
      var stranded := Create(w, Template(rid, Simple(simple.value)));
      var table := s.table[0 := Entry(Num(simple.value.weight), Ref(w.next))];
      assert table[1..] == s.table[1..];
      return Outcome(Spawner(counter, disposed, table), stranded, [], Some(MissingButterfly));
    }
    r := ArmAndClone(ml, s, w, xf, m, settings, simple.value, butterfly.value);
  }

  /** `CreateEntitiesOverMesh` once both variants are in hand. */
  method ArmAndClone(ml: MathLib, s: Spawner, w: World<Clone>, xf: Vec3 -> Vec3, m: Mesh,
                      settings: nat, simple: VariantParams, butterfly: VariantParams)
    returns (r: Outcome)
    requires ValidSpawner(s) && Fresh(w) && InRange(m)
    ensures r.spawner.indexCounter == (s.indexCounter + TriangleCount(m)) % UintModulus
    ensures r.spawner.toBeDisposed == s.toBeDisposed + [RendererInfo(settings)]
    ensures Fresh(r.world)
    ensures var table := Armed(s.table, w.next, simple, butterfly);
      && (r.fault.None? <==> forall j :: 0 <= j < TriangleCount(m) ==> Pick(ml, table, j) in {Some(0), Some(1)})
      && (r.fault.Some? ==>
            && r.fault == Some(InstantiateFailed(|r.clones|))
            && |r.clones| < TriangleCount(m)
            && Pick(ml, table, |r.clones|) !in {Some(0), Some(1)}
            && forall j :: 0 <= j < |r.clones| ==> Pick(ml, table, j) in {Some(0), Some(1)})
    ensures r.fault.None? ==> SpawnedAll(ml, s, w, xf, m, simple, butterfly, r)
  {
    var count := TriangleCount(m);
    var counter := (s.indexCounter + count) % UintModulus;
    var rid := |s.toBeDisposed|;
    var disposed := s.toBeDisposed + [RendererInfo(settings)];
    var armed, raw, table := ArmTable(s, w, rid, simple, butterfly);
    var cloned, clones, fault := InstantiateAll(ml, armed, raw, table, count);
    forall j | 0 <= j < count
      ensures EntityAt(table, Pick(ml, raw, j)) != Null <==> Pick(ml, raw, j) in {Some(0), Some(1)}
    {
    }
    if fault.Some? {
      return Outcome(Spawner(counter, disposed, table), cloned, clones, fault);
    }
    ClonesOfTemplates(ml, s, w, simple, butterfly, armed, raw, table, cloned, clones);
    r := Complete(ml, s, w, xf, m, settings, simple, butterfly, raw, table, cloned, clones);
  }

  /** `CreateDefaultEntity` for the two variants and `NormalizeDefaultEntityWeights`: the
      templates become entities `w.next` and `w.next + 1`, and the normalised table
      refers to them at entries 0 and 1 and to nothing elsewhere. */
  method ArmTable(s: Spawner, w: World<Clone>, rid: nat, simple: VariantParams, butterfly: VariantParams)
    returns (armed: World<Clone>, raw: seq<Entry>, table: seq<Entry>)
    requires ValidSpawner(s) && Fresh(w)
    ensures raw == Armed(s.table, w.next, simple, butterfly) && table == Normalized(raw)
    ensures Fresh(armed) && armed.next == w.next + 2
    ensures forall id :: id in armed.entities <==> id in w.entities || w.next <= id < armed.next
    ensures forall id :: id in w.entities ==> armed.entities[id] == w.entities[id]
    ensures armed.entities[w.next] == Template(rid, Simple(simple))
    ensures armed.entities[w.next + 1] == Template(rid, Butterfly(butterfly))
    ensures table[0].entity == Ref(w.next) && table[1].entity == Ref(w.next + 1)
    ensures forall k :: 2 <= k < |table| ==> table[k].entity == Null
    ensures TableIds(table) == {w.next, w.next + 1}
  {
    var t := w.next;
    armed := Create(w, Template(rid, Simple(simple)));
    armed := Create(armed, Template(rid, Butterfly(butterfly)));
    raw := Armed(s.table, t, simple, butterfly);
    table := NormalizeDefaultEntityWeights(raw);
    ArmedEntities(s, t, simple, butterfly, table);
    TableIdsOfArmed(s, t, simple, butterfly, table);
  }

  /** The variant a clone inherits: the template at entry 0 is the simple one. */
  function PickedVariant(ml: MathLib, raw: seq<Entry>, simple: VariantParams, butterfly: VariantParams, i: nat): Variant
    requires Raw(raw)
  {
    if Pick(ml, raw, i) == Some(0) then Simple(simple) else Butterfly(butterfly)
  }

  /** Each clone copied the template its table entry refers to. */
  lemma {:induction false} ClonesOfTemplates(ml: MathLib, s: Spawner, w: World<Clone>,
                                             simple: VariantParams, butterfly: VariantParams,
                                             armed: World<Clone>, raw: seq<Entry>, table: seq<Entry>,
                                             cloned: World<Clone>, clones: seq<nat>)
    requires ValidSpawner(s)
    requires raw == Armed(s.table, w.next, simple, butterfly) && table == Normalized(raw)
    requires w.next in armed.entities && w.next + 1 in armed.entities
    requires armed.entities[w.next] == Template(|s.toBeDisposed|, Simple(simple))
    requires armed.entities[w.next + 1] == Template(|s.toBeDisposed|, Butterfly(butterfly))
    requires table[0].entity == Ref(w.next) && table[1].entity == Ref(w.next + 1)
    requires forall k :: 2 <= k < |table| ==> table[k].entity == Null
    requires forall j :: 0 <= j < |clones| ==> clones[j] in cloned.entities
    requires forall j :: 0 <= j < |clones| ==>
      && Pick(ml, raw, j).Some?
      && table[Pick(ml, raw, j).value].entity.Ref?
      && table[Pick(ml, raw, j).value].entity.id in armed.entities
      && cloned.entities[clones[j]] == armed.entities[table[Pick(ml, raw, j).value].entity.id]
    ensures forall j :: 0 <= j < |clones| ==>
      && Pick(ml, raw, j) in {Some(0), Some(1)}
      && cloned.entities[clones[j]] == Template(|s.toBeDisposed|, PickedVariant(ml, raw, simple, butterfly, j))
  {
    forall j | 0 <= j < |clones|
      ensures Pick(ml, raw, j) in {Some(0), Some(1)}
      ensures cloned.entities[clones[j]] == Template(|s.toBeDisposed|, PickedVariant(ml, raw, simple, butterfly, j))
    {
      var k := Pick(ml, raw, j).value;
      assert k == 0 || k == 1;
    }
  }

  /** The successful end of a spawn: initial data in, table cleared, templates gone. */
  method Complete(ml: MathLib, s: Spawner, w: World<Clone>, xf: Vec3 -> Vec3, m: Mesh,
                  settings: nat, simple: VariantParams, butterfly: VariantParams,
                  raw: seq<Entry>, table: seq<Entry>, cloned: World<Clone>, clones: seq<nat>)
    returns (r: Outcome)
    requires ValidSpawner(s) && Fresh(w) && InRange(m)
    requires raw == Armed(s.table, w.next, simple, butterfly)
    requires |table| == TableSize && TableIds(table) == {w.next, w.next + 1}
    requires |clones| == TriangleCount(m)
    requires forall j :: 0 <= j < |clones| ==> clones[j] == w.next + 2 + j
    requires cloned.next == w.next + 2 + |clones|
    requires forall id :: id in cloned.entities <==> id in w.entities || w.next <= id < cloned.next
    requires forall id :: id in w.entities ==> cloned.entities[id] == w.entities[id]
    requires forall j :: 0 <= j < |clones| ==>
      cloned.entities[clones[j]] == Template(|s.toBeDisposed|, PickedVariant(ml, raw, simple, butterfly, j))
    ensures r.fault.None? && Fresh(r.world)
    ensures r.spawner.indexCounter == (s.indexCounter + TriangleCount(m)) % UintModulus
    ensures r.spawner.toBeDisposed == s.toBeDisposed + [RendererInfo(settings)]
    ensures SpawnedAll(ml, s, w, xf, m, simple, butterfly, r)
  {
    var records := Records(ml, xf, m, s.indexCounter);
    var counter := (s.indexCounter + TriangleCount(m)) % UintModulus;
    var disposed := s.toBeDisposed + [RendererInfo(settings)];
    var cleared, final := Finish(w, cloned, clones, records, table);
    assert Raw(raw);
    forall i | 0 <= i < |clones|
      ensures final.entities[clones[i]] ==
        Clone(InitData(ml, xf, m, s.indexCounter, i), |s.toBeDisposed|, PickedVariant(ml, raw, simple, butterfly, i))
    {
      var v := PickedVariant(ml, raw, simple, butterfly, i);
      assert cloned.entities[clones[i]] == Template(|s.toBeDisposed|, v);
      assert records[i] == InitData(ml, xf, m, s.indexCounter, i);
    }
    r := Outcome(Spawner(counter, disposed, cleared), final, clones, None);
  }

  /** Fill in the clones' data and clear the table; the two templates the table refers to
      are destroyed, so exactly the clones are new. */
  method Finish(w: World<Clone>, cloned: World<Clone>, clones: seq<nat>, records: seq<InitRecord>,
                table: seq<Entry>)
    returns (cleared: seq<Entry>, final: World<Clone>)
    requires Fresh(w) && TableIds(table) == {w.next, w.next + 1}
    requires |records| == |clones|
    requires forall j :: 0 <= j < |clones| ==> clones[j] == w.next + 2 + j
    requires cloned.next == w.next + 2 + |clones|
    requires forall id :: id in cloned.entities <==> id in w.entities || w.next <= id < cloned.next
    requires forall id :: id in w.entities ==> cloned.entities[id] == w.entities[id]
    ensures |cleared| == |table| && forall k :: 0 <= k < |cleared| ==> cleared[k] == Empty
    ensures Fresh(final) && final.next == cloned.next
    ensures forall id :: id in final.entities <==> id in w.entities || id in clones
    ensures forall id :: id in w.entities ==> id !in clones && final.entities[id] == w.entities[id]
    ensures forall a, b :: 0 <= a < b < |clones| ==> clones[a] != clones[b]
    ensures forall j :: 0 <= j < |clones| ==>
      final.entities[clones[j]] == cloned.entities[clones[j]].(record := records[j])
  {
    ConsecutiveIds(clones, w.next + 2);
    var filled := SetInitialData(cloned, clones, records);
    cleared, final := CleanupDefaultEntityTable(table, filled);
    forall id
      ensures id in final.entities <==> id in w.entities || id in clones
    {
      assert id in TableIds(table) <==> id == w.next || id == w.next + 1;
      assert id in w.entities ==> id < w.next;
    }
    forall id | id in w.entities
      ensures id !in clones && final.entities[id] == w.entities[id]
    {
      assert id < w.next;
    }
  }

  /** A run of consecutive IDs: exactly the numbers from `first` on, each once. */
  lemma {:induction false} ConsecutiveIds(ids: seq<nat>, first: nat)
    requires forall j :: 0 <= j < |ids| ==> ids[j] == first + j
    ensures forall id :: id in ids <==> first <= id < first + |ids|
    ensures forall a, b :: 0 <= a < b < |ids| ==> ids[a] != ids[b]
  {
    forall id | first <= id < first + |ids|
      ensures id in ids
    {
      assert ids[id - first] == id;
    }
  }

  /** After normalisation the armed table still refers to the two templates at 0 and 1 and
      to no entity elsewhere. */
  lemma {:induction false} ArmedEntities(s: Spawner, t: nat, simple: VariantParams, butterfly: VariantParams, table: seq<Entry>)
    requires ValidSpawner(s)
    requires table == Normalized(Armed(s.table, t, simple, butterfly))
    ensures table[0].entity == Ref(t) && table[1].entity == Ref(t + 1)
    ensures forall k :: 2 <= k < |table| ==> table[k].entity == Null
  {
    var raw := Armed(s.table, t, simple, butterfly);
    NormalizedAt(raw, 0);
    NormalizedAt(raw, 1);
    forall k | 2 <= k < |table|
      ensures table[k].entity == Null
    {
      NormalizedAt(raw, k);
    }
  }

  lemma {:induction false} TableIdsOfArmed(s: Spawner, t: nat, simple: VariantParams, butterfly: VariantParams, table: seq<Entry>)
    requires ValidSpawner(s)
    requires table == Normalized(Armed(s.table, t, simple, butterfly))
    ensures TableIds(table) == {t, t + 1}
  {
    ArmedEntities(s, t, simple, butterfly, table);
  }

  /** Spawns hand out consecutive ID ranges: as long as the counter does not wrap over a
      work list, no particle ID given to a triangle of one request repeats an ID given to
      another triangle of the same request or to a triangle of any later request. The
      offsets are the counter values each request starts from. */
  lemma {:induction false} IdsNeverRepeatAcrossBatches(ml: MathLib, counter: nat, work: seq<Request<Mesh>>,
                                                       xfOf: nat -> (Vec3 -> Vec3), k1: nat, k2: nat, i: nat, j: nat)
    requires forall k :: 0 <= k < |work| ==> InRange(work[k].data)
    requires k1 <= k2 < |work| && (k1 < k2 || i != j)
    requires i < TriangleCount(work[k1].data) && j < TriangleCount(work[k2].data)
    requires counter + Triangles(work) <= UintModulus
    ensures InitData(ml, xfOf(work[k1].entity), work[k1].data, (counter + Triangles(work[..k1])) % UintModulus, i).particle.id
         != InitData(ml, xfOf(work[k2].entity), work[k2].data, (counter + Triangles(work[..k2])) % UintModulus, j).particle.id
  {
    OffsetsApart(counter, work, k1, k2, i, j);
    IdWithoutWrap(ml, xfOf(work[k1].entity), work[k1].data, counter + Triangles(work[..k1]), i);
    IdWithoutWrap(ml, xfOf(work[k2].entity), work[k2].data, counter + Triangles(work[..k2]), j);
  }

  /** The unwrapped counter values of two different triangles of a work list differ and
      stay below 2^32 when the whole list does. */
  lemma {:induction false} OffsetsApart(counter: nat, work: seq<Request<Mesh>>, k1: nat, k2: nat, i: nat, j: nat)
    requires k1 <= k2 < |work| && (k1 < k2 || i != j)
    requires i < TriangleCount(work[k1].data) && j < TriangleCount(work[k2].data)
    requires counter + Triangles(work) <= UintModulus
    ensures i + counter + Triangles(work[..k1]) < UintModulus
    ensures j + counter + Triangles(work[..k2]) < UintModulus
    ensures i + counter + Triangles(work[..k1]) != j + counter + Triangles(work[..k2])
  {
    TrianglesGrow(work, k2, |work|);
    assert work[..|work|] == work;
    if k1 < k2 {
      TrianglesGrow(work, k1, k2);
    }
  }

  /** Below the wrap-around, the ID of triangle `i` is the offset plus `i`. */
  lemma {:induction false} IdWithoutWrap(ml: MathLib, xf: Vec3 -> Vec3, m: Mesh, offset: nat, i: nat)
    requires InRange(m) && i < TriangleCount(m) && i + offset < UintModulus
    ensures InitData(ml, xf, m, offset % UintModulus, i).particle.id == i + offset
  {
    assert offset % UintModulus == offset;
  }

  /** With the tail of the table weightless, non-negative template weights and a sample in
      `[0, 1)`, the selection lands on one of the two templates exactly when the two
      weights do not both vanish; otherwise the table is NaN and `Entity.Null` comes back. */
  lemma {:induction false} SelectionFindsTemplate(ml: MathLib, table: seq<Entry>, t: nat,
                               simple: VariantParams, butterfly: VariantParams, i: nat)
    requires |table| == TableSize && Raw(table)
    requires forall k :: 2 <= k < |table| ==> table[k].weight == Num(0.0)
    requires simple.weight >= 0.0 && butterfly.weight >= 0.0
    requires 0.0 <= ml.value01(i) < 1.0
    ensures Pick(ml, Armed(table, t, simple, butterfly), i) in {Some(0), Some(1)}
        <==> simple.weight + butterfly.weight > 0.0
  {
    var raw := Armed(table, t, simple, butterfly);
    var n := Normalized(raw);
    TotalTail(raw, 2, |raw|);
    assert Total(raw, 1) == simple.weight;
    assert Total(raw, 2) == simple.weight + butterfly.weight;
    var total := Total(raw, |raw|);
    NormalizedAt(raw, 0);
    NormalizedAt(raw, 1);
    if simple.weight + butterfly.weight > 0.0 {
      assert total == simple.weight + butterfly.weight && total > 0.0;
      DivSelf(total);
      assert n[1].weight == Num(1.0);
      assert Below(ml.value01(i), n[1].weight);
    } else {
      assert n[0].weight == NaN;
      assert n[1].weight == NaN;
    }
  }

  /** Advancing the wrapped counter by one more request's triangles. */
  lemma {:induction false} CounterStep(c: nat, work: seq<Request<Mesh>>, k: nat)
    requires k < |work|
    ensures (c + Triangles(work[..k + 1])) % UintModulus
         == ((c + Triangles(work[..k])) % UintModulus + TriangleCount(work[k].data)) % UintModulus
  {
    TrianglesStep(work, k);
    var a := c + Triangles(work[..k]);
    var b := TriangleCount(work[k].data);
    assert (a % UintModulus + b) % UintModulus == (a + b) % UintModulus;
  }

  /** Every triangle of `m` finds one of the two templates in the table armed with the
      templates numbered `t` and `t + 1`: exactly when a spawn past the array reads completes. */
  predicate SpawnsAll(ml: MathLib, table: seq<Entry>, t: nat, m: Mesh, simple: VariantParams, butterfly: VariantParams)
    requires |table| == TableSize && Raw(table)
  {
    forall j :: 0 <= j < TriangleCount(m) ==> Pick(ml, Armed(table, t, simple, butterfly), j) in {Some(0), Some(1)}
  }

  /** One spawn as the update loop sees it: what becomes of the spawner and whether it threw. */
  method Spawn(ml: MathLib, s: Spawner, w: World<Clone>, xf: Vec3 -> Vec3, m: Mesh,
               settings: nat, simple: Option<VariantParams>, butterfly: Option<VariantParams>)
    returns (r: Outcome)
    requires ValidSpawner(s) && Fresh(w) && InRange(m)
    ensures Fresh(r.world)
    ensures r.fault.None? <==>
      && Usable(m) && simple.Some? && butterfly.Some?
      && SpawnsAll(ml, s.table, w.next, m, simple.value, butterfly.value)
    ensures r.fault.None? ==>
      && simple.Some? && butterfly.Some?
      && ValidSpawner(r.spawner)
      && |r.spawner.toBeDisposed| == |s.toBeDisposed| + 1
      && r.spawner.indexCounter == (s.indexCounter + TriangleCount(m)) % UintModulus
      && SpawnedAll(ml, s, w, xf, m, simple.value, butterfly.value, r)
    ensures r.fault.Some? ==> ThrownFor(m, simple, butterfly, r.fault.value)
  {
    r := CreateEntitiesOverMesh(ml, s, w, xf, m, settings, simple, butterfly);
  }

  /** A complete update: every requested mesh was usable, every marker of the work list
      came off, one renderer was added per request and the particle ID counter moved on by
      the total triangle count, modulo 2^32. */
  ghost predicate Completed(s: Spawner, s': Spawner, markers: seq<Marker<Mesh>>, markers': seq<Marker<Mesh>>,
                            work: seq<Request<Mesh>>)
  {
    && (forall k :: 0 <= k < |work| ==> Usable(work[k].data))
    && markers' == Unmark(markers, Entities(work))
    && |s'.toBeDisposed| == |s.toBeDisposed| + |work|
    && s'.indexCounter == (s.indexCounter + Triangles(work)) % UintModulus
    && ValidSpawner(s')
  }

  /** An aborted update: request `k` threw, every request before it completed, their markers
      are off and the rest are still on; the exception is the one `ThrownFor` names for the
      mesh and the variants of request `k`. */
  ghost predicate Aborted(ml: MathLib, s: Spawner, first: nat, markers: seq<Marker<Mesh>>,
                          markers': seq<Marker<Mesh>>, work: seq<Request<Mesh>>,
                          simpleOf: nat -> Option<VariantParams>, butterflyOf: nat -> Option<VariantParams>,
                          fault: Fault)
    requires ValidSpawner(s)
  {
    exists k ::
      && 0 <= k < |work|
      && (forall j :: 0 <= j < k ==> RequestSpawns(ml, s, first, work, simpleOf, butterflyOf, j))
      && markers' == Unmark(markers, Entities(work[..k]))
      && ThrownFor(work[k].data, simpleOf(work[k].entity), butterflyOf(work[k].entity), fault)
  }

  /** A throw at request `k`, after every request before it completed, aborts the update. */
  lemma {:induction false} AbortsAt(ml: MathLib, s: Spawner, first: nat, markers: seq<Marker<Mesh>>,
                                    markers': seq<Marker<Mesh>>, work: seq<Request<Mesh>>,
                                    simpleOf: nat -> Option<VariantParams>, butterflyOf: nat -> Option<VariantParams>,
                                    k: nat, fault: Fault)
    requires ValidSpawner(s) && k < |work|
    requires forall j :: 0 <= j < k ==> RequestSpawns(ml, s, first, work, simpleOf, butterflyOf, j)
    requires markers' == Unmark(markers, Entities(work[..k]))
    requires ThrownFor(work[k].data, simpleOf(work[k].entity), butterflyOf(work[k].entity), fault)
    ensures Aborted(ml, s, first, markers, markers', work, simpleOf, butterflyOf, fault)
  {
  }

  /** The table request `k` arms: the spawner's table for the first request, the cleared
      table for every later one, since each complete spawn cleans the table up. */
  function TableAt(s: Spawner, k: nat): (t: seq<Entry>)
    requires ValidSpawner(s)
    ensures |t| == TableSize && Raw(t)
  {
    if k == 0 then s.table else seq(TableSize, _ => Empty)
  }

  /** The entity number request `k` starts from when the requests before it completed: each
      spawn takes two template numbers and one number per triangle. */
  function Base(first: nat, work: seq<Request<Mesh>>, k: nat): (b: nat)
    requires k <= |work|
    ensures b >= first
  {
    if k == 0 then first else Base(first, work, k - 1) + 2 + TriangleCount(work[k - 1].data)
  }

  /** Source entity `e` has both particle variants. */
  predicate HasVariants(simpleOf: nat -> Option<VariantParams>, butterflyOf: nat -> Option<VariantParams>, e: nat) {
    simpleOf(e).Some? && butterflyOf(e).Some?
  }

  /** Request `k` completes once the requests before it did. */
  predicate RequestSpawns(ml: MathLib, s: Spawner, first: nat, work: seq<Request<Mesh>>,
                          simpleOf: nat -> Option<VariantParams>, butterflyOf: nat -> Option<VariantParams>, k: nat)
    requires ValidSpawner(s) && k < |work|
  {
    var e := work[k].entity;
    && Usable(work[k].data)
    && HasVariants(simpleOf, butterflyOf, e)
    && SpawnsAll(ml, TableAt(s, k), Base(first, work, k), work[k].data, simpleOf(e).value, butterflyOf(e).value)
  }

  /** Every request of the list completes once the requests before it did. */
  ghost predicate AllSpawn(ml: MathLib, s: Spawner, first: nat, work: seq<Request<Mesh>>,
                           simpleOf: nat -> Option<VariantParams>, butterflyOf: nat -> Option<VariantParams>)
    requires ValidSpawner(s)
  {
    forall k :: 0 <= k < |work| ==> RequestSpawns(ml, s, first, work, simpleOf, butterflyOf, k)
  }

  /** Triangle `i` of request `k`, as a complete update leaves it. */
  function CloneOf(ml: MathLib, s: Spawner, first: nat, work: seq<Request<Mesh>>,
                   xfOf: nat -> (Vec3 -> Vec3), simpleOf: nat -> Option<VariantParams>, butterflyOf: nat -> Option<VariantParams>,
                   k: nat, i: nat): Clone
    requires ValidSpawner(s) && k < |work| && InRange(work[k].data) && i < TriangleCount(work[k].data)
    requires HasVariants(simpleOf, butterflyOf, work[k].entity)
  {
    var e := work[k].entity;
    var simple, butterfly := simpleOf(e).value, butterflyOf(e).value;
    var raw := Armed(TableAt(s, k), Base(first, work, k), simple, butterfly);
    Clone(InitData(ml, xfOf(e), work[k].data, (s.indexCounter + Triangles(work[..k])) % UintModulus, i),
          |s.toBeDisposed| + k, PickedVariant(ml, raw, simple, butterfly, i))
  }

  /** Every entity of `w` is still in `w'`, unchanged. */
  ghost predicate KeptOld(w: World<Clone>, w': World<Clone>) {
    forall id :: id in w.entities ==> id in w'.entities && w'.entities[id] == w.entities[id]
  }

  /** The two templates of each of the first `n` requests are gone. */
  ghost predicate TemplatesGone(w': World<Clone>, first: nat, work: seq<Request<Mesh>>, n: nat)
    requires n <= |work|
  {
    forall k :: 0 <= k < n ==> Base(first, work, k) !in w'.entities && Base(first, work, k) + 1 !in w'.entities
  }

  /** The entity triangle `i` of request `k` becomes: past the request's two templates. */
  function CloneId(first: nat, work: seq<Request<Mesh>>, k: nat, i: nat): (id: nat)
    requires k < |work|
    ensures id >= first + 2 + i
  {
    Base(first, work, k) + 2 + i
  }

  /** Each of the first `n` requests had both variants, and its triangle `i` is entity
      `CloneId(k, i)`. */
  ghost predicate ClonesPlaced(ml: MathLib, s: Spawner, w': World<Clone>, first: nat, work: seq<Request<Mesh>>,
                               xfOf: nat -> (Vec3 -> Vec3), simpleOf: nat -> Option<VariantParams>,
                               butterflyOf: nat -> Option<VariantParams>, n: nat)
    requires ValidSpawner(s) && n <= |work|
    requires forall k :: 0 <= k < |work| ==> InRange(work[k].data)
  {
    && (forall k :: 0 <= k < n ==> HasVariants(simpleOf, butterflyOf, work[k].entity))
    && forall k, i :: 0 <= k < n && 0 <= i < TriangleCount(work[k].data) ==>
      && CloneId(first, work, k, i) in w'.entities
      && w'.entities[CloneId(first, work, k, i)] == CloneOf(ml, s, first, work, xfOf, simpleOf, butterflyOf, k, i)
  }

  /** The first `n` requests spawned: every old entity is kept as it was, the two templates of
      each request are gone, and triangle `i` of request `k` is entity `CloneId(k, i)`. */
  ghost predicate SpawnedSoFar(ml: MathLib, s: Spawner, w: World<Clone>, w': World<Clone>, work: seq<Request<Mesh>>,
                               xfOf: nat -> (Vec3 -> Vec3), simpleOf: nat -> Option<VariantParams>,
                               butterflyOf: nat -> Option<VariantParams>, n: nat)
    requires ValidSpawner(s) && n <= |work|
    requires forall k :: 0 <= k < |work| ==> InRange(work[k].data)
  {
    && w'.next == Base(w.next, work, n)
    && KeptOld(w, w')
    && TemplatesGone(w', w.next, work, n)
    && ClonesPlaced(ml, s, w', w.next, work, xfOf, simpleOf, butterflyOf, n)
  }

  /** Numbers from `Base(k)` on are handed out at or after request `k`. */
  lemma {:induction false} BaseMonotone(first: nat, work: seq<Request<Mesh>>, a: nat, b: nat)
    requires a <= b <= |work|
    ensures Base(first, work, a) <= Base(first, work, b)
    ensures a < b ==> Base(first, work, a) + 2 + TriangleCount(work[a].data) <= Base(first, work, b)
    decreases b
  {
    if a < b {
      BaseMonotone(first, work, a, b - 1);
    }
  }

  /** A spawn past every number used so far removes none of the earlier templates. */
  lemma {:induction false} TemplatesStep(wk: World<Clone>, w2: World<Clone>, first: nat, work: seq<Request<Mesh>>, k: nat)
    requires k < |work| && Fresh(wk) && wk.next == Base(first, work, k)
    requires TemplatesGone(wk, first, work, k)
    requires forall id :: id in w2.entities ==> id in wk.entities || wk.next + 2 <= id
    ensures TemplatesGone(w2, first, work, k + 1)
  {
    forall j | 0 <= j < k + 1
      ensures Base(first, work, j) !in w2.entities && Base(first, work, j) + 1 !in w2.entities
    {
      BaseMonotone(first, work, j, k);
    }
  }

  /** A spawn whose clones are numbered from `Base(k) + 2` adds request `k`'s clones to the
      placed ones. */
  lemma {:induction false} ClonesStep(ml: MathLib, s: Spawner, wk: World<Clone>, w2: World<Clone>,
                                      work: seq<Request<Mesh>>, first: nat, xfOf: nat -> (Vec3 -> Vec3),
                                      simpleOf: nat -> Option<VariantParams>, butterflyOf: nat -> Option<VariantParams>, k: nat)
    requires ValidSpawner(s) && k < |work| && Fresh(wk) && wk.next == Base(first, work, k)
    requires forall j :: 0 <= j < |work| ==> InRange(work[j].data)
    requires ClonesPlaced(ml, s, wk, first, work, xfOf, simpleOf, butterflyOf, k)
    requires KeptOld(wk, w2)
    requires HasVariants(simpleOf, butterflyOf, work[k].entity)
    requires forall i :: 0 <= i < TriangleCount(work[k].data) ==>
      && CloneId(first, work, k, i) in w2.entities
      && w2.entities[CloneId(first, work, k, i)] == CloneOf(ml, s, first, work, xfOf, simpleOf, butterflyOf, k, i)
    ensures ClonesPlaced(ml, s, w2, first, work, xfOf, simpleOf, butterflyOf, k + 1)
  {
    forall j, i | 0 <= j < k + 1 && 0 <= i < TriangleCount(work[j].data)
      ensures CloneId(first, work, j, i) in w2.entities
      ensures w2.entities[CloneId(first, work, j, i)] == CloneOf(ml, s, first, work, xfOf, simpleOf, butterflyOf, j, i)
    {
      if j < k {
        assert CloneId(first, work, j, i) in wk.entities;
      }
    }
  }

  /** `CloneOf` is the clone a spawner in the state request `k` finds it makes. */
  lemma {:induction false} CloneOfSpawner(ml: MathLib, s: Spawner, first: nat, work: seq<Request<Mesh>>,
                                          xfOf: nat -> (Vec3 -> Vec3), simpleOf: nat -> Option<VariantParams>,
                                          butterflyOf: nat -> Option<VariantParams>, k: nat, i: nat, sk: Spawner)
    requires ValidSpawner(s) && k < |work| && InRange(work[k].data) && i < TriangleCount(work[k].data)
    requires sk.table == TableAt(s, k)
    requires sk.indexCounter == (s.indexCounter + Triangles(work[..k])) % UintModulus
    requires |sk.toBeDisposed| == |s.toBeDisposed| + k
    requires HasVariants(simpleOf, butterflyOf, work[k].entity)
    ensures var e := work[k].entity;
      var simple, butterfly := simpleOf(e).value, butterflyOf(e).value;
      CloneOf(ml, s, first, work, xfOf, simpleOf, butterflyOf, k, i) ==
        Clone(InitData(ml, xfOf(e), work[k].data, sk.indexCounter, i), |sk.toBeDisposed|,
              PickedVariant(ml, Armed(sk.table, Base(first, work, k), simple, butterfly), simple, butterfly, i))
  { }

  /** The clones of a complete spawn for request `k` are the ones `CloneOf` promises it. */
  lemma {:induction false} ClonesArrive(ml: MathLib, s: Spawner, first: nat, wk: World<Clone>, sk: Spawner,
                                        work: seq<Request<Mesh>>, xfOf: nat -> (Vec3 -> Vec3),
                                        simpleOf: nat -> Option<VariantParams>, butterflyOf: nat -> Option<VariantParams>,
                                        k: nat, r: Outcome)
    requires ValidSpawner(s) && ValidSpawner(sk) && k < |work|
    requires forall j :: 0 <= j < |work| ==> InRange(work[j].data)
    requires wk.next == Base(first, work, k)
    requires sk.table == TableAt(s, k)
    requires sk.indexCounter == (s.indexCounter + Triangles(work[..k])) % UintModulus
    requires |sk.toBeDisposed| == |s.toBeDisposed| + k
    requires HasVariants(simpleOf, butterflyOf, work[k].entity)
    requires var e := work[k].entity;
      SpawnedAll(ml, sk, wk, xfOf(e), work[k].data, simpleOf(e).value, butterflyOf(e).value, r)
    ensures forall i :: 0 <= i < TriangleCount(work[k].data) ==>
      && CloneId(first, work, k, i) in r.world.entities
      && r.world.entities[CloneId(first, work, k, i)] == CloneOf(ml, s, first, work, xfOf, simpleOf, butterflyOf, k, i)
  {
    forall i | 0 <= i < TriangleCount(work[k].data)
      ensures CloneId(first, work, k, i) in r.world.entities
      ensures r.world.entities[CloneId(first, work, k, i)] == CloneOf(ml, s, first, work, xfOf, simpleOf, butterflyOf, k, i)
    {
      assert r.clones[i] == CloneId(first, work, k, i);
      CloneOfSpawner(ml, s, first, work, xfOf, simpleOf, butterflyOf, k, i, sk);
    }
  }

  /** One more complete spawn extends the spawned prefix. */
  lemma {:induction false} SpawnedStep(ml: MathLib, s: Spawner, w: World<Clone>, wk: World<Clone>, sk: Spawner,
                                       work: seq<Request<Mesh>>, xfOf: nat -> (Vec3 -> Vec3),
                                       simpleOf: nat -> Option<VariantParams>, butterflyOf: nat -> Option<VariantParams>,
                                       k: nat, r: Outcome)
    requires ValidSpawner(s) && ValidSpawner(sk) && Fresh(wk) && k < |work|
    requires forall j :: 0 <= j < |work| ==> InRange(work[j].data)
    requires SpawnedSoFar(ml, s, w, wk, work, xfOf, simpleOf, butterflyOf, k)
    requires sk.table == TableAt(s, k)
    requires sk.indexCounter == (s.indexCounter + Triangles(work[..k])) % UintModulus
    requires |sk.toBeDisposed| == |s.toBeDisposed| + k
    requires HasVariants(simpleOf, butterflyOf, work[k].entity)
    requires var e := work[k].entity;
      SpawnedAll(ml, sk, wk, xfOf(e), work[k].data, simpleOf(e).value, butterflyOf(e).value, r)
    ensures SpawnedSoFar(ml, s, w, r.world, work, xfOf, simpleOf, butterflyOf, k + 1)
  {
    var m := work[k].data;
    assert KeptOld(wk, r.world);
    forall id | id in r.world.entities
      ensures id in wk.entities || wk.next + 2 <= id
    {
      if id !in wk.entities {
        var i :| 0 <= i < |r.clones| && r.clones[i] == id;
      }
    }
    TemplatesStep(wk, r.world, w.next, work, k);
    ClonesArrive(ml, s, w.next, wk, sk, work, xfOf, simpleOf, butterflyOf, k, r);
    ClonesStep(ml, s, wk, r.world, work, w.next, xfOf, simpleOf, butterflyOf, k);
  }


  /** `OnUpdate`: every pending spawn request, in enumeration order, with the transform,
      render settings and variant parameters of its source entity. The marker comes off
      each source entity once its spawn is done; the first throwing spawn aborts the
      update with the remaining markers in place. */
  method OnUpdate(ml: MathLib, s: Spawner, w: World<Clone>,
                  markers: seq<Marker<Mesh>>, datas: seq<Option<Mesh>>,
                  xfOf: nat -> (Vec3 -> Vec3), settingsOf: nat -> nat,
                  simpleOf: nat -> Option<VariantParams>, butterflyOf: nat -> Option<VariantParams>)
    returns (s': Spawner, w': World<Clone>, markers': seq<Marker<Mesh>>, fault: Option<Fault>)
    requires ValidSpawner(s) && Fresh(w)
    requires forall d :: Some(d) in datas ==> InRange(d)
    ensures Fresh(w')
    ensures forall k :: 0 <= k < |Work(markers, datas)| ==> InRange(Work(markers, datas)[k].data)
    ensures fault.None? <==> AllSpawn(ml, s, w.next, Work(markers, datas), simpleOf, butterflyOf)
    ensures fault.None? ==>
      && Completed(s, s', markers, markers', Work(markers, datas))
      && SpawnedSoFar(ml, s, w, w', Work(markers, datas), xfOf, simpleOf, butterflyOf, |Work(markers, datas)|)
    ensures fault.Some? ==> Aborted(ml, s, w.next, markers, markers', Work(markers, datas), simpleOf, butterflyOf, fault.value)
  {
    var work := Work(markers, datas);
    WorkInRange(markers, datas);
    s', w', markers', fault := Process(ml, s, w, markers, work, xfOf, settingsOf, simpleOf, butterflyOf);
  }

  lemma {:induction false} WorkInRange(markers: seq<Marker<Mesh>>, datas: seq<Option<Mesh>>)
    requires forall d :: Some(d) in datas ==> InRange(d)
    ensures forall k :: 0 <= k < |Work(markers, datas)| ==>
      InRange(Work(markers, datas)[k].data) && Work(markers, datas)[k].entity < |markers|
  {
    forall k | 0 <= k < |Work(markers, datas)|
      ensures InRange(Work(markers, datas)[k].data) && Work(markers, datas)[k].entity < |markers|
    {
      WorkAt(markers, datas, k);
    }
  }

  /** The loop over the work list. */
  method Process(ml: MathLib, s: Spawner, w: World<Clone>,
                 markers: seq<Marker<Mesh>>, work: seq<Request<Mesh>>,
                 xfOf: nat -> (Vec3 -> Vec3), settingsOf: nat -> nat,
                 simpleOf: nat -> Option<VariantParams>, butterflyOf: nat -> Option<VariantParams>)
    returns (s': Spawner, w': World<Clone>, markers': seq<Marker<Mesh>>, fault: Option<Fault>)
    requires ValidSpawner(s) && Fresh(w)
    requires forall k :: 0 <= k < |work| ==> InRange(work[k].data) && work[k].entity < |markers|
    ensures Fresh(w')
    ensures fault.None? <==> AllSpawn(ml, s, w.next, work, simpleOf, butterflyOf)
    ensures fault.None? ==>
      && Completed(s, s', markers, markers', work)
      && SpawnedSoFar(ml, s, w, w', work, xfOf, simpleOf, butterflyOf, |work|)
    ensures fault.Some? ==> Aborted(ml, s, w.next, markers, markers', work, simpleOf, butterflyOf, fault.value)
  {
    s' := s;
    w' := w;
    markers' := markers;
    var k := 0;
    assert work[..0] == [];
    while k < |work|
      invariant 0 <= k <= |work|
      invariant Fresh(w') && ValidSpawner(s')
      invariant |s'.toBeDisposed| == |s.toBeDisposed| + k
      invariant s'.indexCounter == (s.indexCounter + Triangles(work[..k])) % UintModulus
      invariant markers' == Unmark(markers, Entities(work[..k]))
      invariant forall j :: 0 <= j < k ==> Usable(work[j].data)
      invariant forall j :: 0 <= j < k ==> RequestSpawns(ml, s, w.next, work, simpleOf, butterflyOf, j)
      invariant s'.table == TableAt(s, k)
      invariant SpawnedSoFar(ml, s, w, w', work, xfOf, simpleOf, butterflyOf, k)
    {
      var q := work[k];
      var e := q.entity;
      var r := Spawn(ml, s', w', xfOf(e), q.data, settingsOf(e), simpleOf(e), butterflyOf(e));
      if r.fault.Some? {
        assert !RequestSpawns(ml, s, w.next, work, simpleOf, butterflyOf, k);
        AbortsAt(ml, s, w.next, markers, markers', work, simpleOf, butterflyOf, k, r.fault.value);
        return r.spawner, r.world, markers', r.fault;
      }
      SpawnedStep(ml, s, w, w', s', work, xfOf, simpleOf, butterflyOf, k, r);
      assert r.spawner.table == TableAt(s, k + 1);
      CounterStep(s.indexCounter, work, k);
      UnmarkStep(markers, work, k);
      s', w' := r.spawner, r.world;
      markers' := markers'[e := Unmarked];
      k := k + 1;
    }
    assert work[..k] == work;
    fault := None;
  }
}

=== FILE: instance_legacy.dfy ===
/** The older instancer (`InstanceSystem.cs`): one particle entity per triangle of a
    template mesh, all cloned from a single default entity. Its particle record has no ID;
    the per-particle random value is keyed by the triangle index alone. */
module LegacyInstancing {
  import opened Vec
  import opened Facets
  import opened Meshes
  import opened Worlds
  import opened Results
  import opened Particles
  import opened Requests

  /** The three component values the initialiser job computes for one triangle. */
  datatype Record = Record(triangle: Facet, position: Vec3, particle: LegacyParticle)

  /** `InitDataJob.Execute(i)`: the transformed triangle re-centred on its centroid, and a
      particle at rest whose only initialised field is `Random = Value01(i)`, with no
      batch offset: two spawns of one mesh give triangle `i` the same random value. */
  function InitData(ml: MathLib, xf: Vec3 -> Vec3, m: Mesh, i: nat): (r: Record)
    requires InRange(m) && i < TriangleCount(m)
    ensures Centred(r.triangle)
    ensures Place(r.position, r.triangle) == Corners(xf, m, i)
    ensures r.particle == LegacyParticle(Zero, 0.0, ml.value01(i))
  {
    var c := Corners(xf, m, i);
    var rc := Recentre(c.v1, c.v2, c.v3);
    Record(rc.facet, rc.centre, LegacyParticle(Zero, 0.0, ml.value01(i)))
  }

  /** Position is the centroid of the transformed triangle. */
  lemma {:induction false} PositionIsCentroid(ml: MathLib, xf: Vec3 -> Vec3, m: Mesh, i: nat)
    requires InRange(m) && i < TriangleCount(m)
    ensures InitData(ml, xf, m, i).position ==
      Centroid(Corners(xf, m, i).v1, Corners(xf, m, i).v2, Corners(xf, m, i).v3)
  {
    var r := InitData(ml, xf, m, i);
    CentredPlacedAt(r.position, r.triangle);
  }

  /** A particle entity: its data and the renderer it draws into. */
  datatype Entity = Entity(record: Record, renderer: nat)

  /** A fresh entity of the particle archetype with the renderer set. */
  function DefaultEntity(renderer: nat): Entity {
    Entity(Record(Facet(Zero, Zero, Zero), Zero, LegacyParticle(Zero, 0.0, 0.0)), renderer)
  }

  /** `vertices[0]` or `indices[0]` of an empty array throws. */
  datatype Fault = EmptyVertices | EmptyIndices

  /** `CreateEntitiesOverMesh`. */
  method CreateEntitiesOverMesh(ml: MathLib, disposed: seq<RendererInfo>, w: World<Entity>,
                                xf: Vec3 -> Vec3, settings: nat, m: Mesh)
    returns (disposed': seq<RendererInfo>, w': World<Entity>, clones: seq<nat>, fault: Option<Fault>)
    requires Fresh(w) && InRange(m)
    ensures Fresh(w')
    ensures |m.vertices| == 0 ==> fault == Some(EmptyVertices) && disposed' == disposed && w' == w
    ensures |m.vertices| > 0 && |m.indices| == 0 ==> fault == Some(EmptyIndices) && disposed' == disposed && w' == w
    ensures Usable(m) ==>
      && fault.None?
      && disposed' == disposed + [RendererInfo(settings)]
      && |clones| == TriangleCount(m)
      && (forall i :: 0 <= i < |clones| ==> clones[i] == w.next + 1 + i)
      && w'.next == w.next + 1 + |clones|
      && (forall id :: id in w'.entities <==> id in w.entities || id in clones)
      && (forall id :: id in w.entities ==> id !in clones && w'.entities[id] == w.entities[id])
      && (forall a, b :: 0 <= a < b < |clones| ==> clones[a] != clones[b])
      && (forall i :: 0 <= i < |clones| ==>
            w'.entities[clones[i]] == Entity(InitData(ml, xf, m, i), |disposed|))
  {
    if |m.vertices| == 0 {
      return disposed, w, [], Some(EmptyVertices);
    }
    if |m.indices| == 0 {
      return disposed, w, [], Some(EmptyIndices);
    }
    disposed' := disposed + [RendererInfo(settings)];
    w', clones := Populate(ml, w, xf, m, |disposed|);
    fault := None;
  }

  /** The spawn proper once both arrays are known to be non-empty: one default entity,
      one clone of it per triangle, the initial data in, the default entity gone. */
  method Populate(ml: MathLib, w: World<Entity>, xf: Vec3 -> Vec3, m: Mesh, rid: nat)
    returns (w': World<Entity>, clones: seq<nat>)
    requires Fresh(w) && InRange(m)
    ensures Fresh(w')
    ensures |clones| == TriangleCount(m)
    ensures forall i :: 0 <= i < |clones| ==> clones[i] == w.next + 1 + i
    ensures w'.next == w.next + 1 + |clones|
    ensures forall id :: id in w'.entities <==> id in w.entities || id in clones
    ensures forall id :: id in w.entities ==> id !in clones && w'.entities[id] == w.entities[id]
    ensures forall a, b :: 0 <= a < b < |clones| ==> clones[a] != clones[b]
    ensures forall i :: 0 <= i < |clones| ==> w'.entities[clones[i]] == Entity(InitData(ml, xf, m, i), rid)
  {
    var count := TriangleCount(m);
    var t := w.next;
    var withDefault := Create(w, DefaultEntity(rid));
    var cloned;
    cloned, clones := InstantiateMany(withDefault, t, count);
    var filled := SetInitialData(cloned, clones, Records(ml, xf, m), rid);
    w' := Destroy(filled, t);
    forall id
      ensures id in w'.entities <==> id in w.entities || id in clones
    {
      if t + 1 <= id < t + 1 + count {
        assert clones[id - t - 1] == id;
      }
    }
  }

  /** All initial data of one spawn, indexed by triangle. */
  function Records(ml: MathLib, xf: Vec3 -> Vec3, m: Mesh): (r: seq<Record>)
    requires InRange(m)
    ensures |r| == TriangleCount(m)
    ensures forall i :: 0 <= i < |r| ==> r[i] == InitData(ml, xf, m, i)
  {
    seq(TriangleCount(m), (i: int) requires 0 <= i < TriangleCount(m) => InitData(ml, xf, m, i))
  }

  /** The second loop: triangle `i`'s data goes to clone `i`. */
  method SetInitialData(w: World<Entity>, clones: seq<nat>, records: seq<Record>, rid: nat)
    returns (w': World<Entity>)
    requires |clones| == |records|
    requires forall j :: 0 <= j < |clones| ==> clones[j] in w.entities
    requires forall a, b :: 0 <= a < b < |clones| ==> clones[a] != clones[b]
    ensures w'.next == w.next
    ensures forall id :: id in w'.entities <==> id in w.entities
    ensures forall j :: 0 <= j < |clones| ==> w'.entities[clones[j]] == Entity(records[j], rid)
    ensures forall id :: id in w.entities && id !in clones ==> w'.entities[id] == w.entities[id]
  {
    w' := w;
    var i := 0;
    while i < |clones|
      invariant 0 <= i <= |clones|
      invariant w'.next == w.next
      invariant forall id :: id in w'.entities <==> id in w.entities
      invariant forall j :: 0 <= j < i ==> w'.entities[clones[j]] == Entity(records[j], rid)
      invariant forall id :: id in w.entities && id !in clones[..i] ==> w'.entities[id] == w.entities[id]
    {
      w' := World(w'.entities[clones[i] := Entity(records[i], rid)], w'.next);
      assert clones[..i + 1] == clones[..i] + [clones[i]];
      i := i + 1;
    }
  }

  /** The entity number request `k` starts from when the requests before it completed: each
      spawn takes one template number and one number per triangle. */
  function Base(first: nat, work: seq<Request<Mesh>>, k: nat): (b: nat)
    requires k <= |work|
    ensures b >= first
  {
    if k == 0 then first else Base(first, work, k - 1) + 1 + TriangleCount(work[k - 1].data)
  }

  /** The entity triangle `i` of request `k` becomes: past the request's template. */
  function CloneId(first: nat, work: seq<Request<Mesh>>, k: nat, i: nat): (id: nat)
    requires k < |work|
    ensures id >= first + 1 + i
  {
    Base(first, work, k) + 1 + i
  }

  /** The first `n` requests spawned: the renderer list grew by one entry per request with
      that request's settings, every old entity is kept as it was, each request's template is
      gone, and triangle `i` of request `k` is entity `CloneId(k, i)`, drawn by renderer
      `|disposed| + k`. */
  ghost predicate SpawnedSoFar(ml: MathLib, disposed: seq<RendererInfo>, disposed': seq<RendererInfo>,
                               w: World<Entity>, w': World<Entity>, work: seq<Request<Mesh>>,
                               xfOf: nat -> (Vec3 -> Vec3), settingsOf: nat -> nat, n: nat)
    requires n <= |work|
    requires forall k :: 0 <= k < |work| ==> InRange(work[k].data)
  {
    && |disposed'| == |disposed| + n
    && disposed'[..|disposed|] == disposed
    && (forall k :: 0 <= k < n ==> disposed'[|disposed| + k] == RendererInfo(settingsOf(work[k].entity)))
    && w'.next == Base(w.next, work, n)
    && (forall id :: id in w.entities ==> id in w'.entities && w'.entities[id] == w.entities[id])
    && (forall k :: 0 <= k < n ==> Base(w.next, work, k) !in w'.entities)
    && (forall k, i :: 0 <= k < n && 0 <= i < TriangleCount(work[k].data) ==>
          && CloneId(w.next, work, k, i) in w'.entities
          && w'.entities[CloneId(w.next, work, k, i)] == Entity(InitData(ml, xfOf(work[k].entity), work[k].data, i), |disposed| + k))
  }

  /** Numbers from `Base(k)` on are handed out at or after request `k`. */
  lemma {:induction false} BaseMonotone(first: nat, work: seq<Request<Mesh>>, a: nat, b: nat)
    requires a <= b <= |work|
    ensures Base(first, work, a) <= Base(first, work, b)
    ensures a < b ==> Base(first, work, a) + 1 + TriangleCount(work[a].data) <= Base(first, work, b)
    decreases b
  {
    if a < b {
      BaseMonotone(first, work, a, b - 1);
    }
  }

  /** One more complete spawn extends the spawned prefix. */
  lemma {:induction false} SpawnedStep(ml: MathLib, disposed: seq<RendererInfo>, dk: seq<RendererInfo>, d2: seq<RendererInfo>,
                                       w: World<Entity>, wk: World<Entity>, w2: World<Entity>, clones: seq<nat>,
                                       work: seq<Request<Mesh>>, xfOf: nat -> (Vec3 -> Vec3), settingsOf: nat -> nat, k: nat)
    requires k < |work| && Fresh(wk)
    requires forall j :: 0 <= j < |work| ==> InRange(work[j].data)
    requires SpawnedSoFar(ml, disposed, dk, w, wk, work, xfOf, settingsOf, k)
    requires d2 == dk + [RendererInfo(settingsOf(work[k].entity))]
    requires |clones| == TriangleCount(work[k].data)
    requires forall i :: 0 <= i < |clones| ==> clones[i] == wk.next + 1 + i
    requires w2.next == wk.next + 1 + |clones|
    requires forall id :: id in w2.entities <==> id in wk.entities || id in clones
    requires forall id :: id in wk.entities ==> w2.entities[id] == wk.entities[id]
    requires forall i :: 0 <= i < |clones| ==>
      w2.entities[clones[i]] == Entity(InitData(ml, xfOf(work[k].entity), work[k].data, i), |dk|)
    ensures SpawnedSoFar(ml, disposed, d2, w, w2, work, xfOf, settingsOf, k + 1)
  {
    assert d2[..|disposed|] == dk[..|disposed|];
    forall j | 0 <= j < k + 1
      ensures Base(w.next, work, j) !in w2.entities
    {
      BaseMonotone(w.next, work, j, k);
    }
    forall j, i | 0 <= j < k + 1 && 0 <= i < TriangleCount(work[j].data)
      ensures CloneId(w.next, work, j, i) in w2.entities
      ensures w2.entities[CloneId(w.next, work, j, i)] == Entity(InitData(ml, xfOf(work[j].entity), work[j].data, i), |disposed| + j)
    {
      if j < k {
        assert CloneId(w.next, work, j, i) in wk.entities;
      } else {
        assert clones[i] == CloneId(w.next, work, j, i);
      }
    }
  }

  /** An aborted update: request `k` is the first whose mesh is unusable; the markers of the
      requests before it are off and the rest are still on. */
  ghost predicate Aborted(markers: seq<Marker<Mesh>>, markers': seq<Marker<Mesh>>, work: seq<Request<Mesh>>) {
    exists k ::
      && 0 <= k < |work|
      && (forall j :: 0 <= j < k ==> Usable(work[j].data))
      && !Usable(work[k].data)
      && markers' == Unmark(markers, Entities(work[..k]))
  }

  /** `OnUpdate`: every pending spawn request, in enumeration order; the marker comes off
      each source entity once its spawn is done, and the first failing spawn aborts the
      update with the remaining markers in place. */
  method OnUpdate(ml: MathLib, disposed: seq<RendererInfo>, w: World<Entity>,
                  markers: seq<Marker<Mesh>>, datas: seq<Option<Mesh>>,
                  xfOf: nat -> (Vec3 -> Vec3), settingsOf: nat -> nat)
    returns (disposed': seq<RendererInfo>, w': World<Entity>, markers': seq<Marker<Mesh>>, fault: Option<Fault>)
    requires Fresh(w)
    requires forall d :: Some(d) in datas ==> InRange(d)
    ensures Fresh(w')
    ensures fault.None? <==> forall k :: 0 <= k < |Work(markers, datas)| ==> Usable(Work(markers, datas)[k].data)
    ensures forall k :: 0 <= k < |Work(markers, datas)| ==> InRange(Work(markers, datas)[k].data)
    ensures fault.None? ==>
      && markers' == Unmark(markers, Entities(Work(markers, datas)))
      && SpawnedSoFar(ml, disposed, disposed', w, w', Work(markers, datas), xfOf, settingsOf, |Work(markers, datas)|)
    ensures fault.Some? ==> Aborted(markers, markers', Work(markers, datas))
  {
    var work := Work(markers, datas);
    forall k | 0 <= k < |work|
      ensures InRange(work[k].data) && work[k].entity < |markers|
    {
      WorkAt(markers, datas, k);
    }
    disposed', w', markers', fault := Process(ml, disposed, w, markers, work, xfOf, settingsOf);
  }

  /** The loop over the work list. */
  method Process(ml: MathLib, disposed: seq<RendererInfo>, w: World<Entity>,
                 markers: seq<Marker<Mesh>>, work: seq<Request<Mesh>>,
                 xfOf: nat -> (Vec3 -> Vec3), settingsOf: nat -> nat)
    returns (disposed': seq<RendererInfo>, w': World<Entity>, markers': seq<Marker<Mesh>>, fault: Option<Fault>)
    requires Fresh(w)
    requires forall k :: 0 <= k < |work| ==> InRange(work[k].data) && work[k].entity < |markers|
    ensures Fresh(w')
    ensures fault.None? <==> forall k :: 0 <= k < |work| ==> Usable(work[k].data)
    ensures fault.None? ==>
      && markers' == Unmark(markers, Entities(work))
      && SpawnedSoFar(ml, disposed, disposed', w, w', work, xfOf, settingsOf, |work|)
    ensures fault.Some? ==> Aborted(markers, markers', work)
  {
    disposed' := disposed;
    w' := w;
    markers' := markers;
    var k := 0;
    assert work[..0] == [];
    while k < |work|
      invariant 0 <= k <= |work|
      invariant Fresh(w')
      invariant markers' == Unmark(markers, Entities(work[..k]))
      invariant forall j :: 0 <= j < k ==> Usable(work[j].data)
      invariant SpawnedSoFar(ml, disposed, disposed', w, w', work, xfOf, settingsOf, k)
    {
      var q := work[k];
      var clones, f, d2, w2;
      d2, w2, clones, f := CreateEntitiesOverMesh(ml, disposed', w', xfOf(q.entity), settingsOf(q.entity), q.data);
      if f.Some? {
        return d2, w2, markers', f;
      }
      SpawnedStep(ml, disposed, disposed', d2, w, w', w2, clones, work, xfOf, settingsOf, k);
      disposed', w' := d2, w2;
      UnmarkStep(markers, work, k);
      markers' := markers'[q.entity := Unmarked];
      k := k + 1;
    }
    assert work[..k] == work;
    fault := None;
  }
}

=== FILE: mesh.dfy ===
/** A template mesh as the spawners read it: a vertex array and a triangle index array in
    which mesh triangle `i` occupies index slots `3i`, `3i+1`, `3i+2`. */
module Meshes {
  import opened Vec
  import opened Facets
  import opened Requests

  datatype Mesh = Mesh(vertices: seq<Vec3>, indices: seq<int>)

  /** Every index names a vertex. The engine keeps this invariant for `Mesh.triangles`; the
      raw-pointer reads of the initialiser jobs rely on it without checking. */
  predicate InRange(m: Mesh) {
    forall k :: 0 <= k < |m.indices| ==> 0 <= m.indices[k] < |m.vertices|
  }

  /** `indices.Length / 3` (integer division): a trailing partial triple makes no triangle. */
  function TriangleCount(m: Mesh): (n: nat)
    ensures 3 * n <= |m.indices| < 3 * n + 3
  {
    |m.indices| / 3
  }

  /** Triangle `i` exists exactly when its three index slots do. */
  lemma {:induction false} TriangleCountBounds(m: Mesh, i: nat)
    ensures i < TriangleCount(m) <==> 3 * i + 2 < |m.indices|
    ensures 3 * TriangleCount(m) <= |m.indices| < 3 * TriangleCount(m) + 3
  {
  }

  /** The spawners dereference `vertices[0]` and `indices[0]`, which throws on an empty
      array. */
  predicate Usable(m: Mesh) {
    |m.vertices| > 0 && |m.indices| > 0
  }

  /** The corners of mesh triangle `i`, read from index slots `3i..3i+2` and mapped through
      the transform `xf`. */
  function Corners(xf: Vec3 -> Vec3, m: Mesh, i: nat): (f: Facet)
    requires InRange(m) && 3 * i + 2 < |m.indices|
    ensures m.indices[3 * i] == m.indices[3 * i + 1] ==> f.v1 == f.v2
    ensures m.indices[3 * i + 1] == m.indices[3 * i + 2] ==> f.v2 == f.v3
    ensures m.indices[3 * i] == m.indices[3 * i + 2] ==> f.v1 == f.v3
  {
    Facet(xf(m.vertices[m.indices[3 * i]]),
          xf(m.vertices[m.indices[3 * i + 1]]),
          xf(m.vertices[m.indices[3 * i + 2]]))
  }

  /** The triangles of a list of spawn requests. */
  function Triangles(work: seq<Request<Mesh>>): nat {
    if |work| == 0 then 0 else Triangles(work[..|work| - 1]) + TriangleCount(work[|work| - 1].data)
  }

  /** Counting one more request's triangles. */
  lemma {:induction false} TrianglesStep(work: seq<Request<Mesh>>, k: nat)
    requires k < |work|
    ensures Triangles(work[..k + 1]) == Triangles(work[..k]) + TriangleCount(work[k].data)
  {
    assert work[..k + 1][..k] == work[..k];
  }

  /** The triangles of request `a` are counted after those of the requests before it and
      before those of any request after it. */
  lemma {:induction false} TrianglesGrow(work: seq<Request<Mesh>>, a: nat, b: nat)
    requires a < b <= |work|
    ensures Triangles(work[..a]) + TriangleCount(work[a].data) <= Triangles(work[..b])
    decreases b
  {
    TrianglesStep(work, b - 1);
    if a < b - 1 {
      TrianglesGrow(work, a, b - 1);
    }
  }
}

=== FILE: mesh_cache.dfy ===
/** `FlyAnimationSystem`'s list of mesh caches: one cache (vertex and normal buffers and a
    mesh) per fly renderer with a material, reused from frame to frame. Each update binds
    the k-th renderer with a material to the k-th cache, appending caches when the list is
    too short; every cache in the list is uploaded and drawn at the start of the next
    update. */
module MeshCaches {
  import opened Results

  /** A `FlyRenderer` value: its material (`None` for null) and the rest of its settings. */
  datatype FlyRenderer = FlyRenderer(material: Option<nat>, settings: nat)

  /** The settings a fresh `MeshCache` carries before it is bound: `default(FlyRenderer)`. */
  const Unbound := FlyRenderer(None, 0)

  /** A cache, identified by the buffers and mesh it owns, and the renderer it is bound to. */
  datatype MeshCache = MeshCache(id: nat, renderer: FlyRenderer)

  /** The renderers that get a cache, in enumeration order. */
  function Drawable(renderers: seq<FlyRenderer>): (r: seq<FlyRenderer>)
    ensures |r| <= |renderers|
    ensures forall k :: 0 <= k < |r| ==> r[k] in renderers && r[k].material.Some?
    ensures forall x :: x in renderers && x.material.Some? ==> x in r
  {
    if |renderers| == 0 then []
    else
      var last := renderers[|renderers| - 1];
      Drawable(renderers[..|renderers| - 1]) + (if last.material.Some? then [last] else [])
  }

  /** One more renderer scanned: it joins the drawable list exactly when it has a material. */
  lemma {:induction false} DrawableStep(renderers: seq<FlyRenderer>, i: nat)
    requires i < |renderers|
    ensures Drawable(renderers[..i + 1])
         == Drawable(renderers[..i]) + (if renderers[i].material.Some? then [renderers[i]] else [])
  {
    assert renderers[..i + 1][..i] == renderers[..i];
  }

  /** The loop body for a renderer with a material: cache `cacheCount` is appended with
      the next identity if the list is that short, then bound to the renderer. */
  method BindNext(caches: seq<MeshCache>, nextId: nat, cacheCount: nat, x: FlyRenderer)
    returns (caches': seq<MeshCache>, nextId': nat)
    requires cacheCount <= |caches|
    ensures |caches'| == if cacheCount < |caches| then |caches| else cacheCount + 1
    ensures nextId' == nextId + (|caches'| - |caches|)
    ensures caches'[cacheCount].renderer == x
    ensures forall k :: 0 <= k < |caches| && k != cacheCount ==> caches'[k] == caches[k]
    ensures cacheCount < |caches| ==> caches'[cacheCount].id == caches[cacheCount].id
    ensures cacheCount == |caches| ==> caches'[cacheCount].id == nextId
  {
    caches', nextId' := caches, nextId;
    if cacheCount >= |caches'| {
      caches' := caches' + [MeshCache(nextId', Unbound)];
      nextId' := nextId' + 1;
    }
    caches' := caches'[cacheCount := caches'[cacheCount].(renderer := x)];
  }

  /** The binding loop: the k-th drawable renderer goes to cache k; a cache is appended,
      with a fresh identity, only when `cacheCount` has reached the list's length. Caches
      beyond the drawable count are left as they were. */
  method Bind(caches: seq<MeshCache>, renderers: seq<FlyRenderer>, nextId: nat)
    returns (caches': seq<MeshCache>, nextId': nat, cacheCount: nat)
    ensures cacheCount == |Drawable(renderers)|
    ensures |caches'| == if cacheCount <= |caches| then |caches| else cacheCount
    ensures nextId' == nextId + (|caches'| - |caches|)
    ensures forall k :: 0 <= k < cacheCount ==> caches'[k].renderer == Drawable(renderers)[k]
    ensures forall k :: 0 <= k < |caches| ==> caches'[k].id == caches[k].id
    ensures forall k :: |caches| <= k < |caches'| ==> caches'[k].id == nextId + (k - |caches|)
    ensures forall k :: cacheCount <= k < |caches| ==> caches'[k] == caches[k]
  {
    caches', nextId', cacheCount := caches, nextId, 0;
    var i := 0;
    while i < |renderers|
      invariant 0 <= i <= |renderers|
      invariant cacheCount == |Drawable(renderers[..i])|
      invariant |caches'| == if cacheCount <= |caches| then |caches| else cacheCount
      invariant nextId' == nextId + (|caches'| - |caches|)
      invariant forall k :: 0 <= k < cacheCount ==> caches'[k].renderer == Drawable(renderers[..i])[k]
      invariant forall k :: 0 <= k < |caches| ==> caches'[k].id == caches[k].id
      invariant forall k :: |caches| <= k < |caches'| ==> caches'[k].id == nextId + (k - |caches|)
      invariant forall k :: cacheCount <= k < |caches| ==> caches'[k] == caches[k]
    {
      DrawableStep(renderers, i);
      if renderers[i].material.Some? {
        caches', nextId' := BindNext(caches', nextId', cacheCount, renderers[i]);
        cacheCount := cacheCount + 1;
      }
      i := i + 1;
    }
    assert renderers[..i] == renderers;
  }

  /** The trim loop as written, `while (cacheCount > _meshCaches.Count)` releasing the last
      cache each time. Removing from an empty list would throw. */
  function TrimAsWritten(caches: seq<MeshCache>, cacheCount: nat): (r: Option<seq<MeshCache>>)
    ensures r.Some? <==> cacheCount <= |caches|
    ensures r.Some? ==> r.value == caches
  {
    if cacheCount > |caches| then
      if |caches| == 0 then None else TrimAsWritten(caches[..|caches| - 1], cacheCount)
    else Some(caches)
  }

  /** The update as written: bind, then trim. Since binding leaves at least `cacheCount`
      caches, the trim never releases anything, and the list never shrinks. */
  method UpdateAsWritten(caches: seq<MeshCache>, renderers: seq<FlyRenderer>, nextId: nat)
    returns (caches': seq<MeshCache>, nextId': nat)
    ensures |caches'| == if |Drawable(renderers)| <= |caches| then |caches| else |Drawable(renderers)|
    ensures forall k :: 0 <= k < |Drawable(renderers)| ==> caches'[k].renderer == Drawable(renderers)[k]
    ensures forall k :: |Drawable(renderers)| <= k < |caches| ==> caches'[k] == caches[k]
  {
    var bound, cacheCount;
    bound, nextId', cacheCount := Bind(caches, renderers, nextId);
    var trimmed := TrimAsWritten(bound, cacheCount);
    assert trimmed == Some(bound);
    caches' := trimmed.value;
  }

  /** What the next update draws: every cache in the list, with its bound renderer's
      material. */
  function Drawn(caches: seq<MeshCache>): (r: seq<Option<nat>>)
    ensures |r| == |caches|
    ensures forall k :: 0 <= k < |caches| ==> r[k] == caches[k].renderer.material
  {
    seq(|caches|, (k: int) requires 0 <= k < |caches| => caches[k].renderer.material)
  }

  /** Two renderers with materials 1 and 2 in one frame, then only the first: the second
      cache survives the second update still bound to material 2, and is drawn again
      although no renderer uses material 2 any more. */
  method StaleCacheStillDrawn() returns (before: seq<MeshCache>, after: seq<MeshCache>)
    ensures |before| == 2 && |after| == 2
    ensures Some(2) in Drawn(after)
    ensures |after| > |Drawable([FlyRenderer(Some(1), 0)])|
  {
    var a, b := FlyRenderer(Some(1), 0), FlyRenderer(Some(2), 0);
    assert Drawable([a, b]) == [a, b] by {
      assert [a, b][..1] == [a];
      assert [a][..0] == [];
    }
    assert Drawable([a]) == [a] by {
      assert [a][..0] == [];
    }
    var id;
    before, id := UpdateAsWritten([], [a, b], 0);
    after, id := UpdateAsWritten(before, [a], id);
    assert Drawn(after)[1] == Some(2);
  }

  /** The intended trim, `while (_meshCaches.Count > cacheCount)`: release caches from the
      end until exactly `cacheCount` remain. */
  function TrimCorrected(caches: seq<MeshCache>, cacheCount: nat): (r: seq<MeshCache>)
    ensures |r| == if cacheCount <= |caches| then cacheCount else |caches|
    ensures r == caches[..|r|]
  {
    if |caches| > cacheCount then TrimCorrected(caches[..|caches| - 1], cacheCount) else caches
  }

  /** The corrected update: after it, the list has exactly one cache per drawable renderer,
      cache `k` bound to the k-th one, so the next update draws only renderers that have a
      material in this frame; the released caches are the surplus at the end. */
  method UpdateCorrected(caches: seq<MeshCache>, renderers: seq<FlyRenderer>, nextId: nat)
    returns (caches': seq<MeshCache>, nextId': nat, released: seq<MeshCache>)
    ensures |caches'| == |Drawable(renderers)|
    ensures forall k :: 0 <= k < |caches'| ==> caches'[k].renderer == Drawable(renderers)[k]
    ensures forall k :: 0 <= k < |caches'| ==> Drawn(caches')[k].Some? && caches'[k].renderer in renderers
    ensures forall k :: 0 <= k < |caches'| && k < |caches| ==> caches'[k].id == caches[k].id
    ensures released == if |Drawable(renderers)| < |caches| then caches[|Drawable(renderers)|..] else []
  {
    var bound, cacheCount;
    bound, nextId', cacheCount := Bind(caches, renderers, nextId);
    caches' := TrimCorrected(bound, cacheCount);
    released := bound[cacheCount..];
  }

  /** `OnDestroyManager`: every cache is released and the list emptied. */
  method ReleaseAll(caches: seq<MeshCache>) returns (caches': seq<MeshCache>, released: seq<MeshCache>)
    ensures caches' == [] && released == caches
  {
    released := [];
    var i := 0;
    while i < |caches|
      invariant 0 <= i <= |caches| && released == caches[..i]
    {
      released := released + [caches[i]];
      i := i + 1;
    }
    caches' := [];
  }
}

=== FILE: noise_effector.dfy ===
/** `NoiseEffectorSystem`: every noise effector in the scene drives every particle, one
    effector after another. Each step accelerates the particle along a curl-noise field,
    scaled by the effector's amplitude, for a time step gated by how deep the particle
    sits in the effector's local box. */
module NoiseEffecting {
  import opened Vec
  import opened Particles

  /** `NoiseEffector`: the field's spatial frequency and its strength. */
  datatype Effector = Effector(frequency: real, amplitude: real)

  /** One effector with its `worldToLocalMatrix`, kept as an uninterpreted map. */
  datatype Field = Field(effector: Effector, toLocal: Vec3 -> Vec3)

  /** The two points `DFNoise` samples: `p * Frequency`, and the same point moved by 100
      along z only. */
  function Samples(frequency: real, p: Vec3): (r: (Vec3, Vec3))
    ensures r.0 == Scale(p, frequency)
    ensures Sub(r.1, r.0) == Vec3(0.0, 0.0, 100.0)
  {
    var q := Scale(p, frequency);
    (q, q.(z := q.z + 100.0))
  }

  /** `DFNoise(p)`: the cross product of the two noise gradients, orthogonal to both, and
      zero where the two gradients agree. */
  function DFNoise(ml: MathLib, e: Effector, p: Vec3): (r: Vec3)
    ensures var s := Samples(e.frequency, p);
      && Orthogonal(r, ml.noiseGrad(s.0)) && Orthogonal(r, ml.noiseGrad(s.1))
      && (ml.noiseGrad(s.0) == ml.noiseGrad(s.1) ==> r == Zero)
  {
    var s := Samples(e.frequency, p);
    CrossOrthogonal(ml.noiseGrad(s.0), ml.noiseGrad(s.1));
    Cross(ml.noiseGrad(s.0), ml.noiseGrad(s.1))
  }

  /** `Amplitude(p)`: `saturate(z + 0.5)` of the local z coordinate. Nothing happens at
      or below the box's back face, full strength at or beyond its front face. */
  function Amplitude(toLocal: Vec3 -> Vec3, p: Vec3): (r: real)
    ensures 0.0 <= r <= 1.0
    ensures toLocal(p).z <= -0.5 ==> r == 0.0
    ensures toLocal(p).z >= 0.5 ==> r == 1.0
  {
    Saturate(toLocal(p).z + 0.5)
  }

  /** The gated step `DeltaTime * Amplitude(pos)`. */
  function StepLength(f: Field, deltaTime: real, pos: Vec3): (dt: real)
    ensures deltaTime >= 0.0 ==> 0.0 <= dt <= deltaTime
  {
    var a := Amplitude(f.toLocal, pos);
    assert deltaTime >= 0.0 ==> deltaTime * a <= deltaTime * 1.0;
    deltaTime * a
  }

  /** `AnimationJob.Execute` of one effector on one particle: velocity first, then age,
      then position with the velocity just computed. ID and lifetime randomiser are left
      alone. */
  function Step(ml: MathLib, f: Field, deltaTime: real, p: Particle, pos: Vec3): (r: (Particle, Vec3))
    ensures r.0.id == p.id && r.0.lifeRandom == p.lifeRandom
    ensures r.0.time - p.time == StepLength(f, deltaTime, pos)
    ensures deltaTime >= 0.0 ==> p.time <= r.0.time <= p.time + deltaTime
    ensures Sub(r.1, pos) == Scale(r.0.velocity, r.0.time - p.time)
    ensures f.effector.amplitude == 0.0 ==> r.0.velocity == p.velocity
  {
    var acc := Scale(DFNoise(ml, f.effector, pos), f.effector.amplitude);
    var dt := StepLength(f, deltaTime, pos);
    var velocity := Add(p.velocity, Scale(acc, dt));
    var time := p.time + dt;
    (p.(velocity := velocity, time := time), Add(pos, Scale(velocity, dt)))
  }

  /** The order is the reverse of the animation systems': measured against moving with the
      old velocity, the effector's position runs ahead by `acc * dt * dt`. */
  lemma {:induction false} PositionUsesNewVelocity(ml: MathLib, f: Field, deltaTime: real, p: Particle, pos: Vec3)
    ensures var r := Step(ml, f, deltaTime, p, pos);
      var dt := StepLength(f, deltaTime, pos);
      var acc := Scale(DFNoise(ml, f.effector, pos), f.effector.amplitude);
      Sub(r.1, Add(pos, Scale(p.velocity, dt))) == Scale(acc, dt * dt)
  {
    var r := Step(ml, f, deltaTime, p, pos);
    var dt := StepLength(f, deltaTime, pos);
    var acc := Scale(DFNoise(ml, f.effector, pos), f.effector.amplitude);
    assert r.0.velocity == Add(p.velocity, Scale(acc, dt));
    assert r.1 == Add(pos, Scale(r.0.velocity, dt));
  }

  /** All effectors, in order, on one particle. */
  function Chain(ml: MathLib, fields: seq<Field>, deltaTime: real, b: (Particle, Vec3)): (Particle, Vec3) {
    if |fields| == 0 then b
    else
      var prev := Chain(ml, fields[..|fields| - 1], deltaTime, b);
      Step(ml, fields[|fields| - 1], deltaTime, prev.0, prev.1)
  }

  /** A chain of any length keeps a particle's ID and never makes it younger. */
  lemma {:induction false} ChainAges(ml: MathLib, fields: seq<Field>, deltaTime: real, b: (Particle, Vec3))
    requires deltaTime >= 0.0
    ensures Chain(ml, fields, deltaTime, b).0.id == b.0.id
    ensures Chain(ml, fields, deltaTime, b).0.lifeRandom == b.0.lifeRandom
    ensures b.0.time <= Chain(ml, fields, deltaTime, b).0.time
    decreases |fields|
  {
    if |fields| > 0 {
      ChainAges(ml, fields[..|fields| - 1], deltaTime, b);
    }
  }

  /** `OnUpdate`: one job per effector, each depending on the previous one, every job
      visiting every particle. The effector-major run gives every particle exactly its
      own chain of steps. */
  method OnUpdate(ml: MathLib, fields: seq<Field>, deltaTime: real, bodies: seq<(Particle, Vec3)>)
    returns (r: seq<(Particle, Vec3)>)
    ensures |r| == |bodies|
    ensures forall i :: 0 <= i < |bodies| ==> r[i] == Chain(ml, fields, deltaTime, bodies[i])
  {
    r := bodies;
    var j := 0;
    while j < |fields|
      invariant 0 <= j <= |fields| && |r| == |bodies|
      invariant forall i :: 0 <= i < |bodies| ==> r[i] == Chain(ml, fields[..j], deltaTime, bodies[i])
    {
      var i := 0;
      while i < |r|
        invariant 0 <= i <= |r| && |r| == |bodies|
        invariant forall k :: 0 <= k < i ==> r[k] == Chain(ml, fields[..j + 1], deltaTime, bodies[k])
        invariant forall k :: i <= k < |r| ==> r[k] == Chain(ml, fields[..j], deltaTime, bodies[k])
      {
        assert fields[..j + 1][..j] == fields[..j];
        r := r[i := Step(ml, fields[j], deltaTime, r[i].0, r[i].1)];
        i := i + 1;
      }
      j := j + 1;
    }
    assert fields[..j] == fields;
  }
}

=== FILE: particles.dfy ===
/** The per-particle record. The source files come from different revisions of the
    project, and each revision's `Particle` is modelled on its own terms. */
module Particles {
  import opened Vec

  /** `Particle` as declared next to `Renderer.MaxVertices`: velocity, ID (a `uint`),
      lifetime randomiser and age. Used by the instancer of `Instance.cs` and by the noise
      effector. */
  datatype Particle = Particle(velocity: Vec3, id: nat, lifeRandom: real, time: real)

  /** The revision whose particle carries `Life` and `Random`: the older instancer, the
      animation, expiration and reconstruction systems, and the older simple particle
      system. */
  datatype LegacyParticle = LegacyParticle(velocity: Vec3, life: real, random: real)

  /** The revision whose particle carries `Random` and `Time`: the butterfly and simple
      particle reconstruction jobs. */
  datatype TimedParticle = TimedParticle(velocity: Vec3, random: real, time: real)
}

=== FILE: requests.dfy ===
/** The one-shot request pattern shared by the three spawning systems: a source entity asks
    for a spawn by carrying a shared marker component whose value names a template mesh.
    Each update enumerates the distinct marker values, skips the one without a mesh,
    filters the source entities carrying each remaining value, processes them in order,
    and removes the marker from every entity it has processed. */
module Requests {
  import opened Results

  /** The marker of source entity `e`: none, or one whose template mesh is `data` (`None`
      for a null mesh, which is never processed). */
  datatype Marker<D> = Unmarked | Marked(data: Option<D>)

  datatype Request<D> = Request(entity: nat, data: D)

  /** `SetFilter(d)` followed by `GetEntityArray()`: the entities whose marker value is `d`,
      in entity order. */
  function Group<D(==,!new)>(markers: seq<Marker<D>>, d: D): (r: seq<nat>)
    ensures forall e :: e in r <==> 0 <= e < |markers| && markers[e] == Marked(Some(d))
    ensures forall a, b :: 0 <= a < b < |r| ==> r[a] < r[b]
  {
    if |markers| == 0 then []
    else
      var last := |markers| - 1;
      var init := Group(markers[..last], d);
      assert forall a :: 0 <= a < |init| ==> init[a] < last by {
        forall a | 0 <= a < |init| ensures init[a] < last {
          assert init[a] in init;
        }
      }
      if markers[last] == Marked(Some(d)) then init + [last] else init
  }

  /** The requests of one marker value: none for a null mesh or an empty group. */
  function Batch<D(==,!new)>(markers: seq<Marker<D>>, data: Option<D>): (r: seq<Request<D>>)
    ensures forall q :: q in r <==> data == Some(q.data) && q.entity < |markers| && markers[q.entity] == Marked(data)
    ensures forall a, b :: 0 <= a < b < |r| ==> r[a].entity < r[b].entity
  {
    match data
    case None => []
    case Some(d) =>
      var g := Group(markers, d);
      var r := seq(|g|, (k: int) requires 0 <= k < |g| => Request(g[k], d));
      assert forall q :: q in r ==> q.entity in g;
      assert forall e :: e in g ==> exists k :: 0 <= k < |g| && g[k] == e && r[k] == Request(e, d);
      r
  }

  /** The requests of one update, value by value in the enumeration order of `datas`. */
  function Work<D(==,!new)>(markers: seq<Marker<D>>, datas: seq<Option<D>>): seq<Request<D>> {
    if |datas| == 0 then [] else Work(markers, datas[..|datas| - 1]) + Batch(markers, datas[|datas| - 1])
  }

  predicate Distinct<T(==)>(s: seq<T>) {
    forall a, b :: 0 <= a < b < |s| ==> s[a] != s[b]
  }

  /** The work list holds exactly the entities whose marker names a mesh among the
      enumerated values, each with that value. */
  lemma {:induction false} WorkExact<D(!new)>(markers: seq<Marker<D>>, datas: seq<Option<D>>)
    ensures forall q :: q in Work(markers, datas) <==>
      Some(q.data) in datas && q.entity < |markers| && markers[q.entity] == Marked(Some(q.data))
    decreases |datas|
  {
    if |datas| > 0 {
      var k := |datas| - 1;
      var init := datas[..k];
      WorkExact(markers, init);
      var b := Batch(markers, datas[k]);
      assert Work(markers, datas) == Work(markers, init) + b;
      assert datas == init + [datas[k]];
      forall q
        ensures q in Work(markers, datas) <==>
          Some(q.data) in datas && q.entity < |markers| && markers[q.entity] == Marked(Some(q.data))
      {
        if Some(q.data) in datas && q.entity < |markers| && markers[q.entity] == Marked(Some(q.data)) {
          if Some(q.data) !in init {
            assert Some(q.data) == datas[k];
            assert q in b;
          }
        }
      }
    }
  }

  /** Request `k` of the work list names a marked entity and one of the enumerated values. */
  lemma {:induction false} WorkAt<D(!new)>(markers: seq<Marker<D>>, datas: seq<Option<D>>, k: nat)
    requires k < |Work(markers, datas)|
    ensures var q := Work(markers, datas)[k];
      Some(q.data) in datas && q.entity < |markers| && markers[q.entity] == Marked(Some(q.data))
  {
    WorkExact(markers, datas);
    assert Work(markers, datas)[k] in Work(markers, datas);
  }

  /** With distinct enumerated values, no entity is processed twice in one update. */
  lemma {:induction false} WorkDistinct<D(!new)>(markers: seq<Marker<D>>, datas: seq<Option<D>>)
    requires Distinct(datas)
    ensures forall a, b :: 0 <= a < b < |Work(markers, datas)| ==>
      Work(markers, datas)[a].entity != Work(markers, datas)[b].entity
    decreases |datas|
  {
    if |datas| > 0 {
      var k := |datas| - 1;
      var init := datas[..k];
      assert Distinct(init);
      WorkDistinct(markers, init);
      WorkExact(markers, init);
      var w0: seq<Request<D>> := Work(markers, init);
      var b: seq<Request<D>> := Batch(markers, datas[k]);
      var all: seq<Request<D>> := w0 + b;
      assert Work(markers, datas) == all;
      forall a, c | 0 <= a < c < |all|
        ensures all[a].entity != all[c].entity
      {
        if a < |w0| && c >= |w0| {
          var qa := w0[a];
          var qc := b[c - |w0|];
          assert qa in w0 && qc in b;
          assert Some(qa.data) in init;
          assert datas[k] !in init;
        }
      }
    }
  }

  /** The entities a list of requests names. */
  function Entities<D(==)>(work: seq<Request<D>>): set<nat> {
    set q | q in work :: q.entity
  }

  /** `RemoveComponent` of the marker on every entity in `done`. */
  function Unmark<D>(markers: seq<Marker<D>>, done: set<nat>): (r: seq<Marker<D>>)
    ensures |r| == |markers|
    ensures forall e :: 0 <= e < |r| ==> r[e] == if e in done then Unmarked else markers[e]
  {
    seq(|markers|, (e: int) requires 0 <= e < |markers| => if e in done then Unmarked else markers[e])
  }

  /** The request is one-shot: once the whole work list has been processed and unmarked,
      the next update, over any enumeration of values, finds nothing to do. */
  lemma {:induction false} SecondUpdateIsIdle<D(!new)>(markers: seq<Marker<D>>, datas: seq<Option<D>>, datas': seq<Option<D>>)
    requires forall v :: v in datas' && v.Some? ==> v in datas
    ensures Work(Unmark(markers, Entities(Work(markers, datas))), datas') == []
  {
    var after := Unmark(markers, Entities(Work(markers, datas)));
    WorkExact(markers, datas);
    WorkExact(after, datas');
    var rest := Work(after, datas');
    forall q: Request<D>
      ensures multiset(rest)[q] == 0
    {
      var e := q.entity;
      if e < |after| && after[e] == Marked(Some(q.data)) {
        assert e !in Entities(Work(markers, datas));
        assert markers[e] == Marked(Some(q.data));
        assert Request(e, q.data) !in Work(markers, datas);
      }
    }
    assert multiset(rest) == multiset{};
  }

  /** Markers with a null mesh are never processed and stay forever; every other marker is
      gone after one complete update, provided the enumeration lists every value carried. */
  lemma {:induction false} OnlyNullMarkersRemain<D(!new)>(markers: seq<Marker<D>>, datas: seq<Option<D>>)
    requires forall e :: 0 <= e < |markers| && markers[e].Marked? ==> markers[e].data in datas
    ensures forall e :: 0 <= e < |markers| ==>
      Unmark(markers, Entities(Work(markers, datas)))[e] ==
        if markers[e] == Marked(None) then Marked(None) else Unmarked
  {
    WorkExact(markers, datas);
    forall e | 0 <= e < |markers|
      ensures Unmark(markers, Entities(Work(markers, datas)))[e] ==
        if markers[e] == Marked(None) then Marked(None) else Unmarked
    {
      if markers[e].Marked? && markers[e].data.Some? {
        assert Request(e, markers[e].data.value) in Work(markers, datas);
      } else if markers[e] == Marked(None) {
        assert forall q :: q in Work(markers, datas) ==> q.entity != e;
      }
    }
  }

  /** Unmarking one more processed request. */
  lemma {:induction false} UnmarkStep<D>(markers: seq<Marker<D>>, work: seq<Request<D>>, k: nat)
    requires k < |work| && work[k].entity < |markers|
    ensures Unmark(markers, Entities(work[..k + 1]))
         == Unmark(markers, Entities(work[..k]))[work[k].entity := Unmarked]
  {
    assert work[..k + 1] == work[..k] + [work[k]];
    assert Entities(work[..k + 1]) == Entities(work[..k]) + {work[k].entity};
  }
}

=== FILE: results.dfy ===
/** Optional values and outcomes with an error, used where the source returns a null
    entity or throws. */
module Results {

  datatype Option<+T> = None | Some(value: T)

  datatype Result<+T, +E> = Success(value: T) | Failure(error: E)
}

=== FILE: shapes.dfy ===
/** Vocabulary shared by the reconstruction jobs: a facet drawn at its position, the
    degenerate triangle, and the flap frequency keyed by a random value. */
module Shapes {
  import opened Vec
  import opened Facets
  import opened Slots

  /** `(pos + Vertex1, pos + Vertex2, pos + Vertex3)`: the source facet at rest, i.e. the
      placed facet as an output triangle. */
  function Placed(pos: Vec3, f: Facet): (r: Tri)
    ensures Centred(f) ==> Centroid(r.v1, r.v2, r.v3) == pos
  {
    var q := Place(pos, f);
    CentredPlacedAt(pos, f);
    Tri(q.v1, q.v2, q.v3)
  }

  /** Two corners coincide: the triangle covers no area. */
  predicate Degenerate(t: Tri) {
    t.v1 == t.v2 || t.v2 == t.v3 || t.v1 == t.v3
  }

  /** `8 + r * 20`: between 8 and 28 for a random value in the unit interval. */
  function FlapFrequency(r: real): (f: real)
    ensures 0.0 <= r <= 1.0 ==> 8.0 <= f <= 28.0
  {
    8.0 + r * 20.0
  }

  /** Moving every corner by `d`. */
  function Shift(t: Tri, d: Vec3): Tri {
    Tri(Add(t.v1, d), Add(t.v2, d), Add(t.v3, d))
  }
}

=== FILE: simple.dfy ===
/** The reconstruction job of the simple particle variant: the facet spins rigidly about
    its position, around an axis perpendicular to both the velocity and its first vertex,
    three radians per second of age. One triangle per particle. */
module SimpleShape {
  import opened Vec
  import opened Facets
  import opened Slots
  import opened Shapes

  /** `normalize(cross(velocity + 1e-4, Vertex1))`: orthogonal to the first vertex and to
      the (nudged) velocity. */
  function SpinAxis(ml: MathLib, velocity: Vec3, face: Facet): (r: Vec3)
    ensures Orthogonal(r, face.v1) && Orthogonal(r, AddScalar(velocity, 0.0001))
  {
    CrossOrthogonal(AddScalar(velocity, 0.0001), face.v1);
    NormalizeOrthogonal(ml, Cross(AddScalar(velocity, 0.0001), face.v1), face.v1);
    NormalizeOrthogonal(ml, Cross(AddScalar(velocity, 0.0001), face.v1), AddScalar(velocity, 0.0001));
    Normalize(ml, Cross(AddScalar(velocity, 0.0001), face.v1))
  }

  /** `axisAngle(axis, age * 3)` applied to all three vertices, then `pos` added. */
  function Spin(ml: MathLib, velocity: Vec3, age: real, pos: Vec3, face: Facet): (r: seq<Tri>)
    ensures |r| == 1
    ensures var turn := (v: Vec3) => ml.rotate(SpinAxis(ml, velocity, face), age * 3.0, v);
      && Sub(r[0].v1, pos) == turn(face.v1)
      && Sub(r[0].v2, pos) == turn(face.v2)
      && Sub(r[0].v3, pos) == turn(face.v3)
  {
    var axis := SpinAxis(ml, velocity, face);
    var angle := age * 3.0;
    [Tri(Add(pos, ml.rotate(axis, angle, face.v1)), Add(pos, ml.rotate(axis, angle, face.v2)),
         Add(pos, ml.rotate(axis, angle, face.v3)))]
  }

  /** A rotation by angle zero leaves every vector where it is. */
  ghost predicate ZeroAngleIsIdentity(ml: MathLib) {
    forall axis, v :: ml.rotate(axis, 0.0, v) == v
  }

  /** Every rotation distributes over vector addition. */
  ghost predicate Additive(ml: MathLib) {
    forall axis, angle, a, b :: ml.rotate(axis, angle, Add(a, b)) == Add(ml.rotate(axis, angle, a), ml.rotate(axis, angle, b))
  }

  /** A particle of age zero shows its facet exactly where it was cut from the mesh. */
  lemma {:induction false} AtRest(ml: MathLib, velocity: Vec3, pos: Vec3, face: Facet)
    requires ZeroAngleIsIdentity(ml)
    ensures Spin(ml, velocity, 0.0, pos, face) == [Placed(pos, face)]
  {
    var axis := SpinAxis(ml, velocity, face);
    assert ml.rotate(axis, 0.0, face.v1) == face.v1;
    assert ml.rotate(axis, 0.0, face.v2) == face.v2;
    assert ml.rotate(axis, 0.0, face.v3) == face.v3;
  }

  /** The turned corners of a centred facet still add up to zero. */
  lemma {:induction false} TurnedCentred(ml: MathLib, axis: Vec3, angle: real, face: Facet)
    requires Additive(ml) && Centred(face)
    ensures Add(Add(ml.rotate(axis, angle, face.v1), ml.rotate(axis, angle, face.v2)), ml.rotate(axis, angle, face.v3)) == Zero
  {
    var R := (v: Vec3) => ml.rotate(axis, angle, v);
    assert R(Add(Zero, Zero)) == Add(R(Zero), R(Zero));
    assert Add(Zero, Zero) == Zero;
    assert R(Add(face.v1, face.v2)) == Add(R(face.v1), R(face.v2));
    assert R(Add(Add(face.v1, face.v2), face.v3)) == Add(R(Add(face.v1, face.v2)), R(face.v3));
  }

  /** For a centred facet the spin is about the particle's position: whatever the age, the
      emitted triangle's centroid stays at `pos`. */
  lemma {:induction false} SpinsAboutPosition(ml: MathLib, velocity: Vec3, age: real, pos: Vec3, face: Facet)
    requires Additive(ml) && Centred(face)
    ensures var t := Spin(ml, velocity, age, pos, face)[0]; Centroid(t.v1, t.v2, t.v3) == pos
  {
    var axis := SpinAxis(ml, velocity, face);
    var angle := age * 3.0;
    TurnedCentred(ml, axis, angle, face);
    CentroidOfOffsets(pos, ml.rotate(axis, angle, face.v1), ml.rotate(axis, angle, face.v2), ml.rotate(axis, angle, face.v3));
  }
}

=== FILE: slots.dfy ===
/** The shared geometry buffer of a render target and the append counter that hands out
    triangle slots.

    A render target owns a vertex array, a normal array of the same length and a counter.
    Emitting a triangle claims the counter value `k` (fetch-and-add) and writes vertex and
    normal slots `3k`, `3k+1`, `3k+2`; the three normal slots all receive the triangle's
    flat normal. The mesh's index array is the identity ramp, so slots `3k..3k+2` are
    exactly the corners of mesh triangle `k`. */
module Slots {
  import opened Vec

  /** `Renderer.MaxVertices` of the Firefly revision. */
  const MaxVertices: nat := 510000
  /** `kMaxVertices` of the Fly revision. */
  const FlyMaxVertices: nat := 60000

  datatype Tri = Tri(v1: Vec3, v2: Vec3, v3: Vec3)

  /** The same triangle with the opposite winding. */
  function Reversed(t: Tri): Tri {
    Tri(t.v1, t.v3, t.v2)
  }

  /** `normalize(cross(v2 - v1, v3 - v1))`, shared by all three corners (flat shading). */
  function FaceNormal(m: MathLib, t: Tri): Vec3 {
    Normalize(m, Cross(Sub(t.v2, t.v1), Sub(t.v3, t.v1)))
  }

  /** The flat normal is orthogonal to both edges out of `v1`, and zero for a triangle
      with a repeated corner. */
  lemma {:induction false} FaceNormalOrthogonal(m: MathLib, t: Tri)
    ensures Orthogonal(FaceNormal(m, t), Sub(t.v2, t.v1)) && Orthogonal(FaceNormal(m, t), Sub(t.v3, t.v1))
    ensures t.v1 == t.v2 || t.v1 == t.v3 || t.v2 == t.v3 ==> FaceNormal(m, t) == Zero
  {
    CrossOrthogonal(Sub(t.v2, t.v1), Sub(t.v3, t.v1));
    NormalizeOrthogonal(m, Cross(Sub(t.v2, t.v1), Sub(t.v3, t.v1)), Sub(t.v2, t.v1));
    NormalizeOrthogonal(m, Cross(Sub(t.v2, t.v1), Sub(t.v3, t.v1)), Sub(t.v3, t.v1));
  }

  datatype Buffers = Buffers(vertices: seq<Vec3>, normals: seq<Vec3>)

  predicate Valid(b: Buffers) {
    |b.vertices| == |b.normals|
  }

  /** Triangle slot `k` of `b` holds the corners of `t` and the normal `n` three times. */
  predicate Holds(b: Buffers, k: nat, t: Tri, n: Vec3) {
    && 3 * k + 3 <= |b.vertices|
    && 3 * k + 3 <= |b.normals|
    && b.vertices[3 * k] == t.v1
    && b.vertices[3 * k + 1] == t.v2
    && b.vertices[3 * k + 2] == t.v3
    && b.normals[3 * k] == n
    && b.normals[3 * k + 1] == n
    && b.normals[3 * k + 2] == n
  }

  /** `b` and `b'` have the same shape and agree on every vertex and normal slot outside
      `[lo, hi)`. */
  predicate SameOutside(b: Buffers, b': Buffers, lo: nat, hi: nat) {
    && |b'.vertices| == |b.vertices|
    && |b'.normals| == |b.normals|
    && (forall s :: 0 <= s < |b.vertices| && !(lo <= s < hi) ==> b'.vertices[s] == b.vertices[s])
    && (forall s :: 0 <= s < |b.normals| && !(lo <= s < hi) ==> b'.normals[s] == b.normals[s])
  }

  /** The six slot stores of `AddTriangle` for the claimed triangle slot `k`. */
  function WriteTriangle(b: Buffers, k: nat, t: Tri, n: Vec3): (r: Buffers)
    requires Valid(b) && 3 * k + 3 <= |b.vertices|
    ensures Valid(r)
    ensures Holds(r, k, t, n)
    ensures SameOutside(b, r, 3 * k, 3 * k + 3)
  {
    Buffers(
      b.vertices[3 * k := t.v1][3 * k + 1 := t.v2][3 * k + 2 := t.v3],
      b.normals[3 * k := n][3 * k + 1 := n][3 * k + 2 := n])
  }

  /** A triangle slot outside a rewritten range keeps its contents. */
  lemma {:induction false} HoldsPreserved(b: Buffers, b': Buffers, lo: nat, hi: nat, k: nat, t: Tri, n: Vec3)
    requires Holds(b, k, t, n)
    requires SameOutside(b, b', lo, hi)
    requires 3 * k + 3 <= lo || hi <= 3 * k
    ensures Holds(b', k, t, n)
  {
    assert b'.vertices[3 * k] == b.vertices[3 * k];
    assert b'.vertices[3 * k + 1] == b.vertices[3 * k + 1];
    assert b'.vertices[3 * k + 2] == b.vertices[3 * k + 2];
    assert b'.normals[3 * k] == b.normals[3 * k];
    assert b'.normals[3 * k + 1] == b.normals[3 * k + 1];
    assert b'.normals[3 * k + 2] == b.normals[3 * k + 2];
  }

  /** Two rewrites inside `[lo, hi)` compose to one. */
  lemma {:induction false} SameOutsideTrans(a: Buffers, b: Buffers, c: Buffers,
                         lo1: nat, hi1: nat, lo2: nat, hi2: nat, lo: nat, hi: nat)
    requires SameOutside(a, b, lo1, hi1) && SameOutside(b, c, lo2, hi2)
    requires lo <= lo1 && hi1 <= hi && lo <= lo2 && hi2 <= hi
    ensures SameOutside(a, c, lo, hi)
  {
  }

  /** A render target as the reconstruction jobs see it: its buffers and its counter. */
  datatype Target = Target(buffers: Buffers, count: nat)

  /** `n` further claims stay inside the buffers. The source never checks this; it is the
      caller's capacity obligation. */
  predicate Fits(tg: Target, n: nat) {
    Valid(tg.buffers) && 3 * (tg.count + n) <= |tg.buffers.vertices|
  }

  /** `AddTriangle`: claim `k = Counter.Increment()` (the value before the increment) and
      write slots `3k..3k+2` of both buffers, nothing else. */
  function AddTriangle(m: MathLib, tg: Target, t: Tri): (r: Target)
    requires Fits(tg, 1)
    ensures r.count == tg.count + 1
    ensures Valid(r.buffers)
    ensures Holds(r.buffers, tg.count, t, FaceNormal(m, t))
    ensures SameOutside(tg.buffers, r.buffers, 3 * tg.count, 3 * tg.count + 3)
  {
    Target(WriteTriangle(tg.buffers, tg.count, t, FaceNormal(m, t)), tg.count + 1)
  }

  /** All triangles of all work items, item by item: the order of a sequential run. */
  function Flatten(items: seq<seq<Tri>>): seq<Tri> {
    if |items| == 0 then [] else Flatten(items[..|items| - 1]) + items[|items| - 1]
  }

  lemma {:induction false} FlattenAppend(a: seq<seq<Tri>>, b: seq<seq<Tri>>)
    ensures Flatten(a + b) == Flatten(a) + Flatten(b)
    decreases |b|
  {
    if |b| == 0 {
      assert a + b == a;
    } else {
      var b' := b[..|b| - 1];
      assert (a + b)[..|a + b| - 1] == a + b';
      FlattenAppend(a, b');
      assert Flatten(b) == Flatten(b') + b[|b| - 1];
    }
  }

  /** Number of triangles emitted before work item `i` in a sequential run. */
  function Offset(items: seq<seq<Tri>>, i: nat): nat
    requires i <= |items|
  {
    |Flatten(items[..i])|
  }

  /** Triangle `j` of work item `i` sits at position `Offset(items, i) + j` of the
      sequential order. */
  lemma {:induction false} FlattenAt(items: seq<seq<Tri>>, i: nat, j: nat)
    requires i < |items| && j < |items[i]|
    ensures Offset(items, i) + j < |Flatten(items)|
    ensures Flatten(items)[Offset(items, i) + j] == items[i][j]
  {
    assert items == items[..i] + [items[i]] + items[i + 1..];
    FlattenAppend(items[..i] + [items[i]], items[i + 1..]);
    FlattenAppend(items[..i], [items[i]]);
    assert Flatten([items[i]]) == items[i] by {
      assert [items[i]][..0] == [];
    }
  }

  /** Every work item emits exactly `n` triangles. */
  predicate Uniform(items: seq<seq<Tri>>, n: nat) {
    forall i :: 0 <= i < |items| ==> |items[i]| == n
  }

  lemma {:induction false} UniformLength(items: seq<seq<Tri>>, n: nat)
    requires Uniform(items, n)
    ensures |Flatten(items)| == n * |items|
    decreases |items|
  {
    if |items| > 0 {
      var k := |items| - 1;
      UniformLength(items[..k], n);
      assert |Flatten(items)| == n * k + n;
    }
  }

  /** With `n` triangles per work item, item `i` owns triangle slots
      `start + n*i .. start + n*i + n - 1` of a sequential run. */
  lemma {:induction false} UniformOffset(items: seq<seq<Tri>>, n: nat, i: nat)
    requires Uniform(items, n) && i <= |items|
    ensures Offset(items, i) == n * i
  {
    assert Uniform(items[..i], n);
    UniformLength(items[..i], n);
  }

  /** A parallel-for over `items`, each triangle emission being one event. */
  datatype Event = Event(item: nat, tri: nat)

  predicate ValidEvent(items: seq<seq<Tri>>, ev: Event) {
    ev.item < |items| && ev.tri < |items[ev.item]|
  }

  function TriOf(items: seq<seq<Tri>>, ev: Event): Tri
    requires ValidEvent(items, ev)
  {
    items[ev.item][ev.tri]
  }

  function Row(i: nat, n: nat): (r: seq<Event>)
    ensures |r| == n
    ensures forall j :: 0 <= j < n ==> r[j] == Event(i, j)
  {
    seq(n, (j: int) requires 0 <= j < n => Event(i, j))
  }

  /** Every emission event, in the order of a sequential run. */
  function Events(items: seq<seq<Tri>>): seq<Event> {
    if |items| == 0 then [] else Events(items[..|items| - 1]) + Row(|items| - 1, |items[|items| - 1]|)
  }

  lemma {:induction false} EventsExact(items: seq<seq<Tri>>)
    ensures |Events(items)| == |Flatten(items)|
    ensures forall ev :: ev in Events(items) <==> ValidEvent(items, ev)
    ensures forall a, b :: 0 <= a < b < |Events(items)| ==> Events(items)[a] != Events(items)[b]
    decreases |items|
  {
    if |items| > 0 {
      var k := |items| - 1;
      var init := items[..k];
      EventsExact(init);
      var es := Events(init);
      var row := Row(k, |items[k]|);
      assert Events(items) == es + row;
      forall ev | ev in Events(items)
        ensures ValidEvent(items, ev)
      {
        if ev !in es {
          assert ev in row;
        }
      }
      forall ev | ValidEvent(items, ev)
        ensures ev in Events(items)
      {
        if ev.item < k {
          assert ValidEvent(init, ev);
        } else {
          assert row[ev.tri] == ev;
        }
      }
      forall a, b | 0 <= a < b < |Events(items)|
        ensures Events(items)[a] != Events(items)[b]
      {
        if b >= |es| && a < |es| {
          assert es[a] in es;
          assert ValidEvent(init, es[a]);
        }
      }
    }
  }

  /** A linearisation of the concurrent emissions: every event exactly as often as in the
      sequential run, in any order, triangles of different items freely interleaved. */
  predicate IsSchedule(items: seq<seq<Tri>>, sched: seq<Event>) {
    multiset(sched) == multiset(Events(items))
  }

  lemma {:induction false} DistinctCountsOne(s: seq<Event>, x: Event)
    requires forall a, b :: 0 <= a < b < |s| ==> s[a] != s[b]
    requires x in s
    ensures multiset(s)[x] == 1
    decreases |s|
  {
    var k := |s| - 1;
    assert s == s[..k] + [s[k]];
    if x == s[k] {
      assert x !in s[..k];
    } else {
      assert x in s[..k];
      DistinctCountsOne(s[..k], x);
    }
  }

  lemma {:induction false} TwoOccurrences(s: seq<Event>, x: Event, a: nat, b: nat)
    requires a < b < |s| && s[a] == x && s[b] == x
    ensures multiset(s)[x] >= 2
  {
    assert s == s[..a] + [s[a]] + s[a + 1..b] + [s[b]] + s[b + 1..];
  }

  /** Under any schedule, every triangle of every work item is emitted by exactly one
      event, and the schedule has exactly as many events as the sequential run. */
  lemma {:induction false} ScheduleCoversOnce(items: seq<seq<Tri>>, sched: seq<Event>)
    requires IsSchedule(items, sched)
    ensures |sched| == |Flatten(items)|
    ensures forall e :: 0 <= e < |sched| ==> ValidEvent(items, sched[e])
    ensures forall ev :: ValidEvent(items, ev) ==> exists e :: 0 <= e < |sched| && sched[e] == ev
    ensures forall e1, e2 :: 0 <= e1 < |sched| && 0 <= e2 < |sched| && sched[e1] == sched[e2] ==> e1 == e2
  {
    EventsExact(items);
    assert |sched| == |multiset(sched)| == |multiset(Events(items))| == |Events(items)|;
    forall e | 0 <= e < |sched|
      ensures ValidEvent(items, sched[e])
    {
      assert sched[e] in multiset(sched);
    }
    forall ev | ValidEvent(items, ev)
      ensures exists e :: 0 <= e < |sched| && sched[e] == ev
    {
      assert ev in multiset(Events(items));
      assert ev in multiset(sched);
    }
    forall e1, e2 | 0 <= e1 < |sched| && 0 <= e2 < |sched| && sched[e1] == sched[e2]
      ensures e1 == e2
    {
      var x := sched[e1];
      assert x in multiset(Events(items)) by { assert x in multiset(sched); }
      DistinctCountsOne(Events(items), x);
      if e1 < e2 {
        TwoOccurrences(sched, x, e1, e2);
      } else if e2 < e1 {
        TwoOccurrences(sched, x, e2, e1);
      }
    }
  }

  /** One parallel-for of a reconstruction job over `items`, run in the linearisation
      `sched` of its atomic counter increments: event `e` claims `count + e` and writes
      only that triangle slot. */
  method RunJob(m: MathLib, tg: Target, items: seq<seq<Tri>>, sched: seq<Event>) returns (r: Target)
    requires forall e :: 0 <= e < |sched| ==> ValidEvent(items, sched[e])
    requires Fits(tg, |sched|)
    ensures r.count == tg.count + |sched|
    ensures Valid(r.buffers)
    ensures forall e :: 0 <= e < |sched| ==>
      Holds(r.buffers, tg.count + e, TriOf(items, sched[e]), FaceNormal(m, TriOf(items, sched[e])))
    ensures SameOutside(tg.buffers, r.buffers, 3 * tg.count, 3 * (tg.count + |sched|))
  {
    r := tg;
    var e := 0;
    while e < |sched|
      invariant 0 <= e <= |sched|
      invariant r.count == tg.count + e
      invariant Valid(r.buffers)
      invariant forall d :: 0 <= d < e ==>
        Holds(r.buffers, tg.count + d, TriOf(items, sched[d]), FaceNormal(m, TriOf(items, sched[d])))
      invariant SameOutside(tg.buffers, r.buffers, 3 * tg.count, 3 * (tg.count + e))
    {
      r := AddTriangle(m, r, TriOf(items, sched[e]));
      e := e + 1;
    }
  }

  /** The whole point of the counter: after a parallel run of a job from counter value
      `c` under ANY linearisation, triangle `j` of item `i` occupies exactly one triangle
      slot, that slot lies in `[c, c + total)`, and the counter ends at `c + total`. */
  lemma {:induction false} ParallelRunPlacesEachTriangleOnce(
    m: MathLib, tg: Target, items: seq<seq<Tri>>, sched: seq<Event>, r: Target, ev: Event)
    requires IsSchedule(items, sched)
    requires Fits(tg, |sched|)
    requires r.count == tg.count + |sched|
    requires forall e :: 0 <= e < |sched| ==>
      ValidEvent(items, sched[e]) &&
      Holds(r.buffers, tg.count + e, TriOf(items, sched[e]), FaceNormal(m, TriOf(items, sched[e])))
    requires ValidEvent(items, ev)
    ensures r.count == tg.count + |Flatten(items)|
    ensures exists e ::
              && 0 <= e < |sched| && sched[e] == ev
              && Holds(r.buffers, tg.count + e, TriOf(items, ev), FaceNormal(m, TriOf(items, ev)))
    ensures forall e1, e2 :: 0 <= e1 < |sched| && 0 <= e2 < |sched| && sched[e1] == ev && sched[e2] == ev ==> e1 == e2
  {
    ScheduleCoversOnce(items, sched);
  }

  /** `OnCreateManager`'s index array: `indices[i] = i` for every vertex slot. */
  method IndexRamp(n: nat) returns (indices: seq<int>)
    ensures |indices| == n
    ensures forall i :: 0 <= i < n ==> indices[i] == i
  {
    indices := [];
    var i := 0;
    while i < n
      invariant 0 <= i <= n
      invariant |indices| == i
      invariant forall k :: 0 <= k < i ==> indices[k] == k
    {
      indices := indices + [i];
      i := i + 1;
    }
  }

  /** With the ramp as index array, mesh triangle `k` is drawn from exactly the three
      vertex slots that triangle slot `k` writes. */
  lemma {:induction false} RampTriangle(indices: seq<int>, k: nat)
    requires forall i :: 0 <= i < |indices| ==> indices[i] == i
    requires 3 * k + 3 <= |indices|
    ensures indices[3 * k .. 3 * k + 3] == [3 * k, 3 * k + 1, 3 * k + 2]
  {
  }
}

=== FILE: systems.dfy ===
/** The five reconstruction systems as instances of the shared update: what each job emits
    per entity, and what the counter and the buffer capacity allow. */
module ReconstructionSystems {
  import opened Vec
  import opened Facets
  import opened Slots
  import opened Particles
  import opened Animation
  import opened Dispatch
  import DisintegratorShape
  import ButterflyShape
  import SimpleShape

  /** The work items of `DisintegratorReconstructionSystem`'s job over one renderer's
      group: four triangles per fragment, the flap keyed by the index inside the group. */
  function FragmentItems(ml: MathLib, ds: seq<Disintegrator>, ps: seq<Vec3>, fs: seq<Facet>): (r: seq<seq<Tri>>)
    requires |ps| == |ds| && |fs| == |ds|
    ensures |r| == |ds| && Uniform(r, 4)
    ensures forall k :: 0 <= k < |r| ==> r[k] == DisintegratorShape.Fragment(ml, k, ds[k].velocity, ds[k].life, ps[k], fs[k])
  {
    seq(|ds|, (k: int) requires 0 <= k < |ds| => DisintegratorShape.Fragment(ml, k, ds[k].velocity, ds[k].life, ps[k], fs[k]))
  }

  /** `ParticleReconstructionSystem`'s job: four triangles per particle. */
  function IndexedButterflyItems(ml: MathLib, qs: seq<LegacyParticle>, ps: seq<Vec3>, fs: seq<Facet>): (r: seq<seq<Tri>>)
    requires |ps| == |qs| && |fs| == |qs|
    ensures |r| == |qs| && Uniform(r, 4)
    ensures forall k :: 0 <= k < |r| ==> r[k] == ButterflyShape.IndexedButterfly(ml, k, qs[k], ps[k], fs[k])
  {
    seq(|qs|, (k: int) requires 0 <= k < |qs| => ButterflyShape.IndexedButterfly(ml, k, qs[k], ps[k], fs[k]))
  }

  /** The butterfly jobs keyed by the particle's own `Random`: four triangles per
      particle. */
  function SeededButterflyItems(ml: MathLib, qs: seq<TimedParticle>, ps: seq<Vec3>, fs: seq<Facet>): (r: seq<seq<Tri>>)
    requires |ps| == |qs| && |fs| == |qs|
    ensures |r| == |qs| && Uniform(r, 4)
    ensures forall k :: 0 <= k < |r| ==> r[k] == ButterflyShape.SeededButterfly(ml, qs[k], ps[k], fs[k])
  {
    seq(|qs|, (k: int) requires 0 <= k < |qs| => ButterflyShape.SeededButterfly(ml, qs[k], ps[k], fs[k]))
  }

  /** `SimpleParticleSystem`'s job: one spun facet per particle, aged by `Life`. */
  function LifeSpinItems(ml: MathLib, qs: seq<LegacyParticle>, ps: seq<Vec3>, fs: seq<Facet>): (r: seq<seq<Tri>>)
    requires |ps| == |qs| && |fs| == |qs|
    ensures |r| == |qs| && Uniform(r, 1)
    ensures forall k :: 0 <= k < |r| ==> r[k] == SimpleShape.Spin(ml, qs[k].velocity, qs[k].life, ps[k], fs[k])
  {
    seq(|qs|, (k: int) requires 0 <= k < |qs| => SimpleShape.Spin(ml, qs[k].velocity, qs[k].life, ps[k], fs[k]))
  }

  /** `SimpleReconstructionJob`: one spun facet per particle, aged by `Time`. */
  function TimeSpinItems(ml: MathLib, qs: seq<TimedParticle>, ps: seq<Vec3>, fs: seq<Facet>): (r: seq<seq<Tri>>)
    requires |ps| == |qs| && |fs| == |qs|
    ensures |r| == |qs| && Uniform(r, 1)
    ensures forall k :: 0 <= k < |r| ==> r[k] == SimpleShape.Spin(ml, qs[k].velocity, qs[k].time, ps[k], fs[k])
  {
    seq(|qs|, (k: int) requires 0 <= k < |qs| => SimpleShape.Spin(ml, qs[k].velocity, qs[k].time, ps[k], fs[k]))
  }

  /** A renderer with a single job of `n` work items of `m` triangles each. */
  lemma {:induction false} SingleJobTotal(items: seq<seq<Tri>>, m: nat)
    requires Uniform(items, m)
    ensures Total([items]) == m * |items|
  {
    UniformLength(items, m);
    assert Total([items]) == Before([items], 0) + |Flatten(items)|;
  }

  /** With the reset, a renderer's counter after the update is exactly the number of
      triangles emitted this frame, whatever it was before. The two systems that reset
      also schedule empty groups, so the reset happens even in a frame with nothing to draw. */
  lemma {:induction false} ResetCountsThisFrame(ml: MathLib, p: Policy, tg: Target, rd': Renderer,
                             jobs: seq<seq<seq<Tri>>>, scheds: seq<seq<Event>>)
    requires p.reset && !p.skipEmpty && |jobs| == |scheds|
    requires Done(ml, p, Live(tg), rd', jobs, scheds)
    ensures rd'.Live? && rd'.target.count == Total(jobs)
  {
  }

  /** Without the reset, the update only adds: the counter carries the previous frames'
      triangles, so a renderer drawing the same group every frame grows by the same amount
      each time until it no longer fits. */
  lemma {:induction false} CounterCarriesOver(ml: MathLib, p: Policy, tg: Target, rd': Renderer,
                           jobs: seq<seq<seq<Tri>>>, scheds: seq<seq<Event>>)
    requires !p.reset && |jobs| == |scheds|
    requires Done(ml, p, Live(tg), rd', jobs, scheds)
    ensures rd'.Live? && rd'.target.count == tg.count + Total(jobs)
    ensures forall s :: 0 <= s < 3 * tg.count && s < |tg.buffers.vertices| ==>
      rd'.target.buffers.vertices[s] == tg.buffers.vertices[s]
  {
  }

  /** A disintegrator frame: with the reset and four triangles per fragment, `n` fragments
      fill triangle slots `0 .. 4n - 1`, which fits the 510000-vertex buffers exactly when
      `n <= 42500`. */
  lemma {:induction false} DisintegratorCapacity(ml: MathLib, tg: Target, ds: seq<Disintegrator>, ps: seq<Vec3>, fs: seq<Facet>)
    requires |ps| == |ds| && |fs| == |ds|
    requires Valid(tg.buffers) && |tg.buffers.vertices| == MaxVertices
    ensures var jobs := [FragmentItems(ml, ds, ps, fs)];
      !Fails(DisintegratorPolicy, Live(tg), jobs) <==> |ds| <= 42500
  {
    SingleJobTotal(FragmentItems(ml, ds, ps, fs), 4);
  }

  /** The same bound for the particle-to-butterfly system of the same revision. */
  lemma {:induction false} IndexedButterflyCapacity(ml: MathLib, tg: Target, qs: seq<LegacyParticle>, ps: seq<Vec3>, fs: seq<Facet>)
    requires |ps| == |qs| && |fs| == |qs|
    requires Valid(tg.buffers) && |tg.buffers.vertices| == MaxVertices
    ensures var jobs := [IndexedButterflyItems(ml, qs, ps, fs)];
      !Fails(IndexedButterflyPolicy, Live(tg), jobs) <==> |qs| <= 42500
  {
    SingleJobTotal(IndexedButterflyItems(ml, qs, ps, fs), 4);
  }

  /** One triangle per simple particle: from an empty counter, up to 170000 particles fit. */
  lemma {:induction false} SimpleCapacity(ml: MathLib, tg: Target, qs: seq<LegacyParticle>, ps: seq<Vec3>, fs: seq<Facet>)
    requires |ps| == |qs| && |fs| == |qs|
    requires Valid(tg.buffers) && |tg.buffers.vertices| == MaxVertices && tg.count == 0
    ensures var jobs := [LifeSpinItems(ml, qs, ps, fs)];
      !Fails(SimplePolicy, Live(tg), jobs) <==> |qs| <= 170000
  {
    SingleJobTotal(LifeSpinItems(ml, qs, ps, fs), 1);
  }

  /** The butterfly system dereferences the arrays of `default(Renderer)` when entities are
      drawn by it, and passes over it when none are. */
  lemma {:induction false} ButterflyDefaultRenderer(jobs: seq<seq<seq<Tri>>>)
    ensures Fails(ButterflyPolicy, Unallocated, jobs) <==> Total(jobs) > 0
  {
  }
}

=== FILE: vec.dfy ===
/** Idealised `float3` arithmetic and the math intrinsics the effect relies on.

    Floats are modelled as mathematical reals (no rounding, no NaN). Operations that are
    exact polynomials (`+`, `-`, scaling, `dot`, `cross`, `lerp`, `saturate`) are defined
    here, and `normalize` as `rsqrt(dot(v, v)) * v`; operations whose value the model never
    needs (`rsqrt`, `sin`, noise gradients, the per-index hash `Random.Value01`, rotations
    and matrix transforms) are kept uninterpreted as the fields of a `MathLib` record that
    every operation receives. */
module Vec {

  datatype Vec3 = Vec3(x: real, y: real, z: real)

  const Zero := Vec3(0.0, 0.0, 0.0)
  const Up := Vec3(0.0, 1.0, 0.0)

  function Add(a: Vec3, b: Vec3): Vec3 {
    Vec3(a.x + b.x, a.y + b.y, a.z + b.z)
  }

  function Sub(a: Vec3, b: Vec3): Vec3 {
    Vec3(a.x - b.x, a.y - b.y, a.z - b.z)
  }

  function Scale(a: Vec3, s: real): Vec3 {
    Vec3(a.x * s, a.y * s, a.z * s)
  }

  /** `float3 + float`: the scalar is broadcast to every component. */
  function AddScalar(a: Vec3, s: real): Vec3 {
    Vec3(a.x + s, a.y + s, a.z + s)
  }

  function Cross(a: Vec3, b: Vec3): Vec3 {
    Vec3(a.y * b.z - a.z * b.y, a.z * b.x - a.x * b.z, a.x * b.y - a.y * b.x)
  }

  function Dot(a: Vec3, b: Vec3): real {
    a.x * b.x + a.y * b.y + a.z * b.z
  }

  predicate Orthogonal(a: Vec3, b: Vec3) {
    Dot(a, b) == 0.0
  }

  /** `cross(a, b)` is orthogonal to both of its arguments. */
  lemma {:induction false} CrossOrthogonal(a: Vec3, b: Vec3)
    ensures Orthogonal(Cross(a, b), a) && Orthogonal(Cross(a, b), b)
    ensures Orthogonal(a, Cross(a, b)) && Orthogonal(b, Cross(a, b))
  {
    var c := Cross(a, b);
    assert Dot(c, a) == a.x * (a.y * b.z - a.z * b.y) + a.y * (a.z * b.x - a.x * b.z) + a.z * (a.x * b.y - a.y * b.x);
    assert Dot(c, b) == b.x * (a.y * b.z - a.z * b.y) + b.y * (a.z * b.x - a.x * b.z) + b.z * (a.x * b.y - a.y * b.x);
  }

  /** Scaling either side keeps two vectors orthogonal. */
  lemma {:induction false} ScaledOrthogonal(a: Vec3, b: Vec3, s: real, t: real)
    requires Orthogonal(a, b)
    ensures Orthogonal(Scale(a, s), Scale(b, t)) && Orthogonal(Scale(a, s), b) && Orthogonal(a, Scale(b, t))
  {
    assert Dot(Scale(a, s), Scale(b, t)) == s * t * Dot(a, b);
    assert Dot(Scale(a, s), b) == s * Dot(a, b);
    assert Dot(a, Scale(b, t)) == t * Dot(a, b);
  }

  lemma {:induction false} OrthogonalSymmetric(a: Vec3, b: Vec3)
    ensures Orthogonal(a, b) <==> Orthogonal(b, a)
  {
  }

  /** `cross(up, v)` lies in the horizontal plane. */
  lemma {:induction false} CrossUpHorizontal(v: Vec3)
    ensures Cross(Up, v).y == 0.0
  {
  }

  /** `(v1 + v2 + v3) / 3` */
  function Centroid(a: Vec3, b: Vec3, c: Vec3): Vec3 {
    Vec3((a.x + b.x + c.x) / 3.0, (a.y + b.y + c.y) / 3.0, (a.z + b.z + c.z) / 3.0)
  }

  /** Offsets that cancel out leave the centroid at the common origin. */
  lemma {:induction false} CentroidOfOffsets(p: Vec3, a: Vec3, b: Vec3, c: Vec3)
    requires Add(Add(a, b), c) == Zero
    ensures Centroid(Add(p, a), Add(p, b), Add(p, c)) == p
  {
    assert a.x + b.x + c.x == 0.0 && a.y + b.y + c.y == 0.0 && a.z + b.z + c.z == 0.0;
  }

  /** `math.saturate`: clamp to the unit interval. */
  function Saturate(x: real): (r: real)
    ensures 0.0 <= r <= 1.0
    ensures x <= 0.0 ==> r == 0.0
    ensures x >= 1.0 ==> r == 1.0
    ensures 0.0 <= x <= 1.0 ==> r == x
  {
    if x < 0.0 then 0.0 else if x > 1.0 then 1.0 else x
  }

  /** `math.lerp(a, b, t)`, i.e. `a + t * (b - a)`. */
  function Lerp(a: Vec3, b: Vec3, t: real): (r: Vec3)
    ensures t == 0.0 ==> r == a
    ensures t == 1.0 ==> r == b
  {
    Add(a, Scale(Sub(b, a), t))
  }

  /** The uninterpreted intrinsics. `rsqrt(x)` is `1 / sqrt(x)`; `rotate(axis, angle, v)`
      stands for `math.mul(math.axisAngle(axis, angle), v)`; `value01(seed)` for the
      hash `Random.Value01(seed)` on a `uint` seed. */
  datatype MathLib = MathLib(
    rsqrt: real -> real,
    sin: real -> real,
    noiseGrad: Vec3 -> Vec3,
    value01: nat -> real,
    rotate: (Vec3, real, Vec3) -> Vec3
  )

  /** `math.normalize(v)`, i.e. `rsqrt(dot(v, v)) * v`: a rescaling of `v`, so orthogonality
      to `v` carries over. */
  function Normalize(ml: MathLib, v: Vec3): (r: Vec3)
    ensures v == Zero ==> r == Zero
  {
    Scale(v, ml.rsqrt(Dot(v, v)))
  }

  lemma {:induction false} NormalizeOrthogonal(ml: MathLib, v: Vec3, u: Vec3)
    requires Orthogonal(v, u)
    ensures Orthogonal(Normalize(ml, v), u)
  {
    ScaledOrthogonal(v, u, ml.rsqrt(Dot(v, v)), 1.0);
  }

  /** Normalising both sides keeps two vectors orthogonal. */
  lemma {:induction false} NormalizedOrthogonal(ml: MathLib, a: Vec3, b: Vec3)
    requires Orthogonal(a, b)
    ensures Orthogonal(Normalize(ml, a), Normalize(ml, b))
  {
    var na := Normalize(ml, a);
    NormalizeOrthogonal(ml, a, b);
    OrthogonalSymmetric(na, b);
    NormalizeOrthogonal(ml, b, na);
    OrthogonalSymmetric(Normalize(ml, b), na);
  }
}

=== FILE: world.dfy ===
/** The slice of the ECS entity manager the spawners use: entities are numbered in creation
    order and carry one component record each. */
module Worlds {

  /** An entity handle; `Null` is `Entity.Null`. */
  datatype EntityRef = Null | Ref(id: nat)

  /** The live entities with their components, and the number the next entity gets. */
  datatype World<C> = World(entities: map<nat, C>, next: nat)

  /** No live entity carries a number that has not been handed out yet. */
  predicate Fresh<C>(w: World<C>) {
    forall id :: id in w.entities ==> id < w.next
  }

  predicate Exists<C>(w: World<C>, e: EntityRef) {
    e.Ref? && e.id in w.entities
  }

  /** `CreateEntity`: the new entity is numbered `w.next`. */
  function Create<C>(w: World<C>, c: C): (r: World<C>)
    ensures Fresh(w) ==> Fresh(r)
    ensures w.next in r.entities && r.entities[w.next] == c
    ensures r.next == w.next + 1
    ensures forall id :: id in r.entities <==> id in w.entities || id == w.next
    ensures Fresh(w) ==> forall id :: id in w.entities ==> r.entities[id] == w.entities[id]
  {
    World(w.entities[w.next := c], w.next + 1)
  }

  /** `DestroyEntity`: the entity disappears, the numbering is untouched. */
  function Destroy<C>(w: World<C>, id: nat): (r: World<C>)
    ensures Fresh(w) ==> Fresh(r)
    ensures r.next == w.next
    ensures forall x :: x in r.entities <==> x in w.entities && x != id
    ensures forall x :: x in r.entities ==> r.entities[x] == w.entities[x]
  {
    World(w.entities - {id}, w.next)
  }

  /** `EntityManager.Instantiate(src, array)`: `n` copies of entity `src`, numbered
      consecutively from `w.next`. */
  method InstantiateMany<C>(w: World<C>, src: nat, n: nat) returns (w': World<C>, clones: seq<nat>)
    requires Fresh(w) && src in w.entities
    ensures Fresh(w') && |clones| == n && w'.next == w.next + n
    ensures forall j :: 0 <= j < n ==> clones[j] == w.next + j && clones[j] in w'.entities && w'.entities[clones[j]] == w.entities[src]
    ensures forall id :: id in w'.entities <==> id in w.entities || w.next <= id < w'.next
    ensures forall id :: id in w.entities ==> w'.entities[id] == w.entities[id]
  {
    w' := w;
    clones := [];
    while |clones| < n
      invariant |clones| <= n
      invariant Fresh(w') && w'.next == w.next + |clones|
      invariant forall j :: 0 <= j < |clones| ==> clones[j] == w.next + j && clones[j] in w'.entities && w'.entities[clones[j]] == w.entities[src]
      invariant forall id :: id in w'.entities <==> id in w.entities || w.next <= id < w'.next
      invariant forall id :: id in w.entities ==> w'.entities[id] == w.entities[id]
    {
      clones := clones + [w'.next];
      w' := Create(w', w.entities[src]);
    }
  }

  /** A renderer allocated by a spawning system, identified by its position in the
      system's disposal list; `settings` names the render settings it was given. */
  datatype RendererInfo = RendererInfo(settings: nat)
}
